=== FILE: README.md ===
# MCTP_Web core, modelled in Dafny

This project models the request-handling core of the MCTP_Web Django site:

- the login endpoint `login_api`, with its two failure counters (one per
  username, one per client address) kept in the cache;
- the authentication backend chain it calls: the username-or-QQ backend,
  then Django's `ModelBackend`;
- the player record and its uniqueness constraints;
- the password complexity validator and its symbol regex;
- the form helpers: sensitive-word masking, CSS-class injection and the
  password field check;
- the image upload validator;
- the permission decorators;
- the API exception middleware and the security-header middleware;
- the JSON response envelope;
- the environment-driven settings that configure all of the above.

Each source file is one Dafny module. Three shared modules support them:

- `Wrappers` holds `Option`, `Result` and `Outcome`.
- `Text` holds Python's string operations on `seq<char>`: ASCII case
  mapping, `strip` with Python's whitespace set, `split`/`join` on a
  separator, `str(int)` and `int(str)`.
- `Http` holds JSON values, Django's case-insensitive header map, requests
  and responses.

`Sorting` models Python's `sorted` on strings. The upload validator uses it
for its "only these formats" listing.

Everything is a pure function. Values that come from outside the program are
parameters:

- The login view is `LoginApi.Step(cache, now, limits, store, request)` and
  returns the new cache and an outcome. Its parameters are the cache, the
  clock, the user table, Django's password-hash check, the settings values
  and the request.
- The format PIL detects in an uploaded file is also a parameter.

The user table is a sequence in primary-key order. The user model declares
no ordering, so `.first()` on the either-field query returns the match with
the smallest key.

## Model

| member | source | states |
|---|---|---|
| LoginApi.AttemptKeys | api/views.py:14-15 | the user key and the IP key never coincide, and each one gives back the username or the address it was built from |
| LoginApi.UserAndIpKeysDisjoint | api/views.py:14-15 | no username's key equals any address's key, so the two counters never share an entry |
| LoginApi.KeysInjective | api/views.py:14-15 | distinct usernames (or addresses) get distinct keys, so one user's failures never count against another |
| LoginApi.Read | api/views.py:28-29 | `cache.get(key, 0)` is the stored count while the entry has not expired, and 0 when it has expired or is missing |
| LoginApi.Write | api/views.py:36-37 | `cache.set` stores the count with expiry now plus the timeout and leaves every other key as it was |
| LoginApi.Delete | api/views.py:41 | `cache.delete` removes the key and leaves every other key as it was |
| LoginApi.Step | api/views.py:18-44 | a request is rejected as bad exactly when the username or password is missing or empty, and then the cache is untouched; otherwise at most the two counter keys of this request change |
| LoginApi.Render | api/views.py:24-44 | every answer is the JSON envelope; the status is 200 exactly for a login, and `success` is true exactly when the status is 200 |
| LoginApi.RenderStatus | api/views.py:24-44 | the four outcomes answer 400, 429, 401 and 200; `success` is true only for a login, whose data carries the account's username and id |
| LoginApi.RenderInjective | api/views.py:24-44 | two outcomes answer alike exactly when they are equal: the lockout minutes, the remaining attempts and the account can all be read back |
| LoginApi.MissingInputRejected | api/views.py:24-25 | without both credentials the answer is 400 and neither the cache nor the user table matters |
| LoginApi.BlockedIffThrottled | api/views.py:27-32 | the request is blocked exactly when the user count has reached the limit or the IP count has reached twice the limit; a blocked request changes nothing and does not consult the user table |
| LoginApi.FailureCounts | api/views.py:34-39 | a failed login happens only when authentication returned None past the gate; it raises both counters by one, restarts both windows, touches nothing else and reports `max(0, limit - new user count)` |
| LoginApi.PastGateOutcome | api/views.py:34-44 | past the gate, the answer is 401 exactly when authentication fails and 200 exactly when it succeeds |
| LoginApi.SuccessClearsUserKeyOnly | api/views.py:41-44 | a login deletes the user counter, keeps the IP counter and answers with the authenticated row's username and id |
| LoginApi.OneFailure | api/views.py:31-39 | one wrong password under both limits reports `limit - (count + 1)` attempts left and raises both counters by one for a fresh lockout window |
| LoginApi.FailureRun | api/views.py:34-39 | n wrong passwords inside a sliding window report remaining counts limit-(a+1), limit-(a+2), … and leave both counters raised by n with the window running from the last attempt |
| LoginApi.LockoutHolds | api/views.py:28-32 | while the user counter is live and at the limit, every request for that username is refused, even with the right password |
| LoginApi.ExpiryReopens | api/views.py:28-31 | once both counters have expired (with a positive limit) the request is not blocked |
| LoginApi.RemainingDecreases | api/views.py:36-38 | a second failure inside the window reports exactly one attempt fewer than the first |
| LoginApi.FailureIsolatesOtherUsers | api/views.py:27-37 | a failure never changes what another username's counter reads, and raises the shared IP counter by one |
| LoginApi.ThrottleScenario | api/tests.py:47-56 | with limit 3, three wrong passwords report 2, 1, 0 remaining and a fourth request, even with the right password, gets a 429 whose `success` is false |
| AuthBackends.FirstMatch | players/auth_backends.py:15 | the index of the first row in key order whose username or QQ equals the identifier, and None exactly when no row matches |
| AuthBackends.ResolveUsername | players/auth_backends.py:10-11 | the `username` argument when given, else the `USERNAME_FIELD` keyword; None exactly when both are missing |
| AuthBackends.UsernameOrQq | players/auth_backends.py:9-20 | returns a user only when both credentials are present and no fault occurred, and then it is the first row matching by username or QQ, with a matching password, that may log in; whenever that first row qualifies, it is returned |
| AuthBackends.ModelBackendAuth | mysite/settings.py:158-161 | the fallback backend returns only the row whose username is the identifier, when its password matches and it is active, and always returns that row in that case |
| AuthBackends.Authenticate | players/auth_backends.py:9-20 | missing credentials never authenticate; a returned user is an active row named by the identifier whose password matches; an active player's own username with the right password always authenticates, to that row or to an earlier row whose QQ number is that username |
| AuthBackends.AuthenticateSound | players/auth_backends.py:15-17 | whatever the backend chain returns is a row of the table that the identifier names by username or QQ, whose password matches and which is active |
| AuthBackends.AuthenticateNeedsBoth | players/auth_backends.py:12-13 | a missing username or password never authenticates through either backend |
| AuthBackends.WrongPasswordRejected | players/auth_backends.py:16 | a password that no row accepts is rejected for every identifier |
| AuthBackends.LoginByOwnIdentifier | players/auth_backends.py:15-17 | when only row k answers to the identifier and its password and active flag are right, the chain returns row k |
| AuthBackends.LoginByUsernameOrQq | api/tests.py:32-45 | an account whose username and QQ no other row claims logs in both by username and by QQ |
| AuthBackends.UsernameLoginAlwaysReachesAccount | mysite/settings.py:158-161 | logging in by an active account's username with its password always succeeds, either as that account or as an earlier row whose QQ equals that username |
| AuthBackends.QqShadowedByEarlierUsername | players/auth_backends.py:15 | when an earlier row's username equals a player's QQ, a login by that QQ with the player's password fails: only the first match is tried and the fallback looks at usernames only |
| Players.NewUser | players/models.py:7-9 | a new player is not whitelisted, not staff and active, with the given identity fields |
| Players.Display | players/models.py:21-22 | `str(user)` is the nickname when it is non-empty and the username otherwise |
| Players.DisplayIgnoresAccountState | players/models.py:21-22 | the displayed name depends only on the nickname and the username, never on the password, QQ number, key or flags |
| Players.DisplayIdentifiesWithoutNicknames | players/models.py:21-22 | two distinct players without a nickname in a table with unique usernames display differently |
| Players.Insert | players/models.py:7-8 | an insert succeeds exactly when the fields are within their limits and neither the username nor the QQ number is taken; the row is appended with the next key |
| Players.InsertPreservesValid | players/models.py:8 | inserting keeps keys increasing, usernames unique, QQ numbers unique and every row within its limits |
| PasswordValidation.Count | common/validators.py:16-18 | a class count is at most the length; it is 0 exactly when no character is in the class and the full length exactly when all are |
| PasswordValidation.CountAppend | common/validators.py:16-18 | counting over a concatenation adds the counts of the parts |
| PasswordValidation.AltLength | common/validators.py:11 | the second regex alternative matches 0, 9 or 10 characters at the start, never more than the text has |
| PasswordValidation.SymbolCount | common/validators.py:11 | the number of `findall` matches is at most the length of the text |
| PasswordValidation.SymbolCountBounds | common/validators.py:11 | the match count lies between the number of class characters and the number of class characters plus colons; with no colon it is exactly the number of class characters |
| PasswordValidation.SingleCharacters | common/validators.py:11 | `!` is one match and `.` is none: the dot is inside no character class |
| PasswordValidation.AltMatches | common/validators.py:11 | `:;"'<>,/]` and `:;"'<>,` + any non-newline + `/]` are one match each |
| PasswordValidation.AltTooLong | common/validators.py:11 | the eleven characters `:;"'<>,.?/]` are no match at all |
| PasswordValidation.Validate | common/validators.py:13-24 | the password passes exactly when each of the four counts meets its minimum; otherwise the error carries the rejection message and code `password_complexity` |
| PasswordValidation.UserIgnored | common/validators.py:13-15 | the verdict does not depend on the `user` argument |
| PasswordValidation.ZeroMinimumsAcceptAll | common/validators.py:20 | with no minimum above zero every password passes, the empty one too |
| PasswordValidation.StricterRejectsMore | common/validators.py:20 | raising any minimum can only turn passes into failures |
| PasswordValidation.ConfiguredAccepts | mysite/settings.py:169 | under the configured minimums of one each, an upper-case letter, a lower-case letter, a digit and one symbol match suffice |
| PasswordValidation.AcceptsBangExample | api/tests.py:27-30 | `Abcdef1!` passes the configured validator |
| PasswordValidation.RejectsDotExample | common/validators.py:11-24 | `Abcdef1.` fails it: the dot is not a symbol |
| PasswordValidation.HelpTextOfConfigured | mysite/settings.py:169 | under the configured minimums both messages read 1 for every class |
| PasswordValidation.ErrorMessage | common/validators.py:22 | the rejection message holds a minus sign exactly when some minimum is negative |
| PasswordValidation.HelpText | common/validators.py:26-27 | the help text holds a minus sign exactly when some minimum is negative |
| PasswordValidation.HelpTextDeterminesMinimums | common/validators.py:26-27 | two validators have the same help text exactly when their four minimums agree |
| PasswordValidation.ErrorMessageDeterminesMinimums | common/validators.py:22 | two validators reject with the same message exactly when their four minimums agree |
| Forms.MaskWord | common/forms.py:13 | replacing one word by `*` never lengthens the text |
| Forms.MaskRemoves | common/forms.py:13 | after the replacement the word no longer occurs, since `*` is not in it |
| Forms.MaskKeepsAbsent | common/forms.py:12-13 | replacing one word never creates an occurrence of a word without `*` that was absent |
| Forms.MaskNoop | common/forms.py:13 | a text without the word is unchanged |
| Forms.MaskCommutes | common/forms.py:12-13 | two distinct same-length words without `*` whose occurrences cannot overlap give the same result in either order |
| Forms.SensitiveWordsDoNotOverlap | common/forms.py:5 | no suffix of one sensitive word is a prefix of the other |
| Forms.MaskOrderIrrelevant | common/forms.py:12-13 | the set's iteration order cannot change the cleaned text |
| Forms.CleanSensitive | common/forms.py:7-14 | the cleaned text contains neither sensitive word and is never longer than the input |
| Forms.CleanEmpty | common/forms.py:9-10 | the empty text is returned as is |
| Forms.CleanNoop | common/forms.py:7-14 | a text without either word is returned unchanged |
| Forms.CleanNoopAll | common/forms.py:7-14 | every text without either word is returned unchanged |
| Forms.CleanIdempotent | common/forms.py:7-14 | cleaning twice is cleaning once |
| Forms.CleanExample | common/forms.py:5-14 | the two words written together become `**` |
| Forms.CleanFields | common/forms.py:32-37 | every string field becomes `clean_sensitive` of its value, so it holds no sensitive word and is no longer; a string with no sensitive word survives unchanged; the other fields and the key set are unchanged |
| Forms.CleanFieldsIdempotent | common/forms.py:32-37 | cleaning the cleaned data again changes nothing |
| Forms.StyledClass | common/forms.py:21-22 | the injected class is non-empty with no surrounding whitespace |
| Forms.StyledClassIsStrip | common/forms.py:22 | it equals `(css + " form-control").strip()` |
| Forms.StyledClassBlank | common/forms.py:21-22 | with no class or a blank one the widget gets exactly `form-control` |
| Forms.StyledClassKeepsClass | common/forms.py:22 | a class without leading whitespace is kept and `form-control` appended |
| Forms.StyledClassRepeats | common/forms.py:21-22 | a class that already ends in `form-control` (a widget declared with that class) gets `form-control` a second time |
| Forms.StyleAttrs | common/forms.py:20-22 | every widget ends up with a `class` attribute holding the styled class, and no other attribute changes |
| Forms.StyledAttrsClass | common/forms.py:21-22 | the new class is `form-control` when the old one was missing or blank, else the old class without leading whitespace plus ` form-control` |
| Forms.StyleWidgets | common/forms.py:18-22 | no field is added or dropped and no non-class attribute changes; every widget's class becomes `(css + " form-control").strip()` of its current class, which is `form-control` for a missing or blank class and the class without leading whitespace plus ` form-control` otherwise |
| Forms.CleanPassword | common/forms.py:43-46 | the field value is returned unchanged exactly when the configured complexity validator accepts it; otherwise the error has the complexity code |
| Uploads.NormalizedList | common/upload_validators.py:15 | each entry is stripped and upper-cased, in settings order |
| Uploads.AllowedSet | common/upload_validators.py:15 | the allowed formats are exactly the normalised entries |
| Uploads.Listing | common/upload_validators.py:17 | the listed formats are strictly sorted and are exactly the allowed set |
| Uploads.Message | common/upload_validators.py:10-21 | each error's text starts with a character that tells the three errors apart |
| Uploads.OversizeMessageNamesLimit | common/upload_validators.py:10 | two oversize messages are equal exactly when they name the same limit |
| Uploads.ValidateImage | common/upload_validators.py:5-21 | too large exactly when over the byte limit; unrecognised exactly when within the limit and PIL names no format; accepted exactly when within the limit and the upper-cased format is allowed; an unsupported-format error names that format and the sorted allow-list, which lacks it |
| Uploads.LimitIsInclusive | common/upload_validators.py:8-9 | a file of exactly the limit passes and one byte more is too large |
| Uploads.OversizeIgnoresFormat | common/upload_validators.py:9-10 | an oversize file gets the same error whatever its format and the allow-list |
| Uploads.FormatCaseInsensitive | common/upload_validators.py:14 | formats that upper-case alike get the same verdict |
| Uploads.AllowListByNormalForm | common/upload_validators.py:15 | allow-lists with the same normalised set give the same verdict |
| Uploads.AllowListEntryNormalised | common/upload_validators.py:15 | replacing an entry by one with the same stripped upper-case form does not change the allowed set |
| Uploads.AcceptedWhenListed | common/upload_validators.py:15-16 | a small enough file whose format matches some entry after normalisation is accepted |
| Uploads.RefusedWhenUnlisted | common/upload_validators.py:16-17 | a small enough file with an unlisted format is refused with that format and the sorted list |
| Uploads.RefusedWhenOnlyOther | common/upload_validators.py:15-17 | when every entry is one other format, the refusal lists just that format |
| Uploads.SmallPngAccepted | api/tests.py:66-72 | a PNG under 1 MB passes when PNG is listed |
| Uploads.PngRefusedWhenOnlyJpeg | api/tests.py:74-80 | with only JPEG allowed a PNG is refused, listing `JPEG` |
| Uploads.PngRefusalMessage | common/upload_validators.py:17 | the refusal reads `不支持的图片格式：PNG，仅支持：JPEG` |
| Sorting.AtMostTotal | common/upload_validators.py:17 | any two strings are comparable |
| Sorting.AtMostTrans | common/upload_validators.py:17 | the string order is transitive |
| Sorting.AtMostAntisym | common/upload_validators.py:17 | strings ordered both ways are equal |
| Sorting.Insert | common/upload_validators.py:17 | inserting into an ordered list keeps it ordered and adds exactly that element |
| Sorting.Sort | common/upload_validators.py:17 | sorting gives an ordered permutation of its input |
| Sorting.Dedup | common/upload_validators.py:15-17 | removing repeats from a sorted list gives a strictly sorted list with the same elements |
| Sorting.SortedSet | common/upload_validators.py:15-17 | `sorted` of the set: strictly sorted, same elements |
| Sorting.StrictlySortedUnique | common/upload_validators.py:17 | two strictly sorted lists with the same elements are equal, so the listing is determined by the set |
| Responses.Envelope | common/responses.py:5-6 | the payload has the three standard keys plus the extra ones; extra values win, and the standard values stand where no extra key overrides them |
| Responses.JsonSuccess | common/responses.py:4-7 | status as given, and the payload is the envelope with `success` true |
| Responses.JsonError | common/responses.py:10-13 | status as given, and the payload is the envelope with `success` false |
| Responses.Defaults | common/responses.py:4-13 | without arguments: 200 with `成功`, and 400 with `失败`, null data in both |
| Responses.SuccessFlag | common/responses.py:5-11 | unless an extra keyword overrides it, `success` tells the two envelopes apart |
| Http.SetDefault | mysite/middleware.py:21 | `setdefault` leaves a header that is present under any case, otherwise adds it; no other header changes |
| Http.Set | mysite/middleware.py:21 | after setting, the header reads the new value under any case and every other header is unchanged |
| Http.JsonResponse | common/responses.py:7 | the given status and payload, served as `application/json` |
| Http.Forbidden | common/decorators.py:23 | a plain-text 403 served as HTML |
| SecurityHeaders.FirstValue | mysite/middleware.py:9-15 | a policy value exists for a header exactly when the policy table covers it |
| SecurityHeaders.ApplyPolicies | mysite/middleware.py:20-21 | a header already present is never overwritten, and every policy's header is present afterwards |
| SecurityHeaders.CoversStep | mysite/middleware.py:20 | a policy list covers a header name when its first policy or the rest does |
| SecurityHeaders.ApplyPoliciesEffect | mysite/middleware.py:20-21 | after the loop, headers already present keep their values, each policy header is present with the policy value when it was absent, and no other header appears |
| SecurityHeaders.ProcessResponse | mysite/middleware.py:17-22 | status and body untouched; existing headers kept; exactly the policy headers added where missing |
| SecurityHeaders.ApplyPoliciesNoop | mysite/middleware.py:20-21 | headers that already carry every policy are left as they are |
| SecurityHeaders.ProcessResponseIdempotent | mysite/middleware.py:17-22 | running the middleware twice is running it once |
| SecurityHeaders.RootPageHeaders | api/tests.py:20-25 | a response without them gets `X-Frame-Options: DENY` and `X-Content-Type-Options: nosniff` |
| Decorators.JsonForbidden | common/decorators.py:6-8 | a 403 with `success` false, null data and the message |
| Decorators.JsonForbiddenIsJsonError | common/decorators.py:6-8 | it is `json_error` with status 403 |
| Decorators.AdminCheck | common/decorators.py:13-14 | an anonymous user fails; an authenticated one passes exactly when staff |
| Decorators.PlayerCheck | common/decorators.py:29 | an anonymous user fails; an authenticated one passes exactly when `is_active` is present and true |
| Decorators.AdminWantsJson | common/decorators.py:21 | the admin decorator wants JSON whenever the player decorator does, for any XHR, and for nothing else |
| Decorators.PlayerWantsJson | common/decorators.py:38 | the player decorator wants JSON exactly for `Accept: application/json`, whatever the case of the header's name |
| Decorators.Denial | common/decorators.py:20-23 | a denial is 403; it is the JSON envelope with the message exactly when JSON is wanted, else the plain text |
| Decorators.AdminDenial | common/decorators.py:11-23 | the view runs exactly when the user is authenticated staff; a refusal is JSON exactly for an XHR or an exact `Accept: application/json` |
| Decorators.PlayerDenial | common/decorators.py:29-40 | the view runs exactly when the user is authenticated and active (a missing flag counts as inactive); a refusal is JSON exactly for an exact `Accept: application/json` |
| Decorators.AdminRequired | common/decorators.py:11-26 | the wrapped view answers the view's own response when the check passes and the 403 denial otherwise |
| Decorators.PlayerRequired | common/decorators.py:29-43 | the wrapped view answers the view's own response when the check passes and the 403 denial otherwise |
| Decorators.AnonymousRefused | common/decorators.py:13-14 | anonymous visitors are refused by both decorators |
| Decorators.ChecksIndependent | common/decorators.py:13-29 | the staff check and the active check are independent, and a user without `is_active` fails the player check |
| Decorators.XhrOnlyCountsForAdmin | common/decorators.py:21-38 | an XHR without the JSON `Accept` gets JSON from the admin decorator and plain text from the player decorator |
| Decorators.AcceptMustMatchExactly | common/decorators.py:38 | `application/json; charset=utf-8` does not count as asking for JSON |
| ApiMiddleware.WantsJson | common/api_middleware.py:12 | every `/api/` path wants JSON; elsewhere a request wants JSON exactly when the player decorator's header test holds |
| ApiMiddleware.ProcessException | common/api_middleware.py:10-16 | an exception is answered exactly for `/api/` paths or an exact JSON `Accept`, with a 500 whose payload is failure, null data and the exception text |
| ApiMiddleware.AnswerIsJsonError | common/api_middleware.py:15 | that answer is `json_error(str(exception), status=500)` |
| ApiMiddleware.ApiPathAlwaysAnswered | common/api_middleware.py:12-15 | every `/api/` path is answered whatever the headers |
| ApiMiddleware.PageErrorsPropagate | common/api_middleware.py:12-16 | elsewhere, without the JSON `Accept`, the exception propagates |
| ApiMiddleware.BoomExample | api/tests.py:90-98 | `RuntimeError("boom")` on `/api/test/` gives a 500 with `success` false and message `boom` |
| Settings.Getenv | mysite/settings.py:27 | the variable's value when set (even if empty), else the default |
| Settings.ParseSetting | mysite/settings.py:177 | `int(raw)` succeeds exactly when the text parses, with that value; otherwise it is the ValueError naming the variable |
| Settings.IntSetting | mysite/settings.py:177-178 | an unset variable gives the default; a set one is parsed |
| Settings.IntSettingIsIntOfGetenv | mysite/settings.py:177 | that is `int(os.getenv(name, str(default)))` |
| Settings.DefaultIsDevelopment | mysite/settings.py:27 | with `DJANGO_ENV` unset the environment is `development` |
| Settings.Debug | mysite/settings.py:28 | a set `DEBUG` decides on its own, whatever the environment; unset, debug is on exactly in development |
| Settings.DebugDefault | mysite/settings.py:28 | with `DEBUG` unset, debug is on exactly in development |
| Settings.DebugLooserThanFlags | mysite/settings.py:28-56 | `DEBUG` lower-cases and accepts `on`; the other switches accept only exact `1`, `true`, `yes` |
| Settings.StripAll | mysite/settings.py:36 | each piece stripped, in order |
| Settings.DropBlank | mysite/settings.py:36 | the non-empty pieces, and only those |
| Settings.DropBlankAppend | mysite/settings.py:36 | the filter works entry by entry, so it keeps the order and the repeats of what it keeps |
| Settings.HostsOf | mysite/settings.py:36 | every host is non-empty and stripped, and the hosts are exactly the non-blank stripped comma pieces |
| Settings.KeptPiecesClean | mysite/settings.py:36 | after the `if h.strip()` filter every kept host is non-empty and its own strip |
| Settings.AllowedHosts | mysite/settings.py:36 | every allowed host is non-empty and stripped, and they are exactly the non-blank stripped comma pieces of the value in effect |
| Settings.HostsOfOnePiece | mysite/settings.py:36 | a value without commas gives its strip, or nothing when that is empty |
| Settings.HostsFromRaw | mysite/settings.py:36 | a comma-joined list of non-empty, stripped, comma-free names parses back to itself |
| Settings.HostsRoundTrip | mysite/settings.py:36 | writing such a list into `ALLOWED_HOSTS` and loading the settings gives the list back |
| Settings.AllowedHostsSet | mysite/settings.py:36 | a set `ALLOWED_HOSTS` is parsed and the default is not consulted |
| Settings.AllowedHostsUnset | mysite/settings.py:36 | an unset `ALLOWED_HOSTS` reads as the parsed default |
| Settings.DefaultHostsParse | mysite/settings.py:36 | the default text parses to `127.0.0.1` and `localhost` |
| Settings.DefaultAllowedHosts | mysite/settings.py:36 | unset, the hosts are `127.0.0.1` and `localhost` |
| Settings.DropEmpty | mysite/settings.py:59 | the `None` entries are dropped and every present name kept |
| Settings.DropEmptyAppend | mysite/settings.py:59 | the filter distributes over concatenation |
| Settings.FilterCandidates | mysite/settings.py:41-59 | filtering the first list keeps every base name in order and drops exactly the switched-off cleanup entry |
| Settings.SwitchedMembers | mysite/settings.py:41-70 | in a list of fixed names with the two switched extras, every entry is non-empty, every fixed name is present, and each extra is present exactly when switched on |
| Settings.AppsFor | mysite/settings.py:41-70 | the base applications, the cleanup application when switched on, the local applications, then the toolbar in development |
| Settings.AppsForMembers | mysite/settings.py:41-70 | no entry is empty; the cleanup app is present exactly when switched on and the toolbar exactly in development |
| Settings.InstalledApps | mysite/settings.py:41-70 | no entry is empty and every fixed application is present; the cleanup application exactly when `ENABLE_DJANGO_CLEANUP` is an exact flag (default on), the toolbar exactly in development |
| Settings.CleanupOnByDefault | mysite/settings.py:56 | by default the cleanup application is installed |
| Settings.CleanupSwitchIsCaseSensitive | mysite/settings.py:56 | `TRUE` switches it off |
| Settings.EngineOf | mysite/settings.py:117-136 | each accepted spelling names its engine, and nothing else does |
| Settings.ServerDatabaseOf | mysite/settings.py:124-150 | PostgreSQL and MySQL fail exactly when `DB_CONN_MAX_AGE` does not parse, otherwise carry the engine and that value |
| Settings.DatabaseConfig | mysite/settings.py:116-152 | unsupported exactly when the lower-cased engine is unknown; for a SQLite spelling the SQLite file named by `DB_NAME` (default `db.sqlite3`); for PostgreSQL or MySQL exactly that engine's server settings |
| Settings.ServerDefaults | mysite/settings.py:124-150 | with nothing but the engine set, PostgreSQL connects as `postgres` on port 5432 and MySQL as `root` on port 3306, both to `mctp` on 127.0.0.1 with an empty password and a 60-second connection age |
| Settings.ServerDatabaseIgnoresEngineName | mysite/settings.py:124-150 | the server settings read every `DB_*` variable except `DB_ENGINE` |
| Settings.EngineCaseInsensitive | mysite/settings.py:116 | any spelling that lower-cases alike gives the same database |
| Settings.DefaultDatabase | mysite/settings.py:116-123 | by default SQLite on `db.sqlite3` |
| Settings.UnknownEngineRefused | mysite/settings.py:151-152 | `oracle` is refused with its name |
| Settings.LoginLimits | mysite/settings.py:177-178 | both limits are read with their defaults, and loading fails exactly when one does not parse |
| Settings.DefaultLoginLimits | mysite/settings.py:177-178 | by default 5 attempts and 15 minutes |
| Settings.FormatsOf | mysite/settings.py:200 | `raw.split(",")`: at least one piece, no piece holds a comma, and the pieces join back to the raw text, which together fix the pieces |
| Settings.MediaSettings | mysite/settings.py:199-200 | the size limit is read with its default and fails exactly when it does not parse; the formats are the comma-free pieces that join back to the variable's text |
| Settings.DefaultFormatsParsed | mysite/settings.py:200 | the default text gives `JPEG`, `PNG`, `WEBP` |
| Settings.DefaultMediaSettings | mysite/settings.py:199-200 | by default 5 MB and the three formats |
| Settings.CacheConfig | mysite/settings.py:207-227 | Redis exactly in production with a non-empty `REDIS_URL` and a parsable timeout, located at that URL; otherwise, apart from the timeout error, the local memory cache |
| Settings.LocalCacheOutsideProduction | mysite/settings.py:220-227 | outside production the cache is always local |
| Settings.SecuritySettings | mysite/settings.py:297-301 | HSTS seconds parsed with the environment's default, and each cookie and HSTS flag is its exact-spelling switch with the environment's default |
| Settings.ProductionSecurity | mysite/settings.py:297-301 | production with nothing else set turns everything on with one year of HSTS |
| Settings.DevelopmentSecurity | mysite/settings.py:297-301 | elsewhere with nothing else set everything is off |
| Settings.FlagSpellings | mysite/settings.py:300 | `on` and `TRUE` do not switch a cookie flag on; `yes` does |
| Settings.Load | mysite/settings.py:27-301 | loading succeeds exactly when every part does, reports the first failing part in file order, and carries each part's value |
| Settings.EmptyEnvironmentLoads | mysite/settings.py:27-227 | an empty environment loads: debug on, SQLite, 5 and 15, local cache, the two default hosts |
| Text.Lower | mysite/settings.py:27 | same length, each character lower-cased |
| Text.Upper | common/upload_validators.py:14 | same length, each character upper-cased |
| Text.TrimStart | common/forms.py:22 | a suffix of the input with only whitespace removed before it, and not starting with whitespace |
| Text.TrimEnd | mysite/settings.py:36 | a prefix of the input with only whitespace removed after it, and not ending with whitespace |
| Text.Strip | mysite/settings.py:36 | the result sits between two all-whitespace runs of the input and neither starts nor ends with whitespace |
| Text.StripIdempotent | mysite/settings.py:36 | stripping twice is stripping once |
| Text.StripAppend | common/forms.py:22 | stripping `css + tail`, where `tail` ends in a non-space, is the css without leading whitespace followed by `tail` |
| Text.Split | mysite/settings.py:36 | at least one piece, and no piece contains the separator |
| Text.JoinSplit | mysite/settings.py:200 | joining the pieces with the separator gives back the text |
| Text.SplitJoin | mysite/settings.py:36 | splitting a join of separator-free pieces gives the pieces back |
| Text.NatToString | common/validators.py:22 | a non-empty run of digits with no leading zero except for 0 itself |
| Text.IntToString | common/validators.py:22 | at least one character, with a leading minus exactly for negatives |
| Text.ParseInt | mysite/settings.py:177 | a text parses exactly when, once stripped, it is an optional sign followed by at least one digit and nothing else; a text that parses contains a digit |
| Text.ParseIntSpells | mysite/settings.py:177 | `int(s)` is `n` exactly when the stripped `s` is an optional sign, some zeros and `str(abs(n))`, with `-` on every negative `n` and on no positive one |
| Text.ZerosValue | mysite/settings.py:177 | leading zeros do not change the value of a digit run |
| Text.CanonicalDigits | mysite/settings.py:177 | a digit run without a superfluous leading zero is `str` of its value |
| Text.DigitRunSplit | mysite/settings.py:177 | every digit run is some zeros followed by `str` of its value |
| Text.ParseIntToString | mysite/settings.py:177 | `int(str(n)) == n` for every integer |
| Text.IntToStringInjective | common/validators.py:22-27 | distinct integers have distinct decimal texts |
| Text.MinusMarksNegative | common/validators.py:22-27 | `str(n)` holds a minus sign exactly when `n` is negative |

## Left out

- PasswordValidation.Validate: counts upper-case letters, lower-case letters and digits among ASCII characters only. Python's `isupper`, `islower` and `isdigit` also accept characters such as `É`, `é`, `٣` and `²`, so a password that relies on them gets a different verdict.
- Text.ParseInt: accepts an optional sign and ASCII digits between whitespace. Python's `int()` also accepts underscores between digits (`1_000`) and non-ASCII decimal digits; the model rejects those as `NotAnInteger`.
- Text.Upper: changes the case of ASCII letters only; Python's `str.upper` maps all of Unicode (and `ß` to `SS`).
- Text.Lower: changes the case of ASCII letters only; Python's `str.lower` maps all of Unicode.
- LoginApi.Step: the clock is an integer number of seconds, while `time.time()` is a float. An entry is live while the clock is strictly before its expiry. That matches the local-memory cache, which treats an entry as expired once its expiry is at or before the current time.
- LoginApi.Step: the cache never fails. An unreachable Redis server would raise an error, and that is not modelled.
- LoginApi.Step: the local-memory cache evicts entries once it holds `MAX_ENTRIES`, which can reset a counter early; that eviction is not modelled.
- LoginApi.Step: requests are handled one at a time. Two concurrent requests can both read a counter before either writes it, so one failure would go uncounted; that race is not modelled.
- LoginApi.Step: `login(request, user)` also creates the session. Only the response is modelled.
- AuthBackends.Authenticate: always calls the username-or-QQ backend with `fault = false`. `UsernameOrQq` models the `except Exception` branch through its `fault` parameter. A database error inside `ModelBackend` would propagate as a 500, and that is not modelled.
- AuthBackends.UsernameOrQq: compares the identifier with usernames and QQ numbers exactly, as SQLite and PostgreSQL do. Under the MySQL engine, a case-insensitive collation would also match `USERA` to `usera`.
- AuthBackends.ModelBackendAuth: compares usernames exactly, with the same MySQL caveat. Django's timing-equalising password hash on a missing user has no observable effect and is left out.
- Decorators.AdminRequired: models `admin_required(view)`. Called with no view, `admin_required()` returns Django's `user_passes_test` decorator, which redirects to the login page instead of answering 403; that form is not modelled.
- Decorators.PlayerRequired: models `player_required(view)`. Called with no view, `player_required()` returns `user_passes_test`, which redirects to the login page; that form is not modelled.
- Forms.CleanSensitive: defined on strings only. `clean_sensitive(None)` returns None, and a non-string would raise. `BaseModelForm.clean` passes only strings, which `Forms.CleanFields` models.
- Players.Insert: refuses a field over its length limit. `create_user` and `save()` do not run model validation, and SQLite does not enforce `max_length`, so such a row can still be stored. The login path therefore relies only on the uniqueness constraints (`Players.Unique`).
- Uploads.ValidateImage: PIL is not modelled. The format PIL detects is an input, and None stands for "PIL could not open the file or named no format".
- The `ping` and `cached_time` views, `require_GET`/`require_POST` (405 for other methods) and view caching are not modelled. They return constants or the clock.
- The API exception middleware's logging is not modelled.
- Password hashing is not modelled. The stored-password check is a parameter relation `checkPassword`.
- Settings.Load: loading `.env`, `BASE_DIR`, `SECRET_KEY`, `LOGGING` and its directory creation, templates, the middleware list, static and media paths, `LOGIN_URL` and the redirect URLs, and the SimpleUI settings are not modelled. None of them affects the modelled core.
- Settings.DatabaseConfig: the SQLite name is kept as the relative name the environment gives. Joining it with `BASE_DIR` is left out.
- Django's built-in password validators, middlewares and `ModelBackend` internals beyond `authenticate` are not modelled. Neither are the admin, URL configuration, app configs, signals and the abstract `BaseModel` timestamps. They are framework or wiring code.

=== FILE: api_middleware.dfy ===
/** The API exception middleware (common/api_middleware.py): an exception
    raised by a view becomes a 500 failure envelope when the request is an
    API call or asks for JSON, and is left to propagate otherwise. The
    exception is represented by its `str()`; logging is not modelled. */
module ApiMiddleware {
  import opened Wrappers
  import opened Http
  import Responses
  import Text
  import Decorators

  const ApiPrefix := "/api/"

  /** `wants_json`: an `/api/` path or an exact `Accept: application/json`. */
  function WantsJson(req: Request): (b: bool)
    ensures Text.StartsWith(req.path, ApiPrefix) ==> b
    ensures !Text.StartsWith(req.path, ApiPrefix) ==> (b <==> Decorators.PlayerWantsJson(req.headers))
  {
    Text.StartsWith(req.path, ApiPrefix) || Get(req.headers, "accept") == Some(JsonContentType)
  }

  /** `process_exception(request, exception)`: None lets Django's own
      handling continue. */
  function ProcessException(req: Request, exceptionText: string): (r: Option<Response>)
    ensures r.Some? <==> WantsJson(req)
    ensures r.Some? ==> r.value.status == 500
    ensures r.Some? ==> r.value.body == JsonBody(map["success" := JBool(false), "data" := JNull,
                                                      "message" := JStr(exceptionText)])
  {
    if WantsJson(req) then Some(JsonResponse(map["success" := JBool(false), "data" := JNull,
                                                 "message" := JStr(exceptionText)], 500))
    else None
  }

  /** The 500 answer is `json_error` with the exception text and status 500. */
  lemma AnswerIsJsonError(req: Request, exceptionText: string)
    requires WantsJson(req)
    ensures ProcessException(req, exceptionText) == Some(Responses.JsonError(exceptionText, JNull, 500, map[]))
  {
    var payload := map["success" := JBool(false), "data" := JNull, "message" := JStr(exceptionText)];
    assert Responses.Envelope(false, JNull, exceptionText, map[]) == payload;
  }

  /** Every path under `/api/` is answered in JSON, whatever the headers. */
  lemma ApiPathAlwaysAnswered(suffix: string, user: Principal, h: Headers, exceptionText: string)
    ensures ProcessException(Request(ApiPrefix + suffix, user, h), exceptionText).Some?
  {
    assert (ApiPrefix + suffix)[..|ApiPrefix|] == ApiPrefix;
  }

  /** Outside `/api/` and without the JSON `Accept`, the exception propagates. */
  lemma PageErrorsPropagate(req: Request, exceptionText: string)
    requires !Text.StartsWith(req.path, ApiPrefix)
    requires Get(req.headers, "accept") != Some(JsonContentType)
    ensures ProcessException(req, exceptionText).None?
  {
  }

  /** The test-suite call: `/api/test/` with `RuntimeError("boom")`. */
  lemma BoomExample(user: Principal, h: Headers)
    ensures var r := ProcessException(Request("/api/test/", user, h), "boom");
            r.Some? && r.value.status == 500 && r.value.body.payload["success"] == JBool(false)
            && r.value.body.payload["message"] == JStr("boom")
  {
    ApiPathAlwaysAnswered("test/", user, h, "boom");
    assert ApiPrefix + "test/" == "/api/test/";
  }
}

=== FILE: auth_backends.dfy ===
/** Credential checking (players/auth_backends.py) and the backend chain
    Django's `authenticate` runs over it (mysite/settings.py).

    `UsernameOrQq` looks a player up by username OR QQ number, tries only the
    first row of that query in primary-key order, and returns it when the
    password matches and the account may log in. When it returns None Django
    asks the next configured backend, `ModelBackend`, which looks the player
    up by username only. The password-hash comparison is Django's and is
    modelled as an arbitrary relation `checkPassword` between a row and a
    candidate password.
 */
module AuthBackends {
  import opened Wrappers
  import opened Players

  /** The user model's `USERNAME_FIELD`. */
  const UsernameField := "username"

  /** The user table together with the stored-password check. */
  datatype Store = Store(users: seq<User>, checkPassword: (User, string) -> bool)

  /** The either-field query `Q(username=ident) | Q(qq=ident)`. */
  predicate MatchesIdentifier(u: User, ident: string) {
    u.username == ident || u.qq == Some(ident)
  }

  /** Index of the first row at or after `from` that the either-field query
      returns. */
  function FirstMatchFrom(users: seq<User>, ident: string, from: nat): (r: Option<nat>)
    requires from <= |users|
    ensures r.Some? ==> from <= r.value < |users| && MatchesIdentifier(users[r.value], ident)
    ensures r.Some? ==> forall j :: from <= j < r.value ==> !MatchesIdentifier(users[j], ident)
    ensures r.None? ==> forall j :: from <= j < |users| ==> !MatchesIdentifier(users[j], ident)
    decreases |users| - from
  {
    if from == |users| then None
    else if MatchesIdentifier(users[from], ident) then Some(from)
    else FirstMatchFrom(users, ident, from + 1)
  }

  /** `.filter(Q(username=ident) | Q(qq=ident)).first()`, as an index. */
  function FirstMatch(users: seq<User>, ident: string): (r: Option<nat>)
    ensures r.Some? ==> r.value < |users| && MatchesIdentifier(users[r.value], ident)
    ensures r.Some? ==> forall j :: 0 <= j < r.value ==> !MatchesIdentifier(users[j], ident)
    ensures r.None? <==> forall j :: 0 <= j < |users| ==> !MatchesIdentifier(users[j], ident)
  {
    FirstMatchFrom(users, ident, 0)
  }

  /** Index of the first row whose username is exactly `name`. */
  function UsernameIndexFrom(users: seq<User>, name: string, from: nat): (r: Option<nat>)
    requires from <= |users|
    ensures r.Some? ==> from <= r.value < |users| && users[r.value].username == name
    ensures r.None? ==> forall j :: from <= j < |users| ==> users[j].username != name
    decreases |users| - from
  {
    if from == |users| then None
    else if users[from].username == name then Some(from)
    else UsernameIndexFrom(users, name, from + 1)
  }

  /** `ModelBackend.user_can_authenticate`: only active accounts log in. */
  predicate UserCanAuthenticate(u: User) {
    u.isActive
  }

  /** The username a backend works with: the `username` argument, else the
      keyword named by `USERNAME_FIELD`. Because that keyword is `username`
      itself, a Python call can never reach the fallback with a value, so it
      only matters for direct callers that pass a map. */
  function ResolveUsername(username: Option<string>, kwargs: map<string, string>): (r: Option<string>)
    ensures username.Some? ==> r == username
    ensures r.None? <==> username.None? && UsernameField !in kwargs
  {
    if username.Some? then username
    else if UsernameField in kwargs then Some(kwargs[UsernameField])
    else None
  }

  /** `UsernameOrQQBackend.authenticate`. `fault` stands for the query or the
      password check raising; the backend swallows any exception and answers
      None. A result is always the first row the either-field query returns,
      with a matching password and an active account, and that row is returned
      whenever it qualifies. */
  function UsernameOrQq(store: Store, username: Option<string>, password: Option<string>,
                        kwargs: map<string, string>, fault: bool): (r: Option<User>)
    ensures fault ==> r.None?
    ensures password.None? || ResolveUsername(username, kwargs).None? ==> r.None?
    ensures r.Some? ==>
              var ident := ResolveUsername(username, kwargs).value;
              && FirstMatch(store.users, ident).Some?
              && r.value == store.users[FirstMatch(store.users, ident).value]
              && MatchesIdentifier(r.value, ident)
              && store.checkPassword(r.value, password.value)
              && UserCanAuthenticate(r.value)
    ensures !fault && password.Some? && ResolveUsername(username, kwargs).Some? ==>
              var ident := ResolveUsername(username, kwargs).value;
              FirstMatch(store.users, ident).Some?
              && store.checkPassword(store.users[FirstMatch(store.users, ident).value], password.value)
              && UserCanAuthenticate(store.users[FirstMatch(store.users, ident).value])
              ==> r.Some?
  {
    var name := ResolveUsername(username, kwargs);
    if name.None? || password.None? then None
    else if fault then None
    else
      match FirstMatch(store.users, name.value)
      case None => None
      case Some(i) =>
        var u := store.users[i];
        if store.checkPassword(u, password.value) && UserCanAuthenticate(u) then Some(u) else None
  }

  /** `ModelBackend.authenticate`: `get_by_natural_key` is a `.get()` on the
      unique username column, so under the table invariant it finds the one
      row with that username, if any. */
  function ModelBackendAuth(store: Store, username: Option<string>, password: Option<string>,
                            kwargs: map<string, string>): (r: Option<User>)
    requires Unique(store.users)
    ensures password.None? || ResolveUsername(username, kwargs).None? ==> r.None?
    ensures r.Some? ==>
              && r.value in store.users
              && r.value.username == ResolveUsername(username, kwargs).value
              && store.checkPassword(r.value, password.value)
              && UserCanAuthenticate(r.value)
    ensures forall k :: 0 <= k < |store.users|
              && password.Some? && ResolveUsername(username, kwargs) == Some(store.users[k].username)
              && store.checkPassword(store.users[k], password.value)
              && UserCanAuthenticate(store.users[k])
              ==> r == Some(store.users[k])
  {
    var name := ResolveUsername(username, kwargs);
    if name.None? || password.None? then None
    else
      match UsernameIndexFrom(store.users, name.value, 0)
      case None => None
      case Some(i) =>
        var u := store.users[i];
        if store.checkPassword(u, password.value) && UserCanAuthenticate(u) then Some(u) else None
  }

  /** Row `k` is an active player who supplies their own username and the
      password their row accepts. */
  predicate OwnUsernameLogin(store: Store, k: int, username: Option<string>, password: Option<string>) {
    && 0 <= k < |store.users|
    && username == Some(store.users[k].username)
    && password.Some?
    && store.checkPassword(store.users[k], password.value)
    && UserCanAuthenticate(store.users[k])
  }

  /** `django.contrib.auth.authenticate(request, username=..., password=...)`
      with the configured backends: the username-or-QQ backend first, then
      `ModelBackend` when the first answers None. Only an active row that the
      identifier names and whose password matches is returned, and an active
      player's own username with the right password always gets through, to
      that row or to an earlier one whose QQ number is that username. */
  function Authenticate(store: Store, username: Option<string>, password: Option<string>): (r: Option<User>)
    requires Unique(store.users)
    ensures username.None? || password.None? ==> r.None?
    ensures r.Some? ==>
              && username.Some? && password.Some?
              && r.value in store.users
              && MatchesIdentifier(r.value, username.value)
              && store.checkPassword(r.value, password.value)
              && UserCanAuthenticate(r.value)
    ensures forall k {:trigger OwnUsernameLogin(store, k, username, password)} ::
              OwnUsernameLogin(store, k, username, password) ==>
              r.Some? && (r.value == store.users[k] || r.value.qq == username)
  {
    match UsernameOrQq(store, username, password, map[], false)
    case Some(u) => Some(u)
    case None => ModelBackendAuth(store, username, password, map[])
  }

  /** Every user the chain returns is a row whose username or QQ number is the
      supplied identifier, whose password matches and which is active. */
  lemma AuthenticateSound(store: Store, ident: string, password: string)
    requires Unique(store.users)
    requires Authenticate(store, Some(ident), Some(password)).Some?
    ensures var u := Authenticate(store, Some(ident), Some(password)).value;
            && u in store.users
            && MatchesIdentifier(u, ident)
            && store.checkPassword(u, password)
            && UserCanAuthenticate(u)
  {
  }

  /** A missing username or password never authenticates. */
  lemma AuthenticateNeedsBoth(store: Store, username: Option<string>, password: Option<string>)
    requires Unique(store.users)
    requires username.None? || password.None?
    ensures Authenticate(store, username, password).None?
  {
  }

  /** A password no row accepts is rejected, whatever the identifier. */
  lemma WrongPasswordRejected(store: Store, username: Option<string>, password: string)
    requires Unique(store.users)
    requires forall u :: u in store.users ==> !store.checkPassword(u, password)
    ensures Authenticate(store, username, Some(password)).None?
  {
  }

  /** No row other than `k` has the identifier `ident` in either column. */
  ghost predicate OnlyOwner(users: seq<User>, k: nat, ident: string) {
    forall j :: 0 <= j < |users| && j != k ==> !MatchesIdentifier(users[j], ident)
  }

  /** An active player with the right password logs in with an identifier
      that only that player's row holds, and the chain returns that row. */
  lemma {:induction false} LoginByOwnIdentifier(store: Store, k: nat, ident: string, password: string)
    requires Unique(store.users)
    requires k < |store.users|
    requires MatchesIdentifier(store.users[k], ident) && OnlyOwner(store.users, k, ident)
    requires store.checkPassword(store.users[k], password) && UserCanAuthenticate(store.users[k])
    ensures Authenticate(store, Some(ident), Some(password)) == Some(store.users[k])
  {
    var f := FirstMatch(store.users, ident);
    assert f.Some?;
    assert f.value == k;
  }

  /** The same active player logs in by username and by QQ number with the
      same password, and both logins return the same row, provided no other row
      holds either identifier in the other column. */
  lemma LoginByUsernameOrQq(store: Store, k: nat, password: string)
    requires Unique(store.users)
    requires k < |store.users| && store.users[k].qq.Some?
    requires forall j :: 0 <= j < |store.users| && j != k ==>
               store.users[j].qq != Some(store.users[k].username) && store.users[j].username != store.users[k].qq.value
    requires store.checkPassword(store.users[k], password) && UserCanAuthenticate(store.users[k])
    ensures Authenticate(store, Some(store.users[k].username), Some(password)) == Some(store.users[k])
    ensures Authenticate(store, Some(store.users[k].qq.value), Some(password)) == Some(store.users[k])
  {
    var users := store.users;
    var u := users[k];
    assert OnlyOwner(users, k, u.username) by {
      forall j | 0 <= j < |users| && j != k
        ensures !MatchesIdentifier(users[j], u.username)
      {
        if j < k {
          assert users[j].username != users[k].username;
        } else {
          assert users[k].username != users[j].username;
        }
      }
    }
    assert OnlyOwner(users, k, u.qq.value) by {
      forall j | 0 <= j < |users| && j != k
        ensures !MatchesIdentifier(users[j], u.qq.value)
      {
        if j > k {
          assert users[k].qq != users[j].qq;
        }
      }
    }
    LoginByOwnIdentifier(store, k, u.username, password);
    LoginByOwnIdentifier(store, k, u.qq.value, password);
  }

  /** Logging in by username never fails for an active player with the right
      password: if the username-or-QQ backend tried an earlier row whose QQ
      number equals that username and rejected it, `ModelBackend` finds the
      player by username. The earlier row is returned only if it accepts the
      same password itself. */
  lemma UsernameLoginAlwaysReachesAccount(store: Store, k: nat, password: string)
    requires Unique(store.users)
    requires k < |store.users|
    requires var u := store.users[k]; store.checkPassword(u, password) && UserCanAuthenticate(u)
    ensures var r := Authenticate(store, Some(store.users[k].username), Some(password));
            r.Some? && (r.value == store.users[k] || r.value.qq == Some(store.users[k].username))
  {
  }

  /** Only the first row of the either-field query is tried: when a QQ number
      equals an earlier row's username, the QQ owner cannot log in with it,
      even with the right password, because both backends settle on the
      earlier row. */
  lemma QqShadowedByEarlierUsername()
    ensures var shadow := NewUser(1, "123456", "h1", None, "");
            var owner := NewUser(2, "userA", "h2", Some("123456"), "");
            var store := Store([shadow, owner], (u: User, p: string) => u.id == 2 && p == "Passw0rd!");
            && Unique(store.users)
            && MatchesIdentifier(owner, "123456")
            && store.checkPassword(owner, "Passw0rd!")
            && Authenticate(store, Some("123456"), Some("Passw0rd!")).None?
  {
    var shadow := NewUser(1, "123456", "h1", None, "");
    var owner := NewUser(2, "userA", "h2", Some("123456"), "");
    var store := Store([shadow, owner], (u: User, p: string) => u.id == 2 && p == "Passw0rd!");
    assert FirstMatch(store.users, "123456") == Some(0);
    assert UsernameIndexFrom(store.users, "123456", 0) == Some(0);
  }
}

=== FILE: decorators.dfy ===
/** The permission decorators (common/decorators.py).

    A decorated view either runs or is replaced by a 403. The decision is
    `AdminDenial`/`PlayerDenial`: None lets the view run, Some is the
    response sent instead. A denial is the JSON envelope when the client asks
    for JSON and Django's plain `HttpResponseForbidden` otherwise.
 */
module Decorators {
  import opened Wrappers
  import opened Http
  import Responses
  import Text

  const ForbiddenMessage := "无权限"
  const AdminDeniedMessage := "管理员权限不足"
  const PlayerDeniedMessage := "玩家权限不足"
  const XhrValue := "XMLHttpRequest"

  /** `json_forbidden(message="无权限")`: 403 with the failure envelope. */
  function JsonForbidden(message: string := ForbiddenMessage): (r: Response)
    ensures r.status == 403
    ensures r.body == JsonBody(map["success" := JBool(false), "data" := JNull, "message" := JStr(message)])
  {
    JsonResponse(map["success" := JBool(false), "data" := JNull, "message" := JStr(message)], 403)
  }

  /** `json_forbidden` is `json_error` with status 403 and no extra keys. */
  lemma JsonForbiddenIsJsonError(message: string)
    ensures JsonForbidden(message) == Responses.JsonError(message, JNull, 403, map[])
  {
  }

  /** `admin_required`'s check: authenticated staff. */
  function AdminCheck(u: Principal): (b: bool)
    ensures !u.isAuthenticated ==> !b
    ensures u.isAuthenticated ==> (b <==> u.isStaff)
  {
    u.isAuthenticated && u.isStaff
  }

  /** `essential_player_check`: authenticated and active, a missing
      `is_active` counting as inactive. */
  function PlayerCheck(u: Principal): (b: bool)
    ensures !u.isAuthenticated ==> !b
    ensures u.isAuthenticated ==> (b <==> u.isActive == Some(true))
  {
    u.isAuthenticated && u.isActive.GetOr(false)
  }

  /** The admin decorator answers in JSON to an XHR or to an exact
      `Accept: application/json`: whenever the player decorator would, and
      beyond that only for an XHR. */
  function AdminWantsJson(h: Headers): (b: bool)
    ensures PlayerWantsJson(h) ==> b
    ensures Get(h, "X-Requested-With") == Some(XhrValue) ==> b
    ensures b && !PlayerWantsJson(h) ==> Get(h, "X-Requested-With") == Some(XhrValue)
  {
    Text.LowerAgree("X-Requested-With", "x-requested-with");
    Get(h, "x-requested-with") == Some(XhrValue) || Get(h, "accept") == Some(JsonContentType)
  }

  /** The player decorator looks at `Accept` only, whatever the case of the
      header's name. */
  function PlayerWantsJson(h: Headers): (b: bool)
    ensures b <==> Get(h, "Accept") == Some(JsonContentType)
    ensures b <==> Get(h, "ACCEPT") == Some(JsonContentType)
  {
    Text.LowerAgree("Accept", "accept");
    Text.LowerAgree("ACCEPT", "accept");
    Get(h, "accept") == Some(JsonContentType)
  }

  /** The response that replaces a view on denial. */
  function Denial(message: string, json: bool): (r: Response)
    ensures r.status == 403
    ensures json <==> r.body.JsonBody?
    ensures json ==> "success" in r.body.payload && r.body.payload["success"] == JBool(false)
    ensures json ==> "message" in r.body.payload && r.body.payload["message"] == JStr(message)
    ensures !json ==> r.body == TextBody(message)
  {
    if json then JsonForbidden(message) else Forbidden(message)
  }

  /** `admin_required(view)`'s decision for one request. */
  function AdminDenial(req: Request): (r: Option<Response>)
    ensures r.None? <==> AdminCheck(req.user)
    ensures r.Some? ==> r.value.status == 403
    ensures r.Some? ==> (r.value.body.JsonBody? <==> AdminWantsJson(req.headers))
    ensures r.Some? && r.value.body.JsonBody? ==> r.value == JsonForbidden(AdminDeniedMessage)
    ensures r.Some? && r.value.body.TextBody? ==> r.value == Forbidden(AdminDeniedMessage)
  {
    if !AdminCheck(req.user) then Some(Denial(AdminDeniedMessage, AdminWantsJson(req.headers)))
    else None
  }

  /** `player_required(view)`'s decision for one request. */
  function PlayerDenial(req: Request): (r: Option<Response>)
    ensures r.None? <==> PlayerCheck(req.user)
    ensures r.Some? ==> r.value.status == 403
    ensures r.Some? ==> (r.value.body.JsonBody? <==> PlayerWantsJson(req.headers))
    ensures r.Some? && r.value.body.JsonBody? ==> r.value == JsonForbidden(PlayerDeniedMessage)
    ensures r.Some? && r.value.body.TextBody? ==> r.value == Forbidden(PlayerDeniedMessage)
  {
    if !PlayerCheck(req.user) then Some(Denial(PlayerDeniedMessage, PlayerWantsJson(req.headers)))
    else None
  }

  /** The wrapped view: the view's own response when the check passes, the
      denial otherwise. */
  function AdminRequired(view: Request -> Response, req: Request): (r: Response)
    ensures AdminCheck(req.user) ==> r == view(req)
    ensures !AdminCheck(req.user) ==> r.status == 403 && r == AdminDenial(req).value
  {
    match AdminDenial(req)
    case Some(denied) => denied
    case None => view(req)
  }

  function PlayerRequired(view: Request -> Response, req: Request): (r: Response)
    ensures PlayerCheck(req.user) ==> r == view(req)
    ensures !PlayerCheck(req.user) ==> r.status == 403 && r == PlayerDenial(req).value
  {
    match PlayerDenial(req)
    case Some(denied) => denied
    case None => view(req)
  }

  /** Anonymous visitors are refused by both decorators. */
  lemma AnonymousRefused(path: string, h: Headers)
    ensures AdminDenial(Request(path, Anonymous, h)).Some?
    ensures PlayerDenial(Request(path, Anonymous, h)).Some?
  {
  }

  /** The two checks are independent: an inactive staff account passes the
      admin check and fails the player check, an active non-staff account the
      other way round, and an account without `is_active` fails the player
      check. */
  lemma ChecksIndependent()
    ensures AdminCheck(Principal(true, true, Some(false))) && !PlayerCheck(Principal(true, true, Some(false)))
    ensures !AdminCheck(Principal(true, false, Some(true))) && PlayerCheck(Principal(true, false, Some(true)))
    ensures !PlayerCheck(Principal(true, true, None))
  {
  }

  /** An XHR without `Accept: application/json` gets a JSON denial from the
      admin decorator and a plain one from the player decorator. */
  lemma XhrOnlyCountsForAdmin(req: Request)
    requires !AdminCheck(req.user) && !PlayerCheck(req.user)
    requires Get(req.headers, "x-requested-with") == Some(XhrValue)
    requires Get(req.headers, "accept") != Some(JsonContentType)
    ensures AdminDenial(req).value.body.JsonBody?
    ensures PlayerDenial(req).value.body == TextBody(PlayerDeniedMessage)
  {
  }

  /** `Accept` must be exactly `application/json`: a media-type parameter
      turns the denial into the plain one. */
  lemma AcceptMustMatchExactly(path: string, user: Principal)
    requires !PlayerCheck(user)
    ensures var h := Set(map[], "Accept", "application/json; charset=utf-8");
            PlayerDenial(Request(path, user, h)).value.body.TextBody?
  {
    Text.LowerAgree("Accept", "accept");
  }
}

=== FILE: forms.dfy ===
/** Form helpers (common/forms.py): sensitive-word masking, the cleaning
    pass of model forms, the injected CSS class and the password field check.

    `str.replace(w, "*")` scans left to right and replaces non-overlapping
    occurrences; `MaskWord` is that scan. The two sensitive words are applied
    one after the other in the order a Python set yields them, which is not
    fixed; `MaskOrderIrrelevant` shows the order cannot change the result.
 */
module Forms {
  import opened Wrappers
  import Text
  import PasswordValidation

  // ---------------------------------------------------------------------
  // Occurrences
  // ---------------------------------------------------------------------

  /** `w` occurs in `s` starting at index `i`. */
  predicate OccursAt(s: string, w: string, i: nat) {
    i + |w| <= |s| && s[i..i + |w|] == w
  }

  /** `w in s`. */
  predicate Contains(s: string, w: string) {
    exists i: nat | i <= |s| :: OccursAt(s, w, i)
  }

  /** `s.replace(w, "*")` for a non-empty `w`. */
  function MaskWord(s: string, w: string): (r: string)
    requires |w| > 0
    ensures |r| <= |s|
    decreases |s|
  {
    if |s| < |w| then s
    else if s[..|w|] == w then "*" + MaskWord(s[|w|..], w)
    else [s[0]] + MaskWord(s[1..], w)
  }

  /** An occurrence past the first character of `[x] + rest` is an
      occurrence in `rest`. */
  lemma OccursShift(x: char, rest: string, v: string, i: nat)
    requires i >= 1
    ensures OccursAt([x] + rest, v, i) <==> OccursAt(rest, v, i - 1)
  {
    if i + |v| <= |rest| + 1 {
      assert ([x] + rest)[i..i + |v|] == rest[i - 1..i - 1 + |v|];
    }
  }

  /** An occurrence in a suffix is an occurrence in the whole text. */
  lemma OccursDrop(s: string, k: nat, v: string, i: nat)
    requires k <= |s|
    ensures OccursAt(s[k..], v, i) <==> OccursAt(s, v, i + k)
  {
    if i + |v| <= |s| - k {
      assert s[k..][i..i + |v|] == s[i + k..i + k + |v|];
    }
  }

  /** A suffix of a text without `v` has no `v` either. */
  lemma AbsentFromSuffix(s: string, k: nat, v: string)
    requires k <= |s| && !Contains(s, v)
    ensures !Contains(s[k..], v)
  {
    forall i: nat | i <= |s[k..]|
      ensures !OccursAt(s[k..], v, i)
    {
      OccursDrop(s, k, v, i);
    }
  }

  /** If the masked text begins with a star-free `p`, so did the text: a
      star-free stretch of the output is copied from the input. */
  lemma {:induction false} MaskPrefix(t: string, w: string, p: string)
    requires |w| > 0
    ensures '*' !in p && Text.StartsWith(MaskWord(t, w), p) ==> Text.StartsWith(t, p)
    decreases |t|
  {
    var m := MaskWord(t, w);
    if |p| > 0 && |t| >= |w| {
      if t[..|w|] == w {
        if Text.StartsWith(m, p) {
          assert p[0] == m[0] == '*';
        }
      } else {
        var rest := MaskWord(t[1..], w);
        assert m == [t[0]] + rest;
        MaskPrefix(t[1..], w, p[1..]);
        if '*' !in p && Text.StartsWith(m, p) {
          assert m[..|p|] == [t[0]] + rest[..|p| - 1];
          assert p == [p[0]] + p[1..];
          assert '*' !in p[1..];
          assert t[..|p|] == [t[0]] + t[1..][..|p| - 1];
        }
      }
    }
  }

  /** Prefixing the same character to two texts preserves "starts with `v`
      only if the other does". */
  lemma ConsPrefix(x: char, a: string, b: string, v: string)
    requires |v| > 0
    requires Text.StartsWith(b, v[1..]) ==> Text.StartsWith(a, v[1..])
    ensures Text.StartsWith([x] + b, v) ==> Text.StartsWith([x] + a, v)
  {
    if Text.StartsWith([x] + b, v) {
      assert ([x] + b)[..|v|] == [x] + b[..|v| - 1];
      assert b[..|v| - 1] == v[1..];
      assert ([x] + a)[..|v|] == [x] + a[..|v| - 1];
    }
  }

  /** Masking a text that does not start with `w` keeps its first character,
      so it cannot create an occurrence of a star-free `v` at the front. */
  lemma NoNewStart(s: string, w: string, v: string)
    requires |w| > 0 && |v| > 0 && '*' !in v
    requires |s| >= |w| && s[..|w|] != w
    requires !OccursAt(s, v, 0)
    ensures !OccursAt(MaskWord(s, w), v, 0)
  {
    var rest := MaskWord(s[1..], w);
    assert MaskWord(s, w) == [s[0]] + rest;
    assert '*' !in v[1..] by {
      forall k | 0 <= k < |v| - 1
        ensures v[1..][k] != '*'
      {
        assert v[1..][k] == v[k + 1];
      }
    }
    MaskPrefix(s[1..], w, v[1..]);
    ConsPrefix(s[0], s[1..], rest, v);
    assert s == [s[0]] + s[1..];
  }

  /** Masking `w` behind a leading star leaves the star in place. */
  lemma StarKept(x: string, w: string)
    requires |w| > 0 && '*' !in w
    ensures MaskWord(['*'] + x, w) == ['*'] + MaskWord(x, w)
  {
    var t := ['*'] + x;
    if |t| >= |w| {
      assert t[..|w|][0] == '*';
      assert t[1..] == x;
    } else {
      assert MaskWord(x, w) == x;
    }
  }

  /** A text that starts with `w` masks to a star followed by the masked
      remainder. */
  lemma MaskAfterWord(w: string, u: string)
    requires |w| > 0
    ensures MaskWord(w + u, w) == ['*'] + MaskWord(u, w)
  {
    assert (w + u)[..|w|] == w;
    assert (w + u)[|w|..] == u;
  }

  /** After masking, `w` no longer occurs. */
  lemma {:induction false} MaskRemoves(s: string, w: string)
    requires |w| > 0 && '*' !in w
    ensures !Contains(MaskWord(s, w), w)
    decreases |s|
  {
    var r := MaskWord(s, w);
    if |s| >= |w| {
      if s[..|w|] == w {
        var rest := MaskWord(s[|w|..], w);
        MaskRemoves(s[|w|..], w);
        assert r == ['*'] + rest;
        forall i: nat | i <= |r|
          ensures !OccursAt(r, w, i)
        {
          if i == 0 {
            assert w[0] != '*';
          } else {
            OccursShift('*', rest, w, i);
          }
        }
      } else {
        var rest := MaskWord(s[1..], w);
        MaskRemoves(s[1..], w);
        assert r == [s[0]] + rest;
        forall i: nat | i <= |r|
          ensures !OccursAt(r, w, i)
        {
          if i == 0 {
            NoNewStart(s, w, w);
          } else {
            OccursShift(s[0], rest, w, i);
          }
        }
      }
    }
  }

  /** Masking one word never creates an occurrence of another star-free word. */
  lemma {:induction false} MaskKeepsAbsent(s: string, w: string, v: string)
    requires |w| > 0 && |v| > 0 && '*' !in v
    requires !Contains(s, v)
    ensures !Contains(MaskWord(s, w), v)
    decreases |s|
  {
    var r := MaskWord(s, w);
    if |s| >= |w| {
      if s[..|w|] == w {
        AbsentFromSuffix(s, |w|, v);
        var rest := MaskWord(s[|w|..], w);
        MaskKeepsAbsent(s[|w|..], w, v);
        assert r == ['*'] + rest;
        forall i: nat | i <= |r|
          ensures !OccursAt(r, v, i)
        {
          if i == 0 {
            assert v[0] != '*';
          } else {
            OccursShift('*', rest, v, i);
          }
        }
      } else {
        AbsentFromSuffix(s, 1, v);
        var rest := MaskWord(s[1..], w);
        MaskKeepsAbsent(s[1..], w, v);
        assert r == [s[0]] + rest;
        forall i: nat | i <= |r|
          ensures !OccursAt(r, v, i)
        {
          if i == 0 {
            assert !OccursAt(s, v, 0);
            NoNewStart(s, w, v);
          } else {
            OccursShift(s[0], rest, v, i);
          }
        }
      }
    }
  }

  /** Text in which `w` does not occur is left unchanged by masking it. */
  lemma {:induction false} MaskNoop(s: string, w: string)
    requires |w| > 0
    requires !Contains(s, w)
    ensures MaskWord(s, w) == s
    decreases |s|
  {
    if |s| >= |w| {
      assert !OccursAt(s, w, 0);
      AbsentFromSuffix(s, 1, w);
      MaskNoop(s[1..], w);
      assert s == [s[0]] + s[1..];
    }
  }

  // ---------------------------------------------------------------------
  // clean_sensitive
  // ---------------------------------------------------------------------

  const BadWord1 := "badword1"
  const BadWord2 := "badword2"

  /** `SENSITIVE_WORDS`. */
  const SensitiveWords: set<string> := {BadWord1, BadWord2}

  /** `clean_sensitive(text)`: empty text is returned as is; otherwise every
      occurrence of each sensitive word becomes a single `*`. */
  function CleanSensitive(text: string): (r: string)
    ensures |r| <= |text|
    ensures !Contains(r, BadWord1) && !Contains(r, BadWord2)
  {
    if text == "" then text
    else
      var once := MaskWord(text, BadWord1);
      MaskRemoves(text, BadWord1);
      MaskRemoves(once, BadWord2);
      MaskKeepsAbsent(once, BadWord2, BadWord1);
      MaskWord(once, BadWord2)
  }

  /** Empty text comes back unchanged. */
  lemma CleanEmpty()
    ensures CleanSensitive("") == ""
  {
  }

  /** Text with no sensitive word comes back unchanged. */
  lemma CleanNoop(text: string)
    requires !Contains(text, BadWord1) && !Contains(text, BadWord2)
    ensures CleanSensitive(text) == text
  {
    if text != "" {
      MaskNoop(text, BadWord1);
      MaskNoop(text, BadWord2);
    }
  }

  /** `CleanNoop` for every text at once. */
  lemma CleanNoopAll()
    ensures forall t :: !Contains(t, BadWord1) && !Contains(t, BadWord2) ==> CleanSensitive(t) == t
  {
    forall t | !Contains(t, BadWord1) && !Contains(t, BadWord2)
      ensures CleanSensitive(t) == t
    {
      CleanNoop(t);
    }
  }

  /** Cleaning twice is cleaning once. */
  lemma CleanIdempotent(text: string)
    ensures CleanSensitive(CleanSensitive(text)) == CleanSensitive(text)
  {
    CleanNoop(CleanSensitive(text));
  }

  /** A sample: each occurrence becomes one star. */
  lemma CleanExample()
    ensures CleanSensitive(BadWord1 + BadWord2) == "**"
  {
    MaskAfterWord(BadWord1, BadWord2);
    assert MaskWord(BadWord2, BadWord1) == BadWord2 by {
      assert !Contains(BadWord2, BadWord1) by {
        forall i: nat | i <= |BadWord2|
          ensures !OccursAt(BadWord2, BadWord1, i)
        {
          assert i == 0 ==> BadWord2[7] != BadWord1[7];
        }
      }
      MaskNoop(BadWord2, BadWord1);
    }
    StarKept(BadWord2, BadWord2);
    MaskAfterWord(BadWord2, "");
    assert BadWord2 + "" == BadWord2;
  }

  // ---------------------------------------------------------------------
  // Iteration order of the word set
  // ---------------------------------------------------------------------

  /** No proper suffix of `a` is a prefix of `b`: an occurrence of `b` can
      never begin inside an occurrence of `a`. */
  ghost predicate NoOverlap(a: string, b: string) {
    forall i :: 0 < i < |a| ==> !Text.StartsWith(b, a[i..])
  }

  /** Both sensitive words have their only `b` at the front. */
  lemma SensitiveWordsDoNotOverlap()
    ensures NoOverlap(BadWord1, BadWord2) && NoOverlap(BadWord2, BadWord1)
  {
    forall i | 0 < i < |BadWord1|
      ensures !Text.StartsWith(BadWord2, BadWord1[i..]) && !Text.StartsWith(BadWord1, BadWord2[i..])
    {
      assert BadWord1[i..][0] != 'b' && BadWord2[i..][0] != 'b';
    }
  }

  /** Where `w` does not start, masking copies the first character. */
  lemma MaskStep(t: string, w: string)
    requires |w| > 0 && |t| > 0 && !Text.StartsWith(t, w)
    ensures MaskWord(t, w) == [t[0]] + MaskWord(t[1..], w)
  {
    if |t| < |w| {
      assert MaskWord(t[1..], w) == t[1..];
      assert t == [t[0]] + t[1..];
    }
  }

  /** A stretch free of occurrences stays free after its first character. */
  lemma SkipsTail(p: string, u: string, w: string)
    requires |p| > 0
    requires forall i :: 0 <= i < |p| ==> !Text.StartsWith((p + u)[i..], w)
    ensures forall i :: 0 <= i < |p| - 1 ==> !Text.StartsWith((p[1..] + u)[i..], w)
  {
    forall i | 0 <= i < |p| - 1
      ensures !Text.StartsWith((p[1..] + u)[i..], w)
    {
      assert !Text.StartsWith((p + u)[i + 1..], w);
      assert (p[1..] + u)[i..] == (p + u)[i + 1..];
    }
  }

  /** Masking `w` over a stretch `p` in which no occurrence of `w` can start
      copies `p` and carries on after it. */
  lemma {:induction false} MaskSkips(p: string, u: string, w: string)
    requires |w| > 0
    requires forall i :: 0 <= i < |p| ==> !Text.StartsWith((p + u)[i..], w)
    ensures MaskWord(p + u, w) == p + MaskWord(u, w)
    decreases |p|
  {
    var t := p + u;
    if |p| > 0 {
      SkipsTail(p, u, w);
      MaskSkips(p[1..], u, w);
      assert t[0..] == t;
      MaskStep(t, w);
      assert t[1..] == p[1..] + u;
      assert [t[0]] + (p[1..] + MaskWord(u, w)) == p + MaskWord(u, w);
    } else {
      assert t == u;
    }
  }

  /** When `s` starts with neither word, masking one and then the other keeps
      the first character and carries on with the rest. */
  lemma MaskFirstCharKept(s: string, a: string, b: string)
    requires |a| == |b| > 0 && '*' !in b
    requires |s| >= |a| && s[..|a|] != a && s[..|b|] != b
    ensures MaskWord(MaskWord(s, a), b) == [s[0]] + MaskWord(MaskWord(s[1..], a), b)
  {
    var ra := MaskWord(s[1..], a);
    var t := MaskWord(s, a);
    assert t == [s[0]] + ra;
    NoNewStart(s, a, b);
    if |t| >= |b| {
      assert t[1..] == ra;
    } else {
      assert MaskWord(ra, b) == ra;
    }
  }

  /** The two masking passes commute for equally long words whose
      occurrences cannot overlap. */
  lemma {:induction false} MaskCommutes(s: string, a: string, b: string)
    requires |a| == |b| > 0 && a != b
    requires '*' !in a && '*' !in b
    requires NoOverlap(a, b) && NoOverlap(b, a)
    ensures MaskWord(MaskWord(s, a), b) == MaskWord(MaskWord(s, b), a)
    decreases |s|, 1
  {
    var n := |a|;
    if |s| < n {
      assert MaskWord(s, a) == s && MaskWord(s, b) == s;
    } else if s[..n] == a {
      MaskCommutesAtWord(s, a, b);
    } else if s[..n] == b {
      MaskCommutesAtWord(s, b, a);
    } else {
      MaskFirstCharKept(s, a, b);
      MaskFirstCharKept(s, b, a);
      MaskCommutes(s[1..], a, b);
    }
  }

  /** The commuting step when `s` starts with `a`. */
  lemma {:induction false} MaskCommutesAtWord(s: string, a: string, b: string)
    requires |a| == |b| > 0 && a != b
    requires '*' !in a && '*' !in b
    requires NoOverlap(a, b) && NoOverlap(b, a)
    requires |s| >= |a| && s[..|a|] == a
    ensures MaskWord(MaskWord(s, a), b) == MaskWord(MaskWord(s, b), a)
    decreases |s|, 0
  {
    var n := |a|;
    var u := s[n..];
    assert s == a + u;
    // `a` first: the occurrence becomes a star, which `b` cannot start with.
    MaskAfterWord(a, u);
    StarKept(MaskWord(u, a), b);
    // `b` first: `b` cannot start anywhere inside the occurrence of `a`.
    forall i | 0 <= i < n
      ensures !Text.StartsWith((a + u)[i..], b)
    {
      if i == 0 {
        assert (a + u)[0..][..n] == a;
      } else {
        assert !Text.StartsWith(b, a[i..]);
        if |(a + u)[i..]| >= n {
          assert (a + u)[i..][..n][..n - i] == a[i..];
        }
      }
    }
    MaskSkips(a, u, b);
    MaskAfterWord(a, MaskWord(u, b));
    MaskCommutes(u, a, b);
  }

  /** Whatever order the set yields the two words in, the cleaned text is the
      same. */
  lemma MaskOrderIrrelevant(text: string)
    ensures MaskWord(MaskWord(text, BadWord1), BadWord2) == MaskWord(MaskWord(text, BadWord2), BadWord1)
  {
    SensitiveWordsDoNotOverlap();
    MaskCommutes(text, BadWord1, BadWord2);
  }

  // ---------------------------------------------------------------------
  // BaseModelForm.clean
  // ---------------------------------------------------------------------

  /** A cleaned form value: a string, or any other Python value. */
  datatype FieldValue = Str(s: string) | Int(i: int) | Bool(b: bool) | Null

  /** `BaseModelForm.clean`: the same fields, every string value passed
      through `clean_sensitive`, every other value untouched. */
  function CleanFields(cleaned: map<string, FieldValue>): (r: map<string, FieldValue>)
    ensures r.Keys == cleaned.Keys
    ensures forall k :: k in cleaned && !cleaned[k].Str? ==> r[k] == cleaned[k]
    ensures forall k :: k in cleaned && cleaned[k].Str? ==> r[k] == Str(CleanSensitive(cleaned[k].s))
    ensures forall k :: k in cleaned && cleaned[k].Str? ==>
              r[k].Str? && !Contains(r[k].s, BadWord1) && !Contains(r[k].s, BadWord2)
              && |r[k].s| <= |cleaned[k].s|
    ensures forall k :: (k in cleaned && cleaned[k].Str? && !Contains(cleaned[k].s, BadWord1)
                         && !Contains(cleaned[k].s, BadWord2)) ==> r[k] == cleaned[k]
  {
    CleanNoopAll();
    map k | k in cleaned :: if cleaned[k].Str? then Str(CleanSensitive(cleaned[k].s)) else cleaned[k]
  }

  /** Cleaning a form twice gives the same data as cleaning it once. */
  lemma CleanFieldsIdempotent(cleaned: map<string, FieldValue>)
    ensures CleanFields(CleanFields(cleaned)) == CleanFields(cleaned)
  {
    var once := CleanFields(cleaned);
    forall k | k in once && once[k].Str?
      ensures CleanSensitive(once[k].s) == once[k].s
    {
      CleanNoop(once[k].s);
    }
  }

  // ---------------------------------------------------------------------
  // Widget classes
  // ---------------------------------------------------------------------

  const FormControl := "form-control"
  const ClassSuffix := " form-control"

  /** The class the constructor writes for the widget's current class `css`:
      the class with its leading whitespace dropped, then ` form-control`;
      just `form-control` when the class is blank. `StyledClassIsStrip`
      shows this is `(css + " form-control").strip()`. */
  function StyledClass(css: string): (r: string)
    ensures r != [] && !Text.IsSpace(r[0]) && !Text.IsSpace(r[|r| - 1])
  {
    var t := Text.TrimStart(css);
    assert ClassSuffix[|ClassSuffix| - 1] == 'l';
    if t == "" then FormControl else t + ClassSuffix
  }

  /** The constructor's expression, `(css + " form-control").strip()`, is
      `StyledClass(css)`. */
  lemma StyledClassIsStrip(css: string)
    ensures Text.Strip(css + ClassSuffix) == StyledClass(css)
  {
    SuffixFacts();
    Text.StripAppend(css, ClassSuffix);
  }

  /** The appended suffix is one space and the class name. */
  lemma SuffixFacts()
    ensures ClassSuffix != [] && !Text.IsSpace(ClassSuffix[|ClassSuffix| - 1])
    ensures Text.TrimStart(ClassSuffix) == FormControl
  {
    assert ClassSuffix == " " + FormControl;
    Text.TrimStartSpaceWord(FormControl);
  }

  /** A blank class becomes just `form-control`. */
  lemma StyledClassBlank()
    ensures StyledClass("") == FormControl
    ensures StyledClass("  ") == FormControl
  {
    assert Text.TrimStart("  ") == "";
  }

  /** A class that does not start with whitespace is kept whole, followed by
      ` form-control`. */
  lemma StyledClassKeepsClass(css: string)
    requires css != "" && !Text.IsSpace(css[0])
    ensures StyledClass(css) == css + ClassSuffix
  {
  }

  /** A class that already ends in `form-control` gets it a second time: a
      widget declared with `attrs={"class": "form-control"}` is rendered
      with `form-control form-control`. */
  lemma StyledClassRepeats(css: string)
    ensures StyledClass(StyledClass(css)) == StyledClass(css) + ClassSuffix
  {
    var once := StyledClass(css);
    assert once[0] == if Text.TrimStart(css) == "" then FormControl[0] else Text.TrimStart(css)[0];
    StyledClassKeepsClass(once);
  }

  const ClassAttr := "class"

  /** `field.widget.attrs.get("class", "")`. */
  function CurrentClass(attrs: map<string, string>): string {
    if ClassAttr in attrs then attrs[ClassAttr] else ""
  }

  /** One widget's attributes after the constructor: `class` set to the
      styled class, every other attribute untouched. */
  function StyleAttrs(attrs: map<string, string>): (r: map<string, string>)
    ensures r.Keys == attrs.Keys + {ClassAttr}
    ensures r[ClassAttr] == StyledClass(CurrentClass(attrs))
    ensures forall a :: a in attrs && a != ClassAttr ==> r[a] == attrs[a]
  {
    SetClass(attrs, StyledClass(CurrentClass(attrs)))
  }

  /** `attrs["class"] = cls`. */
  function SetClass(attrs: map<string, string>, cls: string): (r: map<string, string>)
    ensures r.Keys == attrs.Keys + {ClassAttr}
    ensures r[ClassAttr] == cls
    ensures forall a :: a in attrs && a != ClassAttr ==> r[a] == attrs[a]
  {
    attrs[ClassAttr := cls]
  }

  /** The styled `class` attribute: the current class without its leading
      whitespace followed by ` form-control`, or just `form-control` when
      the widget had no class or a blank one. */
  lemma StyledAttrsClass(attrs: map<string, string>)
    ensures ClassAttr !in attrs ==> StyleAttrs(attrs)[ClassAttr] == FormControl
    ensures Text.TrimStart(CurrentClass(attrs)) == "" ==> StyleAttrs(attrs)[ClassAttr] == FormControl
    ensures Text.TrimStart(CurrentClass(attrs)) != "" ==>
              StyleAttrs(attrs)[ClassAttr] == Text.TrimStart(CurrentClass(attrs)) + ClassSuffix
  {
    if ClassAttr !in attrs {
      StyledClassBlank();
    }
  }

  /** `BaseStyledForm.__init__` and `BaseModelForm.__init__`: every field's
      widget is styled; the set of fields is unchanged. */
  function StyleWidgets(widgets: map<string, map<string, string>>): (r: map<string, map<string, string>>)
    ensures r.Keys == widgets.Keys
    ensures forall f :: f in widgets ==> r[f].Keys == widgets[f].Keys + {ClassAttr}
    ensures forall f, a :: f in widgets && a in widgets[f] && a != ClassAttr ==> r[f][a] == widgets[f][a]
    ensures forall f :: f in widgets && Text.TrimStart(CurrentClass(widgets[f])) == "" ==> r[f][ClassAttr] == FormControl
    ensures forall f :: f in widgets && Text.TrimStart(CurrentClass(widgets[f])) != "" ==>
              r[f][ClassAttr] == Text.TrimStart(CurrentClass(widgets[f])) + ClassSuffix
    ensures forall f :: f in widgets ==> r[f][ClassAttr] == Text.Strip(CurrentClass(widgets[f]) + ClassSuffix)
  {
    StyledClassIsStripAll();
    map f | f in widgets :: StyleAttrs(widgets[f])
  }

  /** `StyledClassIsStrip` for every class at once. */
  lemma StyledClassIsStripAll()
    ensures forall css :: Text.Strip(css + ClassSuffix) == StyledClass(css)
  {
    forall css {
      StyledClassIsStrip(css);
    }
  }

  // ---------------------------------------------------------------------
  // PasswordForm.clean_password
  // ---------------------------------------------------------------------

  /** `PasswordForm.clean_password`: the password unchanged when the default
      complexity validator accepts it, that validator's error otherwise. */
  function CleanPassword(password: string): (r: Result<string, PasswordValidation.ValidationError>)
    ensures r.Ok? <==> PasswordValidation.Meets(PasswordValidation.Configured, PasswordValidation.CountsOf(password))
    ensures r.Ok? ==> r.value == password
    ensures r.Err? ==> r.error.code == PasswordValidation.ComplexityCode
  {
    match PasswordValidation.Validate(PasswordValidation.Configured, password, None)
    case Pass => Ok(password)
    case Fail(e) => Err(e)
  }
}

=== FILE: http.dfy ===
/** The slice of Django's HTTP layer the rest of the model talks about:
    JSON values, case-insensitive header maps and responses.

    Django stores request and response headers in a case-insensitive mapping:
    the key is the lower-cased header name and the entry keeps the name as it
    was first written together with its value. `Headers` models exactly that.
 */
module Http {
  import opened Wrappers
  import Text

  /** A JSON value as `JsonResponse` serialises it. */
  datatype Json =
    | JNull
    | JBool(b: bool)
    | JInt(i: int)
    | JStr(s: string)
    | JArray(items: seq<Json>)
    | JObject(fields: map<string, Json>)

  datatype Header = Header(name: string, value: string)

  /** Header entries keyed by their lower-cased name. */
  type Headers = map<string, Header>

  /** Every entry sits under the lower-cased form of its own name. */
  ghost predicate WellKeyed(h: Headers) {
    forall k :: k in h ==> k == Text.Lower(h[k].name)
  }

  /** `headers.get(name)`, ignoring case. */
  function Get(h: Headers, name: string): Option<string> {
    var k := Text.Lower(name);
    if k in h then Some(h[k].value) else None
  }

  /** `headers[name] = value`: replaces any entry with the same name up to
      case, and changes no other entry. */
  function Set(h: Headers, name: string, value: string): (r: Headers)
    ensures Get(r, name) == Some(value)
    ensures forall k :: k != Text.Lower(name) ==> (k in r <==> k in h)
    ensures forall k :: k in h && k != Text.Lower(name) ==> r[k] == h[k]
    ensures WellKeyed(h) ==> WellKeyed(r)
  {
    h[Text.Lower(name) := Header(name, value)]
  }

  /** `response.setdefault(name, value)`: sets the header only when no
      header of that name, up to case, is present. */
  function SetDefault(h: Headers, name: string, value: string): (r: Headers)
    ensures Get(h, name).Some? ==> r == h
    ensures Get(r, name) == Some(Get(h, name).GetOr(value))
    ensures forall k :: k != Text.Lower(name) ==> (k in r <==> k in h)
    ensures forall k :: k in h ==> k in r && r[k] == h[k]
    ensures WellKeyed(h) ==> WellKeyed(r)
  {
    if Text.Lower(name) in h then h else Set(h, name, value)
  }

  /** `request.user` as the permission checks see it. `isActive` is None for
      a user object without an `is_active` attribute. */
  datatype Principal = Principal(isAuthenticated: bool, isStaff: bool, isActive: Option<bool>)

  /** `AnonymousUser`: not authenticated, not staff, not active. */
  const Anonymous := Principal(false, false, Some(false))

  /** The parts of an `HttpRequest` the middleware and decorators read. */
  datatype Request = Request(path: string, user: Principal, headers: Headers)

  /** The body of a response: a JSON object or plain text. */
  datatype Body = JsonBody(payload: map<string, Json>) | TextBody(text: string)

  datatype Response = Response(status: int, body: Body, headers: Headers)

  const JsonContentType := "application/json"
  const HtmlContentType := "text/html; charset=utf-8"

  /** `JsonResponse(payload, status=status)`. */
  function JsonResponse(payload: map<string, Json>, status: int): (r: Response)
    ensures r.status == status && r.body == JsonBody(payload)
    ensures Get(r.headers, "content-type") == Some(JsonContentType)
    ensures WellKeyed(r.headers)
  {
    Text.LowerAgree("Content-Type", "content-type");
    Response(status, JsonBody(payload), Set(map[], "Content-Type", JsonContentType))
  }

  /** `HttpResponseForbidden(text)`: a plain 403. */
  function Forbidden(text: string): (r: Response)
    ensures r.status == 403 && r.body == TextBody(text)
    ensures Get(r.headers, "content-type") == Some(HtmlContentType)
  {
    Text.LowerAgree("Content-Type", "content-type");
    Response(403, TextBody(text), Set(map[], "Content-Type", HtmlContentType))
  }
}

=== FILE: login_api.dfy ===
/** The login endpoint (api/views.py): a two-dimension failure throttle in
    front of the authentication backends.

    The attempt cache maps keys to a count and an expiry instant; an entry is
    live while the clock is strictly before its expiry and reads as 0 once it
    has expired or when it is absent. One request is one pure `Step` over
    (cache, clock): requests are handled one after another, so the window
    between reading and writing a counter is not modelled.
 */
module LoginApi {
  import opened Wrappers
  import opened Players
  import opened AuthBackends
  import Http
  import Responses
  import Text

  // ---------------------------------------------------------------------
  // Attempt keys
  // ---------------------------------------------------------------------

  const UserKeyPrefix := "login:attempts:user:"
  const IpKeyPrefix := "login:attempts:ip:"

  function UserKey(username: string): string { UserKeyPrefix + username }
  function IpKey(ip: string): string { IpKeyPrefix + ip }

  /** `_attempt_keys(username, ip)`: the per-user and per-IP counter keys.
      They never coincide, and each determines its argument. */
  function AttemptKeys(username: string, ip: string): (keys: (string, string))
    ensures keys.0 != keys.1
    ensures Text.StartsWith(keys.0, UserKeyPrefix) && keys.0[|UserKeyPrefix|..] == username
    ensures Text.StartsWith(keys.1, IpKeyPrefix) && keys.1[|IpKeyPrefix|..] == ip
  {
    var keys := (UserKey(username), IpKey(ip));
    assert keys.0[15] != keys.1[15];
    keys
  }

  /** No per-user key is ever a per-IP key, whatever the two arguments. */
  lemma UserAndIpKeysDisjoint(username: string, ip: string)
    ensures UserKey(username) != IpKey(ip)
  {
    assert UserKey(username)[15] != IpKey(ip)[15];
  }

  /** Each key determines the identifier or address it was built from. */
  lemma KeysInjective(u1: string, u2: string, ip1: string, ip2: string)
    ensures UserKey(u1) == UserKey(u2) ==> u1 == u2
    ensures IpKey(ip1) == IpKey(ip2) ==> ip1 == ip2
  {
    if UserKey(u1) == UserKey(u2) {
      assert u1 == UserKey(u1)[|UserKeyPrefix|..];
    }
    if IpKey(ip1) == IpKey(ip2) {
      assert ip1 == IpKey(ip1)[|IpKeyPrefix|..];
    }
  }

  // ---------------------------------------------------------------------
  // The attempt cache
  // ---------------------------------------------------------------------

  datatype Entry = Entry(count: nat, expiry: int)

  type Cache = map<string, Entry>

  predicate Live(c: Cache, now: int, key: string) {
    key in c && now < c[key].expiry
  }

  /** `cache.get(key, 0)`: the stored count while the entry is live, else 0. */
  function Read(c: Cache, now: int, key: string): (n: nat)
    ensures !Live(c, now, key) ==> n == 0
    ensures Live(c, now, key) ==> n == c[key].count
  {
    if Live(c, now, key) then c[key].count else 0
  }

  /** `cache.set(key, count, timeout=seconds)` at instant `now`. */
  function Write(c: Cache, now: int, key: string, count: nat, seconds: int): (c': Cache)
    ensures key in c' && c'[key] == Entry(count, now + seconds)
    ensures forall k :: k != key ==> (k in c' <==> k in c)
    ensures forall k :: k != key && k in c ==> c'[k] == c[k]
  {
    c[key := Entry(count, now + seconds)]
  }

  /** `cache.delete(key)`. */
  function Delete(c: Cache, key: string): (c': Cache)
    ensures key !in c'
    ensures forall k :: k != key ==> (k in c' <==> k in c)
    ensures forall k :: k != key && k in c ==> c'[k] == c[k]
  {
    c - {key}
  }

  /** `c'` agrees with `c` on every key except those in `touched`. */
  ghost predicate SameExcept(c: Cache, c': Cache, touched: set<string>) {
    && (forall k :: k !in touched ==> (k in c' <==> k in c))
    && (forall k :: k !in touched && k in c ==> c'[k] == c[k])
  }

  // ---------------------------------------------------------------------
  // The endpoint
  // ---------------------------------------------------------------------

  /** `settings.LOGIN_ATTEMPT_LIMIT` and `settings.LOGIN_LOCKOUT_MINUTES`. */
  datatype Limits = Limits(attemptLimit: int, lockoutMinutes: int) {
    function WindowSeconds(): int { lockoutMinutes * 60 }
  }

  /** The POSTed `username` and `password` fields and `REMOTE_ADDR`, each of
      which may be missing. */
  datatype LoginRequest = LoginRequest(username: Option<string>, password: Option<string>, remoteAddr: Option<string>)

  const DefaultRemoteAddr := "0.0.0.0"

  /** 400, 429, 401 and 200 respectively. */
  datatype Outcome =
    | BadRequest
    | Blocked(retryMinutes: int)
    | Invalid(remaining: nat)
    | LoggedIn(username: string, id: nat)

  /** Both fields present and non-empty (Python truthiness). */
  predicate HasCredentials(req: LoginRequest) {
    req.username.Some? && req.username.value != "" && req.password.Some? && req.password.value != ""
  }

  function ClientIp(req: LoginRequest): string {
    req.remoteAddr.GetOr(DefaultRemoteAddr)
  }

  function Max(a: int, b: int): int { if a < b then b else a }

  /** The gate: the per-user count has reached the limit or the per-IP count
      has reached twice the limit. */
  predicate Throttled(limits: Limits, userAttempts: nat, ipAttempts: nat) {
    userAttempts >= limits.attemptLimit || ipAttempts >= limits.attemptLimit * 2
  }

  /** `login_api` handling one request at instant `now`: the new cache and
      the outcome. Only the request's two counter keys can change. */
  function Step(c: Cache, now: int, limits: Limits, store: Store, req: LoginRequest): (r: (Cache, Outcome))
    requires Unique(store.users)
    ensures r.1.BadRequest? <==> !HasCredentials(req)
    ensures !HasCredentials(req) ==> r.0 == c
    ensures HasCredentials(req) ==> SameExcept(c, r.0, {UserKey(req.username.value), IpKey(ClientIp(req))})
  {
    if !HasCredentials(req) then (c, BadRequest)
    else
      var username := req.username.value;
      var password := req.password.value;
      var keys := AttemptKeys(username, ClientIp(req));
      var userAttempts := Read(c, now, keys.0);
      var ipAttempts := Read(c, now, keys.1);
      if Throttled(limits, userAttempts, ipAttempts) then (c, Blocked(limits.lockoutMinutes))
      else
        match Authenticate(store, Some(username), Some(password))
        case None =>
          var c1 := Write(c, now, keys.0, userAttempts + 1, limits.WindowSeconds());
          var c2 := Write(c1, now, keys.1, ipAttempts + 1, limits.WindowSeconds());
          (c2, Invalid(Max(0, limits.attemptLimit - (userAttempts + 1))))
        case Some(u) =>
          (Delete(c, keys.0), LoggedIn(u.username, u.id))
  }

  const MissingMessage := "缺少用户名或密码"
  const BlockedPrefix := "登录失败过多，请 "
  const BlockedSuffix := " 分钟后再试"
  const InvalidPrefix := "用户名或密码错误，剩余尝试次数："

  /** The JSON response each outcome is rendered as: always the envelope,
      with `success` true exactly when the status is 200, which only a
      login gets. */
  function Render(o: Outcome): (r: Http.Response)
    ensures r.body.JsonBody? && "success" in r.body.payload && "message" in r.body.payload
    ensures r.status == 200 <==> o.LoggedIn?
    ensures r.body.payload["success"] == Http.JBool(r.status == 200)
  {
    match o
    case BadRequest =>
      Responses.JsonError(MissingMessage, status := 400)
    case Blocked(minutes) =>
      Responses.JsonError(BlockedPrefix + Text.IntToString(minutes) + BlockedSuffix, status := 429)
    case Invalid(remaining) =>
      Responses.JsonError(InvalidPrefix + Text.IntToString(remaining), status := 401)
    case LoggedIn(username, id) =>
      Responses.JsonSuccess(Http.JObject(map["username" := Http.JStr(username), "id" := Http.JInt(id)]))
  }

  /** The response tells the outcomes apart: the lockout minutes and the
      remaining attempts can be read back from the message, and the account
      from the data. */
  lemma RenderInjective(o: Outcome, o': Outcome)
    ensures Render(o) == Render(o') <==> o == o'
  {
    if Render(o) == Render(o') {
      match o
      case Blocked(a) =>
        var b := o'.retryMinutes;
        Text.CancelAround(BlockedPrefix, Text.IntToString(a), Text.IntToString(b), BlockedSuffix);
        Text.IntToStringInjective(a, b);
      case Invalid(a) =>
        var b := o'.remaining;
        Text.CancelAround(InvalidPrefix, Text.IntToString(a), Text.IntToString(b), "");
        Text.IntToStringInjective(a, b);
      case LoggedIn(u, i) =>
        var data := map["username" := Http.JStr(u), "id" := Http.JInt(i)];
        var data' := map["username" := Http.JStr(o'.username), "id" := Http.JInt(o'.id)];
        assert Http.JObject(data) == Http.JObject(data');
        assert data["username"] == data'["username"] && data["id"] == data'["id"];
      case BadRequest =>
    }
  }

  /** Status codes 400/429/401/200, and `success` is true exactly for a
      login, whose data carries the account's username and id. */
  lemma RenderStatus(o: Outcome)
    ensures Render(o).status == (match o
                                 case BadRequest => 400
                                 case Blocked(_) => 429
                                 case Invalid(_) => 401
                                 case LoggedIn(_, _) => 200)
    ensures Render(o).body.JsonBody?
    ensures Render(o).body.payload["success"] == Http.JBool(o.LoggedIn?)
    ensures o.LoggedIn? ==>
              (Render(o).body.payload["data"]
               == Http.JObject(map["username" := Http.JStr(o.username), "id" := Http.JInt(o.id)]))
  {
  }

  // ---------------------------------------------------------------------
  // One request
  // ---------------------------------------------------------------------

  /** A missing or empty username or password answers 400, leaves the cache
      as it was and does not depend on the user table at all. */
  lemma MissingInputRejected(c: Cache, now: int, limits: Limits, store: Store, other: Store, req: LoginRequest)
    requires Unique(store.users) && Unique(other.users)
    requires !HasCredentials(req)
    ensures Step(c, now, limits, store, req) == (c, BadRequest)
    ensures Step(c, now, limits, other, req) == Step(c, now, limits, store, req)
  {
  }

  /** With credentials present, the request is refused with 429 exactly when
      the gate is closed; a refused request changes nothing and is decided
      before any credential check, so the same request against any user table
      (one where its password is right, say) is refused the same way. */
  lemma BlockedIffThrottled(c: Cache, now: int, limits: Limits, store: Store, other: Store, req: LoginRequest)
    requires Unique(store.users) && Unique(other.users)
    requires HasCredentials(req)
    ensures var r := Step(c, now, limits, store, req);
            r.1.Blocked? <==> Throttled(limits, Read(c, now, UserKey(req.username.value)), Read(c, now, IpKey(ClientIp(req))))
    ensures Step(c, now, limits, store, req).1.Blocked? ==>
              && Step(c, now, limits, store, req) == (c, Blocked(limits.lockoutMinutes))
              && Step(c, now, limits, other, req) == Step(c, now, limits, store, req)
  {
  }

  /** A failed check past the gate writes both counters as their old value
      plus one, each expiring a full window after `now`, changes no other key
      and reports `max(0, limit - new user count)`, which lies in
      [0, limit - 1]. */
  lemma FailureCounts(c: Cache, now: int, limits: Limits, store: Store, req: LoginRequest)
    requires Unique(store.users)
    requires HasCredentials(req)
    requires Step(c, now, limits, store, req).1.Invalid?
    ensures var u := UserKey(req.username.value);
            var ip := IpKey(ClientIp(req));
            var r := Step(c, now, limits, store, req);
            && Authenticate(store, req.username, req.password).None?
            && !Throttled(limits, Read(c, now, u), Read(c, now, ip))
            && u in r.0 && r.0[u] == Entry(Read(c, now, u) + 1, now + limits.WindowSeconds())
            && ip in r.0 && r.0[ip] == Entry(Read(c, now, ip) + 1, now + limits.WindowSeconds())
            && SameExcept(c, r.0, {u, ip})
            && r.1.remaining == Max(0, limits.attemptLimit - (Read(c, now, u) + 1))
            && r.1.remaining <= limits.attemptLimit - 1
  {
    UserAndIpKeysDisjoint(req.username.value, ClientIp(req));
  }

  /** With credentials present and the gate open, a failed check is exactly a
      401 and a successful one exactly a login. */
  lemma PastGateOutcome(c: Cache, now: int, limits: Limits, store: Store, req: LoginRequest)
    requires Unique(store.users)
    requires HasCredentials(req)
    requires !Throttled(limits, Read(c, now, UserKey(req.username.value)), Read(c, now, IpKey(ClientIp(req))))
    ensures Step(c, now, limits, store, req).1.Invalid? <==> Authenticate(store, req.username, req.password).None?
    ensures Step(c, now, limits, store, req).1.LoggedIn? <==> Authenticate(store, req.username, req.password).Some?
  {
  }

  /** A login deletes the per-user key only: the per-IP entry keeps its value
      and expiry, no other key changes, and the outcome names the account the
      backends returned, whose username or QQ number is the one supplied. */
  lemma SuccessClearsUserKeyOnly(c: Cache, now: int, limits: Limits, store: Store, req: LoginRequest)
    requires Unique(store.users)
    requires HasCredentials(req)
    requires Step(c, now, limits, store, req).1.LoggedIn?
    ensures var u := UserKey(req.username.value);
            var ip := IpKey(ClientIp(req));
            var r := Step(c, now, limits, store, req);
            var account := Authenticate(store, req.username, req.password);
            && u !in r.0
            && (ip in r.0 <==> ip in c) && (ip in c ==> r.0[ip] == c[ip])
            && SameExcept(c, r.0, {u})
            && account.Some?
            && r.1 == LoggedIn(account.value.username, account.value.id)
            && account.value in store.users
            && MatchesIdentifier(account.value, req.username.value)
  {
    UserAndIpKeysDisjoint(req.username.value, ClientIp(req));
  }

  // ---------------------------------------------------------------------
  // Several requests
  // ---------------------------------------------------------------------

  /** The same request handled at each of the given instants in turn: the
      final cache and the outcomes in order. */
  function Replay(c: Cache, times: seq<int>, limits: Limits, store: Store, req: LoginRequest): (r: (Cache, seq<Outcome>))
    requires Unique(store.users)
    ensures |r.1| == |times|
    decreases |times|
  {
    if |times| == 0 then (c, [])
    else
      var s := Step(c, times[0], limits, store, req);
      var rest := Replay(s.0, times[1..], limits, store, req);
      (rest.0, [s.1] + rest.1)
  }

  /** Each instant is no earlier than the one before and falls within the
      window opened by the previous failure. */
  ghost predicate WithinSlidingWindow(times: seq<int>, window: int) {
    forall i :: 0 <= i < |times| - 1 ==> times[i] <= times[i + 1] < times[i] + window
  }

  /** The instants after the first still keep to the window, and the second
      falls within the window opened by the first. */
  lemma WindowTail(times: seq<int>, window: int)
    requires |times| > 1 && WithinSlidingWindow(times, window)
    ensures WithinSlidingWindow(times[1..], window)
    ensures times[0] <= times[1..][0] < times[0] + window
  {
    var rest := times[1..];
    forall i | 0 <= i < |rest| - 1
      ensures rest[i] <= rest[i + 1] < rest[i] + window
    {
      assert rest[i] == times[i + 1] && rest[i + 1] == times[i + 2];
    }
  }

  /** Prefixing the outcome `limit - (a + 1)` to a run counting down from
      `limit - (a + 2)` gives a run counting down from `limit - (a + 1)`. */
  lemma RemainingCountsDown(all: seq<Outcome>, tail: seq<Outcome>, limit: int, a: int)
    requires 0 <= a && a + |all| <= limit
    requires |all| == |tail| + 1 && all[1..] == tail
    requires all[0] == Invalid(limit - (a + 1))
    requires forall i :: 0 <= i < |tail| ==> tail[i] == Invalid(limit - (a + 1 + i + 1))
    ensures forall i :: 0 <= i < |all| ==> all[i] == Invalid(limit - (a + i + 1))
  {
    forall i | 0 < i < |all|
      ensures all[i] == Invalid(limit - (a + i + 1))
    {
      assert all[i] == tail[i - 1];
    }
  }

  /** One wrong password under both limits counts against both keys and
      reports the attempts left. */
  lemma OneFailure(c: Cache, now: int, limits: Limits, store: Store, req: LoginRequest)
    requires Unique(store.users)
    requires HasCredentials(req)
    requires forall u :: u in store.users ==> !store.checkPassword(u, req.password.value)
    requires Read(c, now, UserKey(req.username.value)) + 1 <= limits.attemptLimit
    requires Read(c, now, IpKey(ClientIp(req))) + 1 <= limits.attemptLimit * 2
    ensures var u := UserKey(req.username.value);
            var ip := IpKey(ClientIp(req));
            var r := Step(c, now, limits, store, req);
            && r.1 == Invalid(limits.attemptLimit - (Read(c, now, u) + 1))
            && u in r.0 && r.0[u] == Entry(Read(c, now, u) + 1, now + limits.WindowSeconds())
            && ip in r.0 && r.0[ip] == Entry(Read(c, now, ip) + 1, now + limits.WindowSeconds())
  {
    WrongPasswordRejected(store, req.username, req.password.value);
    FailureCounts(c, now, limits, store, req);
  }

  /** Consecutive failed attempts with the same username and address, each
      within the window of the previous one and all under both limits, count
      up one at a time: the i-th reports `limit - (a + i + 1)` remaining, where
      `a` is the per-user count before the run, and the final entries hold the
      old counts plus the number of attempts. */
  lemma {:induction false} FailureRun(c: Cache, times: seq<int>, limits: Limits, store: Store, req: LoginRequest)
    requires Unique(store.users)
    requires HasCredentials(req)
    requires forall u :: u in store.users ==> !store.checkPassword(u, req.password.value)
    requires |times| > 0 && WithinSlidingWindow(times, limits.WindowSeconds())
    requires Read(c, times[0], UserKey(req.username.value)) + |times| <= limits.attemptLimit
    requires Read(c, times[0], IpKey(ClientIp(req))) + |times| <= limits.attemptLimit * 2
    ensures var a := Read(c, times[0], UserKey(req.username.value));
            var b := Read(c, times[0], IpKey(ClientIp(req)));
            var r := Replay(c, times, limits, store, req);
            && (forall i :: 0 <= i < |times| ==> r.1[i] == Invalid(limits.attemptLimit - (a + i + 1)))
            && UserKey(req.username.value) in r.0
            && r.0[UserKey(req.username.value)] == Entry(a + |times|, times[|times| - 1] + limits.WindowSeconds())
            && IpKey(ClientIp(req)) in r.0
            && r.0[IpKey(ClientIp(req))] == Entry(b + |times|, times[|times| - 1] + limits.WindowSeconds())
    decreases |times|
  {
    var uk := UserKey(req.username.value);
    var ik := IpKey(ClientIp(req));
    var a := Read(c, times[0], uk);
    var b := Read(c, times[0], ik);
    OneFailure(c, times[0], limits, store, req);
    var s := Step(c, times[0], limits, store, req);
    if |times| > 1 {
      var rest := times[1..];
      WindowTail(times, limits.WindowSeconds());
      assert Read(s.0, rest[0], uk) == a + 1;
      assert Read(s.0, rest[0], ik) == b + 1;
      FailureRun(s.0, rest, limits, store, req);
      var r := Replay(c, times, limits, store, req);
      var r' := Replay(s.0, rest, limits, store, req);
      assert r.1 == [s.1] + r'.1;
      RemainingCountsDown(r.1, r'.1, limits.attemptLimit, a);
      assert times[|times| - 1] == rest[|rest| - 1];
    }
  }

  /** While a per-user entry at or above the limit is live, every request
      with that username is refused and changes nothing, whatever its
      password, its address and the user table. */
  lemma LockoutHolds(c: Cache, now: int, limits: Limits, store: Store, req: LoginRequest)
    requires Unique(store.users)
    requires HasCredentials(req)
    requires Live(c, now, UserKey(req.username.value))
    requires c[UserKey(req.username.value)].count >= limits.attemptLimit
    ensures Step(c, now, limits, store, req) == (c, Blocked(limits.lockoutMinutes))
  {
  }

  /** Once both of a request's entries have expired (or never existed) and the
      limit is positive, the request is not refused. */
  lemma ExpiryReopens(c: Cache, now: int, limits: Limits, store: Store, req: LoginRequest)
    requires Unique(store.users)
    requires HasCredentials(req)
    requires limits.attemptLimit > 0
    requires !Live(c, now, UserKey(req.username.value)) && !Live(c, now, IpKey(ClientIp(req)))
    ensures !Step(c, now, limits, store, req).1.Blocked?
  {
  }

  /** Two consecutive failures for the same username and address, the second
      within the first's window, report strictly fewer remaining attempts the
      second time: exactly one fewer. */
  lemma RemainingDecreases(c: Cache, t1: int, t2: int, limits: Limits, store: Store, req: LoginRequest)
    requires Unique(store.users)
    requires HasCredentials(req)
    requires t1 <= t2 < t1 + limits.WindowSeconds()
    requires Step(c, t1, limits, store, req).1.Invalid?
    requires Step(Step(c, t1, limits, store, req).0, t2, limits, store, req).1.Invalid?
    ensures Step(Step(c, t1, limits, store, req).0, t2, limits, store, req).1.remaining
            == Step(c, t1, limits, store, req).1.remaining - 1
  {
    var uk := UserKey(req.username.value);
    var ik := IpKey(ClientIp(req));
    FailureCounts(c, t1, limits, store, req);
    var s1 := Step(c, t1, limits, store, req);
    assert Read(s1.0, t2, uk) == Read(c, t1, uk) + 1;
    FailureCounts(s1.0, t2, limits, store, req);
  }

  /** A failure for one username leaves every other username's per-user count
      where it was, at any instant, while the shared address's count rises by
      one: so failing account A from address O does not block account B at O
      until O itself reaches twice the limit. Logging in by QQ number and by
      username use different per-user counters in the same way. */
  lemma FailureIsolatesOtherUsers(c: Cache, now: int, later: int, limits: Limits, store: Store,
                                  req: LoginRequest, otherUsername: string)
    requires Unique(store.users)
    requires HasCredentials(req)
    requires otherUsername != req.username.value
    requires Step(c, now, limits, store, req).1.Invalid?
    ensures Read(Step(c, now, limits, store, req).0, later, UserKey(otherUsername)) == Read(c, later, UserKey(otherUsername))
    ensures now < now + limits.WindowSeconds() ==>
              Read(Step(c, now, limits, store, req).0, now, IpKey(ClientIp(req))) == Read(c, now, IpKey(ClientIp(req))) + 1
  {
    KeysInjective(otherUsername, req.username.value, "", "");
    UserAndIpKeysDisjoint(otherUsername, ClientIp(req));
    FailureCounts(c, now, limits, store, req);
  }

  /** The endpoint scenario with a limit of 3 and a 15-minute lockout: three
      wrong passwords for `userA` from a fresh cache, each within the window of
      the one before, report 2, 1 and 0 remaining attempts; a fourth attempt
      within the window is refused with 429 and `success` false, even with the
      right password. */
  lemma ThrottleScenario(store: Store, t0: int, t1: int, t2: int, t3: int, ip: Option<string>, password: string)
    requires Unique(store.users)
    requires forall u :: u in store.users ==> !store.checkPassword(u, "wrong")
    requires password != ""
    requires t0 <= t1 < t0 + 900 && t1 <= t2 < t1 + 900 && t2 <= t3 < t2 + 900
    ensures var limits := Limits(3, 15);
            var wrong := LoginRequest(Some("userA"), Some("wrong"), ip);
            var run := Replay(map[], [t0, t1, t2], limits, store, wrong);
            var fourth := Step(run.0, t3, limits, store, LoginRequest(Some("userA"), Some(password), ip));
            && run.1 == [Invalid(2), Invalid(1), Invalid(0)]
            && fourth == (run.0, Blocked(15))
            && Render(fourth.1).status == 429
            && Render(fourth.1).body.payload["success"] == Http.JBool(false)
  {
    var limits := Limits(3, 15);
    var wrong := LoginRequest(Some("userA"), Some("wrong"), ip);
    var times := [t0, t1, t2];
    assert WithinSlidingWindow(times, limits.WindowSeconds());
    FailureRun(map[], times, limits, store, wrong);
    var run := Replay(map[], times, limits, store, wrong);
    assert run.1 == [Invalid(2), Invalid(1), Invalid(0)];
    var right := LoginRequest(Some("userA"), Some(password), ip);
    LockoutHolds(run.0, t3, limits, store, right);
    RenderStatus(Blocked(15));
  }
}

=== FILE: password_validation.dfy ===
/** The password-complexity validator (common/validators.py).

    Upper-case letters, lower-case letters and digits are counted one
    character at a time (ASCII classes). Symbols are counted as the
    non-overlapping matches of the validator's regular expression, which
    reads as written: a character class that closes after the escaped
    backslash, holding the eighteen characters `!@#$%^&*()_+-={}[` and the
    backslash, OR the sequence `:;"'<>,` followed by one optional character
    other than a newline (the unescaped `.?`) and then `/]`. So `.` or `?`
    on its own is not a symbol, and neither is `:` on its own.
 */
module PasswordValidation {
  import opened Wrappers
  import Text
  import Players

  /** The four configured minimums. */
  datatype Complexity = Complexity(minUpper: int, minLower: int, minDigits: int, minSymbols: int)

  /** The validator the project configures, built with the constructor's
      defaults: one of each class. */
  const Configured := Complexity(1, 1, 1, 1)

  // ---------------------------------------------------------------------
  // Counting
  // ---------------------------------------------------------------------

  /** `sum(1 for c in s if p(c))`. */
  function Count(s: string, p: char -> bool): (n: nat)
    ensures n <= |s|
    ensures n == 0 <==> forall i :: 0 <= i < |s| ==> !p(s[i])
    ensures n == |s| <==> forall i :: 0 <= i < |s| ==> p(s[i])
    decreases |s|
  {
    if |s| == 0 then 0
    else (if p(s[0]) then 1 else 0) + Count(s[1..], p)
  }

  lemma {:induction false} CountAppend(a: string, b: string, p: char -> bool)
    ensures Count(a + b, p) == Count(a, p) + Count(b, p)
    decreases |a|
  {
    if |a| == 0 {
      assert a + b == b;
    } else {
      assert (a + b)[0] == a[0];
      assert (a + b)[1..] == a[1..] + b;
      CountAppend(a[1..], b, p);
    }
  }

  lemma CountWitness(s: string, p: char -> bool, i: nat)
    requires i < |s| && p(s[i])
    ensures Count(s, p) >= 1
  {
  }

  /** The single characters the regular expression's class accepts:
      `!@#$%^&*()_+-={}[` and the backslash. */
  predicate IsSymbolChar(c: char) {
    || c == '!' || c == '@' || c == '#' || c == '$' || c == '%' || c == '^' || c == '&'
    || c == '*' || c == '(' || c == ')' || c == '_' || c == '+' || c == '-' || c == '='
    || c == '{' || c == '}' || c == '[' || c == '\\'
  }

  /** The second alternative: this head, an optional non-newline character,
      then the tail. */
  const AltHead := ":;\"'<>,"
  const AltTail := "/]"

  /** The length of the second alternative's match at the start of `s`, or 0
      when it does not match there. The optional character is tried first
      (the quantifier is greedy) and dropped when the tail does not follow. */
  function AltLength(s: string): (m: nat)
    ensures m == 0 || m == 9 || m == 10
    ensures m <= |s|
  {
    if !Text.StartsWith(s, AltHead) then 0
    else if |s| >= 10 && s[7] != '\n' && s[8..10] == AltTail then 10
    else if |s| >= 9 && s[7..9] == AltTail then 9
    else 0
  }

  /** `len(pattern.findall(s))`: scanning from the left, a class character is
      one match, a match of the second alternative is one match, anything
      else is skipped. */
  function SymbolCount(s: string): (n: nat)
    ensures n <= |s|
    decreases |s|
  {
    if |s| == 0 then 0
    else if IsSymbolChar(s[0]) then 1 + SymbolCount(s[1..])
    else if AltLength(s) > 0 then 1 + SymbolCount(s[AltLength(s)..])
    else SymbolCount(s[1..])
  }

  /** A character at which a match can begin. */
  predicate StartsSymbol(c: char) {
    IsSymbolChar(c) || c == ':'
  }

  /** Neither the head nor the tail holds a class character. */
  lemma HeadTailNoClass()
    ensures Count(AltHead, IsSymbolChar) == 0
    ensures Count(AltTail, IsSymbolChar) == 0
  {
    assert forall i :: 0 <= i < |AltHead| ==> !IsSymbolChar(AltHead[i]);
    assert forall i :: 0 <= i < |AltTail| ==> !IsSymbolChar(AltTail[i]);
  }

  /** A match of the second alternative is the head, at most one character,
      and the tail. */
  lemma AltMatchShape(s: string)
    requires AltLength(s) > 0
    ensures s[..AltLength(s)] == AltHead + s[7..AltLength(s) - 2] + AltTail
    ensures s[0] == ':'
  {
    var m := AltLength(s);
    assert s[..7] == AltHead;
    assert s[m - 2..m] == AltTail;
    assert s[0] == AltHead[0];
  }

  /** A match of the second alternative begins with `:` and holds at most one
      class character, the optional one. */
  lemma AltMatchCounts(s: string)
    requires AltLength(s) > 0
    ensures Count(s[..AltLength(s)], IsSymbolChar) <= 1
    ensures Count(s[..AltLength(s)], StartsSymbol) >= 1
  {
    var m := AltLength(s);
    var mid := s[7..m - 2];
    AltMatchShape(s);
    CountWitness(s[..m], StartsSymbol, 0);
    HeadTailNoClass();
    CountAppend(AltHead + mid, AltTail, IsSymbolChar);
    CountAppend(AltHead, mid, IsSymbolChar);
  }

  /** Splitting off the second alternative's match. */
  lemma AltStep(s: string)
    requires AltLength(s) > 0
    ensures Count(s, IsSymbolChar) <= 1 + Count(s[AltLength(s)..], IsSymbolChar)
    ensures Count(s, StartsSymbol) >= 1 + Count(s[AltLength(s)..], StartsSymbol)
    ensures s[0] == ':'
  {
    var m := AltLength(s);
    assert s == s[..m] + s[m..];
    AltMatchCounts(s);
    CountAppend(s[..m], s[m..], IsSymbolChar);
    CountAppend(s[..m], s[m..], StartsSymbol);
    assert s[0] == AltHead[0];
  }

  /** Every class character is counted and every match begins at a class
      character or a `:`, so the count lies between the two character counts;
      without a `:` it is the class count. */
  lemma {:induction false} SymbolCountBounds(s: string)
    ensures Count(s, IsSymbolChar) <= SymbolCount(s) <= Count(s, StartsSymbol)
    ensures ':' !in s ==> SymbolCount(s) == Count(s, IsSymbolChar)
    decreases |s|
  {
    if |s| > 0 {
      if IsSymbolChar(s[0]) || AltLength(s) == 0 {
        SymbolCountBounds(s[1..]);
        assert ':' !in s ==> ':' !in s[1..];
      } else {
        AltStep(s);
        SymbolCountBounds(s[AltLength(s)..]);
      }
    }
  }

  /** The three counts of character classes and the symbol count. */
  datatype Counts = Counts(upper: nat, lower: nat, digits: nat, symbols: nat)

  function CountsOf(password: string): Counts {
    Counts(Count(password, Text.IsUpper), Count(password, Text.IsLower),
           Count(password, Text.IsDigit), SymbolCount(password))
  }

  /** Every minimum is met. */
  predicate Meets(v: Complexity, c: Counts) {
    c.upper >= v.minUpper && c.lower >= v.minLower && c.digits >= v.minDigits && c.symbols >= v.minSymbols
  }

  // ---------------------------------------------------------------------
  // validate and get_help_text
  // ---------------------------------------------------------------------

  /** Django's `ValidationError(message, code=code)`. */
  datatype ValidationError = ValidationError(message: string, code: string)

  const ComplexityCode := "password_complexity"

  /** Some minimum is negative exactly when the validator's texts carry a
      minus sign: none of their fixed words has one. */
  predicate SomeNegative(v: Complexity) {
    v.minUpper < 0 || v.minLower < 0 || v.minDigits < 0 || v.minSymbols < 0
  }

  /** The rejection message, naming the four minimums. */
  function ErrorMessage(v: Complexity): (r: string)
    ensures '-' in r <==> SomeNegative(v)
  {
    MinusInMinimums(v);
    "密码复杂度不足: 至少" + Text.IntToString(v.minUpper) + "大写," + Text.IntToString(v.minLower) + "小写,"
      + Text.IntToString(v.minDigits) + "数字," + Text.IntToString(v.minSymbols) + "符号"
  }

  lemma MinusInMinimums(v: Complexity)
    ensures ('-' in Text.IntToString(v.minUpper) || '-' in Text.IntToString(v.minLower)
             || '-' in Text.IntToString(v.minDigits) || '-' in Text.IntToString(v.minSymbols))
            <==> SomeNegative(v)
  {
    Text.MinusMarksNegative(v.minUpper);
    Text.MinusMarksNegative(v.minLower);
    Text.MinusMarksNegative(v.minDigits);
    Text.MinusMarksNegative(v.minSymbols);
  }

  /** `validate(password, user=None)`: passes exactly when every count meets
      its minimum; otherwise fails with code `password_complexity`. */
  function Validate(v: Complexity, password: string, user: Option<Players.User>): (r: Outcome<ValidationError>)
    ensures r.Pass? <==> Meets(v, CountsOf(password))
    ensures r.Fail? ==> r.error == ValidationError(ErrorMessage(v), ComplexityCode)
  {
    var counts := CountsOf(password);
    if counts.upper < v.minUpper || counts.lower < v.minLower || counts.digits < v.minDigits
       || counts.symbols < v.minSymbols
    then Fail(ValidationError(ErrorMessage(v), ComplexityCode))
    else Pass
  }

  /** `get_help_text()`, naming the four minimums. */
  function HelpText(v: Complexity): (r: string)
    ensures '-' in r <==> SomeNegative(v)
  {
    MinusInMinimums(v);
    "密码至少包含" + Text.IntToString(v.minUpper) + "个大写字母、" + Text.IntToString(v.minLower) + "个小写字母、"
      + Text.IntToString(v.minDigits) + "个数字和" + Text.IntToString(v.minSymbols) + "个符号"
  }

  /** The help text and the error message report each minimum back as the
      decimal text of the configured value, one of each for the defaults. */
  lemma HelpTextOfConfigured()
    ensures HelpText(Configured) == "密码至少包含1个大写字母、1个小写字母、1个数字和1个符号"
    ensures ErrorMessage(Configured) == "密码复杂度不足: 至少1大写,1小写,1数字,1符号"
  {
    assert Text.IntToString(1) == "1";
  }

  /** A minimum's decimal text followed by a word whose first character no
      such text contains: equal texts of this shape agree on the number and
      on what follows the word. */
  lemma PeelField(a: int, b: int, word: string, y: string, y': string)
    requires EndsNumber(word)
    requires Text.IntToString(a) + (word + y) == Text.IntToString(b) + (word + y')
    ensures a == b && y == y'
  {
    var x, x' := Text.IntToString(a), Text.IntToString(b);
    Text.IntToStringChars(a);
    Text.IntToStringChars(b);
    assert x + (word + y) == x + [word[0]] + (word[1..] + y);
    assert x' + (word + y') == x' + [word[0]] + (word[1..] + y');
    Text.SplitAtMarker(x, word[1..] + y, x', word[1..] + y', word[0]);
    Text.IntToStringInjective(a, b);
    assert y == (word[1..] + y)[|word| - 1..];
  }

  /** Nine pieces concatenated left to right, regrouped to the right. */
  lemma Regroup(p: string, a: string, s1: string, b: string, s2: string, c: string, s3: string, d: string, s4: string)
    ensures p + a + s1 + b + s2 + c + s3 + d + s4 == p + (a + (s1 + (b + (s2 + (c + (s3 + (d + s4)))))))
  {
  }

  /** A word that can follow a minimum's decimal text and end it. */
  predicate EndsNumber(word: string) {
    word != [] && !Text.IsDigit(word[0]) && word[0] != '-'
  }

  /** A text that interleaves a fixed prefix and four fixed words with the
      four minimums, as both messages do, determines the minimums. */
  lemma FieldsDetermineMinimums(v: Complexity, w: Complexity, p: string, s1: string, s2: string, s3: string, s4: string)
    requires EndsNumber(s1) && EndsNumber(s2) && EndsNumber(s3) && EndsNumber(s4)
    requires p + Text.IntToString(v.minUpper) + s1 + Text.IntToString(v.minLower) + s2
               + Text.IntToString(v.minDigits) + s3 + Text.IntToString(v.minSymbols) + s4
             == p + Text.IntToString(w.minUpper) + s1 + Text.IntToString(w.minLower) + s2
               + Text.IntToString(w.minDigits) + s3 + Text.IntToString(w.minSymbols) + s4
    ensures v == w
  {
    var a, b, c, d := Text.IntToString(v.minUpper), Text.IntToString(v.minLower),
                      Text.IntToString(v.minDigits), Text.IntToString(v.minSymbols);
    var a', b', c', d' := Text.IntToString(w.minUpper), Text.IntToString(w.minLower),
                          Text.IntToString(w.minDigits), Text.IntToString(w.minSymbols);
    Regroup(p, a, s1, b, s2, c, s3, d, s4);
    Regroup(p, a', s1, b', s2, c', s3, d', s4);
    var t, t' := a + (s1 + (b + (s2 + (c + (s3 + (d + s4)))))), a' + (s1 + (b' + (s2 + (c' + (s3 + (d' + s4))))));
    assert t == (p + t)[|p|..] == (p + t')[|p|..] == t';
    PeelField(v.minUpper, w.minUpper, s1, b + (s2 + (c + (s3 + (d + s4)))), b' + (s2 + (c' + (s3 + (d' + s4)))));
    PeelField(v.minLower, w.minLower, s2, c + (s3 + (d + s4)), c' + (s3 + (d' + s4)));
    PeelField(v.minDigits, w.minDigits, s3, d + s4, d' + s4);
    assert d + (s4 + []) == d + s4 && d' + (s4 + []) == d' + s4;
    PeelField(v.minSymbols, w.minSymbols, s4, [], []);
  }

  /** `get_help_text()` reports the configuration faithfully: two validators
      have the same help text exactly when their minimums agree. */
  lemma HelpTextDeterminesMinimums(v: Complexity, w: Complexity)
    ensures HelpText(v) == HelpText(w) <==> v == w
  {
    if HelpText(v) == HelpText(w) {
      FieldsDetermineMinimums(v, w, "密码至少包含", "个大写字母、", "个小写字母、", "个数字和", "个符号");
    }
  }

  /** Likewise the rejection message: it names each minimum, so two
      validators reject with the same message exactly when configured alike. */
  lemma ErrorMessageDeterminesMinimums(v: Complexity, w: Complexity)
    ensures ErrorMessage(v) == ErrorMessage(w) <==> v == w
  {
    if ErrorMessage(v) == ErrorMessage(w) {
      FieldsDetermineMinimums(v, w, "密码复杂度不足: 至少", "大写,", "小写,", "数字,", "符号");
    }
  }

  /** The `user` argument has no effect on the verdict. */
  lemma UserIgnored(v: Complexity, password: string, u1: Option<Players.User>, u2: Option<Players.User>)
    ensures Validate(v, password, u1) == Validate(v, password, u2)
  {
  }

  /** With no minimum above zero every password passes, the empty one too. */
  lemma ZeroMinimumsAcceptAll(v: Complexity, password: string)
    requires v.minUpper <= 0 && v.minLower <= 0 && v.minDigits <= 0 && v.minSymbols <= 0
    ensures Validate(v, password, None).Pass?
  {
  }

  /** Raising a minimum can only turn a pass into a failure. */
  lemma StricterRejectsMore(v: Complexity, w: Complexity, password: string)
    requires w.minUpper >= v.minUpper && w.minLower >= v.minLower
    requires w.minDigits >= v.minDigits && w.minSymbols >= v.minSymbols
    ensures Validate(w, password, None).Pass? ==> Validate(v, password, None).Pass?
  {
  }

  /** How the symbol pattern reads on single characters: `!` counts, `.`
      does not. */
  lemma SingleCharacters()
    ensures SymbolCount("!") == 1
    ensures SymbolCount(".") == 0
  {
    assert !Text.StartsWith(".", AltHead);
  }

  /** After the head of the second alternative, any one character other than
      a newline, or none, may precede the tail: `:;"'<>,/]` and
      `:;"'<>,X/]` are one symbol each. */
  lemma AltMatches(c: char)
    requires c != '\n'
    ensures SymbolCount(AltHead + AltTail) == 1
    ensures SymbolCount(AltHead + [c] + AltTail) == 1
  {
    var s := AltHead + AltTail;
    assert s[..7] == AltHead && s[7..9] == AltTail;
    assert s[9..] == [];
    var t := AltHead + [c] + AltTail;
    assert t[..7] == AltHead && t[7] == c && t[8..10] == AltTail;
    assert t[10..] == [];
  }

  /** Two characters between head and tail are one too many: the
      eleven-character `:;"'<>,.?/]` holds no symbol at all. */
  lemma AltTooLong()
    ensures SymbolCount(AltHead + ".?" + AltTail) == 0
  {
    var s := AltHead + ".?" + AltTail;
    assert s[8..10] == "?/" && s[7..9] == ".?";
    var rest := s[1..];
    assert forall i :: 0 <= i < |rest| ==> !IsSymbolChar(rest[i]) && rest[i] != ':';
    SymbolCountBounds(rest);
  }

  /** With the configured minimums a password passes as soon as it holds an
      upper-case letter, a lower-case letter, a digit and a symbol match. */
  lemma ConfiguredAccepts(password: string, i: nat, j: nat, k: nat)
    requires i < |password| && Text.IsUpper(password[i])
    requires j < |password| && Text.IsLower(password[j])
    requires k < |password| && Text.IsDigit(password[k])
    requires SymbolCount(password) >= 1
    ensures Validate(Configured, password, None).Pass?
  {
    CountWitness(password, Text.IsUpper, i);
    CountWitness(password, Text.IsLower, j);
    CountWitness(password, Text.IsDigit, k);
  }

  /** With the configured minimums `Abcdef1!` passes. */
  lemma AcceptsBangExample()
    ensures Validate(Configured, "Abcdef1!", None).Pass?
  {
    var s := "Abcdef1!";
    CountWitness(s, IsSymbolChar, 7);
    SymbolCountBounds(s);
    ConfiguredAccepts(s, 0, 1, 6);
  }

  /** With the configured minimums `Abcdef1.` fails: the full stop is not a
      symbol on its own, and there is no other candidate. */
  lemma RejectsDotExample()
    ensures Validate(Configured, "Abcdef1.", None).Fail?
  {
    var s := "Abcdef1.";
    assert forall i :: 0 <= i < |s| ==> !StartsSymbol(s[i]);
    SymbolCountBounds(s);
  }
}

=== FILE: players.dfy ===
/** The player account record (players/models.py) and the database's
    uniqueness constraints on it.

    The user table is modelled as a sequence in primary-key order: the model's
    Meta declares no ordering, so `.first()` on an unordered query returns the
    match with the smallest primary key, that is, the earliest in the sequence.
 */
module Players {
  import opened Wrappers

  const UsernameMaxLength := 150
  const QqMaxLength := 15
  const NicknameMaxLength := 50

  /** One row of the user table. `password` is the stored hash; the
      password check itself is a parameter of the authentication model. */
  datatype User = User(
    id: nat,
    username: string,
    password: string,
    qq: Option<string>,
    nickname: string,
    isWhitelisted: bool,
    isActive: bool,
    isStaff: bool)

  /** A newly created player: whitelisting off and staff off by default, and
      active, as Django accounts are unless deactivated. */
  function NewUser(id: nat, username: string, password: string, qq: Option<string>, nickname: string): (u: User)
    ensures !u.isWhitelisted && u.isActive && !u.isStaff
    ensures u.id == id && u.username == username && u.qq == qq && u.nickname == nickname
  {
    User(id, username, password, qq, nickname, false, true, false)
  }

  /** `str(user)`: the nickname when it is non-empty, else the username.
      Nicknames are not unique, so players sharing one display alike. */
  function Display(u: User): (r: string)
    ensures r == u.nickname || r == u.username
    ensures r == "" <==> (u.nickname == "" && u.username == "")
    ensures u.nickname != "" ==> r == u.nickname
  {
    if u.nickname != "" then u.nickname else u.username
  }

  /** The displayed name depends on the two name fields only: the password,
      QQ number, key and flags never change it. */
  lemma DisplayIgnoresAccountState(u: User, v: User)
    requires u.nickname == v.nickname && u.username == v.username
    ensures Display(u) == Display(v)
  {
  }

  /** Among players without a nickname the displayed name tells the
      accounts apart, since usernames are unique. */
  lemma DisplayIdentifiesWithoutNicknames(users: seq<User>, i: nat, j: nat)
    requires Unique(users)
    requires i < j < |users|
    requires users[i].nickname == "" && users[j].nickname == ""
    ensures Display(users[i]) != Display(users[j])
  {
  }

  /** The field-level limits the model declares (the username's comes from
      Django's `AbstractUser`). Saving does not run model validation, so
      only an insert that enforces them checks them; the login path does not
      rely on them. */
  predicate FieldsValid(u: User) {
    && |u.username| <= UsernameMaxLength
    && (u.qq.Some? ==> |u.qq.value| <= QqMaxLength)
    && |u.nickname| <= NicknameMaxLength
  }

  /** What the database guarantees of the table: primary keys strictly
      increasing (sequence order is primary-key order), usernames unique, and
      QQ numbers unique among the rows that have one. A QQ number may still
      equal another row's username: each constraint covers one column. */
  ghost predicate Unique(users: seq<User>) {
    && (forall i, j :: 0 <= i < j < |users| ==> users[i].id < users[j].id)
    && (forall i, j :: 0 <= i < j < |users| ==> users[i].username != users[j].username)
    && (forall i, j :: 0 <= i < j < |users| && users[i].qq.Some? ==> users[i].qq != users[j].qq)
  }

  /** The unique constraints and, in addition, every row within its field
      limits: what a table built only through `Insert` satisfies. */
  ghost predicate Valid(users: seq<User>) {
    && Unique(users)
    && (forall i :: 0 <= i < |users| ==> FieldsValid(users[i]))
  }

  /** Why an insert is refused: a field over its limit (model validation) or a
      unique constraint (the database's IntegrityError). */
  datatype InsertError = FieldTooLong | DuplicateUsername | DuplicateQq

  /** The auto-increment primary key the next row receives. */
  function NextId(users: seq<User>): nat {
    if |users| == 0 then 1 else users[|users| - 1].id + 1
  }

  /** Saving a new row: refused when it breaks a field limit or a unique
      constraint, otherwise appended with the next primary key. */
  function Insert(users: seq<User>, u: User): (r: Result<seq<User>, InsertError>)
    ensures r.Ok? ==> r.value == users + [u.(id := NextId(users))]
    ensures r.Ok? <==> (FieldsValid(u)
                        && (forall i :: 0 <= i < |users| ==> users[i].username != u.username)
                        && (u.qq.Some? ==> forall i :: 0 <= i < |users| ==> users[i].qq != u.qq))
  {
    if !FieldsValid(u) then Err(FieldTooLong)
    else if exists i :: 0 <= i < |users| && users[i].username == u.username then Err(DuplicateUsername)
    else if u.qq.Some? && exists i :: 0 <= i < |users| && users[i].qq == u.qq then Err(DuplicateQq)
    else Ok(users + [u.(id := NextId(users))])
  }

  /** Inserting keeps the table invariant. */
  lemma InsertPreservesValid(users: seq<User>, u: User)
    requires Valid(users)
    requires Insert(users, u).Ok?
    ensures Valid(Insert(users, u).value)
  {
    var r := users + [u.(id := NextId(users))];
    assert forall i :: 0 <= i < |users| ==> r[i] == users[i];
    if |users| > 0 {
      assert forall i :: 0 <= i < |users| ==> users[i].id <= users[|users| - 1].id;
    }
  }
}

=== FILE: responses.dfy ===
/** The uniform `success / data / message` JSON envelope
    (common/responses.py). Extra keyword arguments are merged into the
    payload after the three standard keys, so they may overwrite them. */
module Responses {
  import opened Http

  const SuccessMessage := "成功"
  const ErrorMessage := "失败"

  /** The three standard keys plus the extra keywords; an extra keyword with
      a standard name wins, as `dict.update` does. */
  function Envelope(success: bool, data: Json, message: string, extra: map<string, Json>): (p: map<string, Json>)
    ensures p.Keys == {"success", "data", "message"} + extra.Keys
    ensures forall k :: k in extra ==> p[k] == extra[k]
    ensures "success" !in extra ==> p["success"] == JBool(success)
    ensures "data" !in extra ==> p["data"] == data
    ensures "message" !in extra ==> p["message"] == JStr(message)
  {
    map["success" := JBool(success), "data" := data, "message" := JStr(message)] + extra
  }

  /** `json_success(data=None, message="成功", status=200, **kwargs)`. */
  function JsonSuccess(data: Json := JNull, message: string := SuccessMessage, status: int := 200,
                       extra: map<string, Json> := map[]): (r: Response)
    ensures r.status == status
    ensures r.body.JsonBody? && r.body.payload == Envelope(true, data, message, extra)
  {
    JsonResponse(Envelope(true, data, message, extra), status)
  }

  /** `json_error(message="失败", data=None, status=400, **kwargs)`. */
  function JsonError(message: string := ErrorMessage, data: Json := JNull, status: int := 400,
                     extra: map<string, Json> := map[]): (r: Response)
    ensures r.status == status
    ensures r.body.JsonBody? && r.body.payload == Envelope(false, data, message, extra)
  {
    JsonResponse(Envelope(false, data, message, extra), status)
  }

  /** With no arguments, `json_success` answers 200 with success true, null
      data and the default message, and `json_error` answers 400 with success
      false, null data and its default message. */
  lemma Defaults()
    ensures JsonSuccess().status == 200
    ensures JsonSuccess().body.payload
         == map["success" := JBool(true), "data" := JNull, "message" := JStr("成功")]
    ensures JsonError().status == 400
    ensures JsonError().body.payload
         == map["success" := JBool(false), "data" := JNull, "message" := JStr("失败")]
  {
  }

  /** The success flag tells the two envelopes apart unless an extra keyword
      overrides it. */
  lemma SuccessFlag(data: Json, message: string, status: int, extra: map<string, Json>)
    requires "success" !in extra
    ensures JsonSuccess(data, message, status, extra).body.payload["success"] == JBool(true)
    ensures JsonError(message, data, status, extra).body.payload["success"] == JBool(false)
  {
  }
}

=== FILE: security_headers.dfy ===
/** The security-header middleware (mysite/middleware.py): five policy
    headers are added to every response with `setdefault`, in order, so a
    header the view already set keeps its value. */
module SecurityHeaders {
  import opened Wrappers
  import opened Http
  import Text

  /** The policy table, in insertion order. */
  const Policies: seq<(string, string)> := [
    ("X-Frame-Options", "DENY"),
    ("X-Content-Type-Options", "nosniff"),
    ("Referrer-Policy", "strict-origin-when-cross-origin"),
    ("X-XSS-Protection", "1; mode=block"),
    ("Permissions-Policy", "geolocation=(), microphone=(), camera=()")
  ]

  /** The lower-cased key a policy list touches. */
  predicate Covers(ps: seq<(string, string)>, key: string) {
    exists i :: 0 <= i < |ps| && Text.Lower(ps[i].0) == key
  }

  /** The value the first policy for `key` carries, if any. */
  function FirstValue(ps: seq<(string, string)>, key: string): (r: Option<string>)
    ensures r.Some? <==> Covers(ps, key)
    decreases |ps|
  {
    if ps == [] then None
    else if Text.Lower(ps[0].0) == key then Some(ps[0].1)
    else
      var rest := FirstValue(ps[1..], key);
      assert Covers(ps, key) <==> Covers(ps[1..], key) by {
        if Covers(ps, key) {
          var i :| 0 <= i < |ps| && Text.Lower(ps[i].0) == key;
          assert i > 0 && ps[1..][i - 1] == ps[i];
        }
        if Covers(ps[1..], key) {
          var i :| 0 <= i < |ps[1..]| && Text.Lower(ps[1..][i].0) == key;
          assert ps[i + 1] == ps[1..][i];
        }
      }
      rest
  }

  /** `for header, value in policies.items(): response.setdefault(header, value)`:
      a header the view already set is never overwritten. */
  function ApplyPolicies(h: Headers, ps: seq<(string, string)>): (r: Headers)
    ensures forall k :: k in h ==> k in r && r[k] == h[k]
    ensures forall i :: 0 <= i < |ps| ==> Text.Lower(ps[i].0) in r
    decreases |ps|
  {
    if ps == [] then h
    else
      assert forall i :: 1 <= i < |ps| ==> ps[i] == ps[1..][i - 1];
      ApplyPolicies(SetDefault(h, ps[0].0, ps[0].1), ps[1..])
  }

  /** After the loop every header present before keeps its value, every
      policy header is present (with the first policy value for that name
      when it was absent), and nothing else appears. */
  lemma {:induction false} ApplyPoliciesEffect(h: Headers, ps: seq<(string, string)>)
    ensures forall k :: k in h ==> k in ApplyPolicies(h, ps) && ApplyPolicies(h, ps)[k] == h[k]
    ensures forall k :: k in ApplyPolicies(h, ps) <==> k in h || Covers(ps, k)
    ensures forall k :: k !in h && Covers(ps, k) ==> ApplyPolicies(h, ps)[k].value == FirstValue(ps, k).value
    ensures WellKeyed(h) ==> WellKeyed(ApplyPolicies(h, ps))
    decreases |ps|
  {
    if ps != [] {
      var h1 := SetDefault(h, ps[0].0, ps[0].1);
      var key := Text.Lower(ps[0].0);
      ApplyPoliciesEffect(h1, ps[1..]);
      var r := ApplyPolicies(h, ps);
      assert r == ApplyPolicies(h1, ps[1..]);
      forall k
        ensures k in r <==> k in h || Covers(ps, k)
      {
        CoversStep(ps, k);
      }
      forall k | k !in h && Covers(ps, k)
        ensures r[k].value == FirstValue(ps, k).value
      {
        CoversStep(ps, k);
        if k == key {
          assert h1[k] == Header(ps[0].0, ps[0].1);
        }
      }
    }
  }

  /** A policy list covers a name when its first policy or the rest does. */
  lemma CoversStep(ps: seq<(string, string)>, k: string)
    requires ps != []
    ensures Covers(ps, k) <==> Text.Lower(ps[0].0) == k || Covers(ps[1..], k)
  {
    if Covers(ps, k) && Text.Lower(ps[0].0) != k {
      var i :| 0 <= i < |ps| && Text.Lower(ps[i].0) == k;
      assert ps[1..][i - 1] == ps[i];
    }
    if Covers(ps[1..], k) {
      var i :| 0 <= i < |ps[1..]| && Text.Lower(ps[1..][i].0) == k;
      assert ps[i + 1] == ps[1..][i];
    }
  }

  /** `process_response`: the policies applied to the response's headers;
      status and body are untouched. */
  function ProcessResponse(resp: Response): (r: Response)
    ensures r.status == resp.status && r.body == resp.body
    ensures forall k :: k in resp.headers ==> k in r.headers && r.headers[k] == resp.headers[k]
    ensures forall k :: k in r.headers <==> k in resp.headers || Covers(Policies, k)
    ensures forall k :: k !in resp.headers && Covers(Policies, k) ==> r.headers[k].value == FirstValue(Policies, k).value
  {
    ApplyPoliciesEffect(resp.headers, Policies);
    resp.(headers := ApplyPolicies(resp.headers, Policies))
  }

  /** Applying the policies to headers that already carry all of them
      changes nothing. */
  lemma {:induction false} ApplyPoliciesNoop(h: Headers, ps: seq<(string, string)>)
    requires forall i :: 0 <= i < |ps| ==> Text.Lower(ps[i].0) in h
    ensures ApplyPolicies(h, ps) == h
    decreases |ps|
  {
    if ps != [] {
      ApplyPoliciesNoop(h, ps[1..]);
    }
  }

  /** Running the middleware twice is running it once. */
  lemma ProcessResponseIdempotent(resp: Response)
    ensures ProcessResponse(ProcessResponse(resp)) == ProcessResponse(resp)
  {
    var once := ProcessResponse(resp);
    forall i | 0 <= i < |Policies|
      ensures Text.Lower(Policies[i].0) in once.headers
    {
      assert Covers(Policies, Text.Lower(Policies[i].0));
    }
    ApplyPoliciesNoop(once.headers, Policies);
  }

  /** The header checks of the test suite: a response that carries neither
      header gets `X-Frame-Options: DENY` and `X-Content-Type-Options:
      nosniff`, whatever case the name is looked up with. */
  lemma RootPageHeaders(resp: Response)
    requires Get(resp.headers, "X-Frame-Options").None?
    requires Get(resp.headers, "X-Content-Type-Options").None?
    ensures Get(ProcessResponse(resp).headers, "X-Frame-Options") == Some("DENY")
    ensures Get(ProcessResponse(resp).headers, "X-Content-Type-Options") == Some("nosniff")
  {
    var frame := Text.Lower("X-Frame-Options");
    var sniff := Text.Lower("X-Content-Type-Options");
    assert Policies[0].0 == "X-Frame-Options";
    assert Policies[1].0 == "X-Content-Type-Options";
    assert frame != sniff by {
      assert |frame| == 15 && |sniff| == 22;
    }
    assert FirstValue(Policies, frame) == Some("DENY");
    assert Covers(Policies, sniff);
    assert FirstValue(Policies, sniff) == Some("nosniff");
  }
}

=== FILE: settings.dfy ===
/** The environment-driven part of the project settings (mysite/settings.py).

    The process environment is a map from variable names to values; a
    missing variable takes the default `os.getenv` is given, an empty one
    does not. Every value `int()` is applied to may fail, which is the
    ValueError the settings module raises at import time; an unknown
    `DB_ENGINE` is its RuntimeError. `BASE_DIR`-relative paths are kept as
    the relative names the environment supplies.
 */
module Settings {
  import opened Wrappers
  import Text
  import LoginApi
  import Uploads

  type Env = map<string, string>

  /** `os.getenv(name, default)`. */
  function Getenv(env: Env, name: string, default: string): (r: string)
    ensures name in env ==> r == env[name]
    ensures name !in env ==> r == default
  {
    if name in env then env[name] else default
  }

  /** What makes importing the settings module fail. */
  datatype ConfigError =
    | UnsupportedEngine(engine: string)
    | NotAnInteger(variable: string, value: string)

  /** `int(raw)` for the variable `name`. */
  function ParseSetting(name: string, raw: string): (r: Result<int, ConfigError>)
    ensures r.Ok? <==> Text.ParseInt(raw).Some?
    ensures r.Ok? ==> Text.ParseInt(raw) == Some(r.value)
    ensures r.Err? ==> r.error == NotAnInteger(name, raw)
  {
    match Text.ParseInt(raw)
    case Some(n) => Ok(n)
    case None => Err(NotAnInteger(name, raw))
  }

  /** `int(os.getenv(name, str(default)))`: the default is written here as
      the integer its text denotes. */
  function IntSetting(env: Env, name: string, default: int): (r: Result<int, ConfigError>)
    ensures name !in env ==> r == Ok(default)
    ensures name in env ==> r == ParseSetting(name, env[name])
  {
    if name in env then ParseSetting(name, env[name]) else Ok(default)
  }

  /** Writing the default as an integer is faithful: it is what `int()`
      makes of the default text. */
  lemma IntSettingIsIntOfGetenv(env: Env, name: string, default: int)
    ensures IntSetting(env, name, default) == ParseSetting(name, Getenv(env, name, Text.IntToString(default)))
  {
    Text.ParseIntToString(default);
  }

  // ---------------------------------------------------------------------
  // DJANGO_ENV and DEBUG
  // ---------------------------------------------------------------------

  const Development := "development"
  const Production := "production"

  /** `os.getenv("DJANGO_ENV", "development").lower()`. */
  function DjangoEnv(env: Env): string {
    Text.Lower(Getenv(env, "DJANGO_ENV", Development))
  }

  /** The spellings `DEBUG` accepts after lower-casing. */
  predicate DebugTruthy(value: string) {
    Text.Lower(value) in {"1", "true", "yes", "on"}
  }

  /** The spellings the cleanup switch and the security flags accept: exact,
      with no lower-casing and no `on`. */
  predicate ExactFlag(value: string) {
    value in {"1", "true", "yes"}
  }

  /** `DEBUG`: a set value decides, whatever the environment; unset, the
      default follows the environment name. */
  function Debug(env: Env): (b: bool)
    ensures "DEBUG" in env ==> (b <==> DebugTruthy(env["DEBUG"]))
    ensures "DEBUG" !in env ==> (b <==> DjangoEnv(env) == Development)
  {
    LowerKeeps("true");
    LowerKeeps("false");
    DebugTruthy(Getenv(env, "DEBUG", if DjangoEnv(env) == Development then "true" else "false"))
  }

  /** A string with no upper-case letter is its own lower-case form. */
  lemma LowerKeeps(s: string)
    requires forall i :: 0 <= i < |s| ==> !Text.IsUpper(s[i])
    ensures Text.Lower(s) == s
  {
  }

  /** With `DEBUG` unset, debugging is on exactly in development; the
      environment name itself is compared after lower-casing. */
  lemma DebugDefault(env: Env)
    requires "DEBUG" !in env
    ensures Debug(env) <==> DjangoEnv(env) == Development
  {
    LowerKeeps("true");
    LowerKeeps("false");
  }

  /** An unset `DJANGO_ENV` is development. */
  lemma DefaultIsDevelopment(env: Env)
    requires "DJANGO_ENV" !in env
    ensures DjangoEnv(env) == Development
  {
    LowerKeeps(Development);
  }

  /** `DEBUG` ignores case and accepts `on`; the exact flags do neither. */
  lemma DebugLooserThanFlags()
    ensures DebugTruthy("ON") && !ExactFlag("ON") && !ExactFlag("on")
    ensures DebugTruthy("True") && !ExactFlag("True")
    ensures forall v :: ExactFlag(v) ==> DebugTruthy(v)
  {
    Text.LowerAgree("ON", "on");
    LowerKeeps("on");
    Text.LowerAgree("True", "true");
    LowerKeeps("true");
    LowerKeeps("1");
    LowerKeeps("yes");
  }

  // ---------------------------------------------------------------------
  // ALLOWED_HOSTS
  // ---------------------------------------------------------------------

  /** `[h.strip() for h in parts]`. */
  function StripAll(parts: seq<string>): (r: seq<string>)
    ensures |r| == |parts|
    ensures forall i :: 0 <= i < |parts| ==> r[i] == Text.Strip(parts[i])
  {
    seq(|parts|, i requires 0 <= i < |parts| => Text.Strip(parts[i]))
  }

  /** `[x for x in xs if x]`: the non-empty strings, in order. */
  function DropBlank(xs: seq<string>): (r: seq<string>)
    ensures |r| <= |xs|
    ensures forall x :: x in r <==> x in xs && x != []
    decreases |xs|
  {
    if xs == [] then []
    else
      var rest := DropBlank(xs[1..]);
      assert forall x :: x in xs <==> x == xs[0] || x in xs[1..];
      if xs[0] != [] then [xs[0]] + rest else rest
  }

  /** The filter works entry by entry: it keeps order and multiplicity,
      since filtering a concatenation concatenates the filtered parts. */
  lemma {:induction false} DropBlankAppend(a: seq<string>, b: seq<string>)
    ensures DropBlank(a + b) == DropBlank(a) + DropBlank(b)
    decreases |a|
  {
    if a != [] {
      DropBlankAppend(a[1..], b);
      assert (a + b)[1..] == a[1..] + b;
    } else {
      assert a + b == b;
    }
  }

  /** Non-empty entries all survive, in order. */
  lemma {:induction false} DropBlankKeeps(xs: seq<string>)
    requires forall i :: 0 <= i < |xs| ==> xs[i] != []
    ensures DropBlank(xs) == xs
    decreases |xs|
  {
    if xs != [] {
      DropBlankKeeps(xs[1..]);
      assert xs == [xs[0]] + xs[1..];
    }
  }

  /** Entries without surrounding whitespace are their own strip. */
  lemma StripAllKeeps(xs: seq<string>)
    requires forall i :: 0 <= i < |xs| ==> Text.Strip(xs[i]) == xs[i]
    ensures StripAll(xs) == xs
  {
  }

  const DefaultHosts := "127.0.0.1,localhost"

  /** The host list parsed from the raw value: every entry is non-empty and
      has no surrounding whitespace, and the entries are exactly the
      non-blank stripped pieces between commas. */
  function HostsOf(raw: string): (r: seq<string>)
    ensures forall i :: 0 <= i < |r| ==> r[i] != [] && Text.Strip(r[i]) == r[i]
    ensures forall x :: x in r <==> x != [] && x in StripAll(Text.Split(raw, ','))
  {
    StrippedPieces(Text.Split(raw, ','));
    KeptPiecesClean(StripAll(Text.Split(raw, ',')));
    DropBlank(StripAll(Text.Split(raw, ',')))
  }

  /** Filtering pieces that are their own strip leaves non-empty entries
      that are their own strip. */
  lemma KeptPiecesClean(pieces: seq<string>)
    requires forall x :: x in pieces ==> Text.Strip(x) == x
    ensures forall i :: 0 <= i < |DropBlank(pieces)| ==>
              DropBlank(pieces)[i] != [] && Text.Strip(DropBlank(pieces)[i]) == DropBlank(pieces)[i]
  {
    var r := DropBlank(pieces);
    assert forall i :: 0 <= i < |r| ==> r[i] in r;
  }

  /** Every stripped piece is its own strip. */
  lemma StrippedPieces(parts: seq<string>)
    ensures forall x :: x in StripAll(parts) ==> Text.Strip(x) == x
  {
    var pieces := StripAll(parts);
    forall x | x in pieces
      ensures Text.Strip(x) == x
    {
      var i :| 0 <= i < |pieces| && pieces[i] == x;
      Text.StripIdempotent(parts[i]);
    }
  }

  /** `ALLOWED_HOSTS`. */
  /** `ALLOWED_HOSTS`: the stripped non-empty pieces of the value in effect,
      each a clean host name. */
  function AllowedHosts(env: Env): (r: seq<string>)
    ensures forall i :: 0 <= i < |r| ==> r[i] != [] && Text.Strip(r[i]) == r[i]
    ensures forall x :: x in r <==>
              x != [] && x in StripAll(Text.Split(Getenv(env, "ALLOWED_HOSTS", DefaultHosts), ','))
  {
    HostsOf(Getenv(env, "ALLOWED_HOSTS", DefaultHosts))
  }

  /** A host name as the list holds it: non-empty, no surrounding
      whitespace, no comma. */
  predicate HostEntry(h: string) {
    h != [] && !Text.IsSpace(h[0]) && !Text.IsSpace(h[|h| - 1]) && ',' !in h
  }

  /** A value without commas is one piece: its strip, if that is not
      empty. */
  lemma HostsOfOnePiece(raw: string)
    requires ',' !in raw
    ensures Text.Strip(raw) == [] ==> HostsOf(raw) == []
    ensures Text.Strip(raw) != [] ==> HostsOf(raw) == [Text.Strip(raw)]
  {
    Text.SplitNoSep(raw, ',');
    var pieces := StripAll([raw]);
    assert pieces == [Text.Strip(raw)];
    assert pieces[1..] == [];
  }

  /** The pieces of a comma-joined host list are the hosts. */
  lemma HostsFromRaw(raw: string, hosts: seq<string>)
    requires forall i :: 0 <= i < |hosts| ==> HostEntry(hosts[i])
    requires raw == Text.Join(hosts, [','])
    ensures HostsOf(raw) == hosts
  {
    if hosts == [] {
      HostsOfOnePiece(raw);
    } else {
      Text.SplitJoin(hosts, ',');
      EntriesStripped(hosts);
      StripAllKeeps(hosts);
      DropBlankKeeps(hosts);
    }
  }

  lemma EntriesStripped(hosts: seq<string>)
    requires forall i :: 0 <= i < |hosts| ==> HostEntry(hosts[i])
    ensures forall i :: 0 <= i < |hosts| ==> Text.Strip(hosts[i]) == hosts[i]
  {
    forall i | 0 <= i < |hosts|
      ensures Text.Strip(hosts[i]) == hosts[i]
    {
      Text.StripNoop(hosts[i]);
    }
  }

  /** Writing a host list comma-separated into `ALLOWED_HOSTS` and reading
      the setting back gives the list. */
  lemma HostsRoundTrip(env: Env, hosts: seq<string>)
    requires forall i :: 0 <= i < |hosts| ==> HostEntry(hosts[i])
    ensures AllowedHosts(env["ALLOWED_HOSTS" := Text.Join(hosts, [','])]) == hosts
  {
    HostsFromRaw(Text.Join(hosts, [',']), hosts);
    AllowedHostsSet(env, Text.Join(hosts, [',']), hosts);
  }

  /** A set `ALLOWED_HOSTS` is parsed; the default is not consulted. */
  lemma AllowedHostsSet(env: Env, raw: string, hosts: seq<string>)
    requires HostsOf(raw) == hosts
    ensures AllowedHosts(env["ALLOWED_HOSTS" := raw]) == hosts
  {
  }

  /** Unset, the hosts are the loopback address and `localhost`. */
  lemma DefaultAllowedHosts(env: Env)
    requires "ALLOWED_HOSTS" !in env
    ensures AllowedHosts(env) == ["127.0.0.1", "localhost"]
  {
    DefaultHostsParse();
    AllowedHostsUnset(env, ["127.0.0.1", "localhost"]);
  }

  /** An unset `ALLOWED_HOSTS` reads as the parsed default. */
  lemma AllowedHostsUnset(env: Env, hosts: seq<string>)
    requires "ALLOWED_HOSTS" !in env
    requires HostsOf(DefaultHosts) == hosts
    ensures AllowedHosts(env) == hosts
  {
  }

  lemma DefaultHostsParse()
    ensures HostsOf(DefaultHosts) == ["127.0.0.1", "localhost"]
  {
    DefaultHostsJoined();
    DefaultHostEntries();
    HostsFromRaw(DefaultHosts, ["127.0.0.1", "localhost"]);
  }

  lemma DefaultHostsJoined()
    ensures Text.Join(["127.0.0.1", "localhost"], [',']) == DefaultHosts
  {
    var hosts := ["127.0.0.1", "localhost"];
    assert Text.Join(hosts[1..], [',']) == "localhost";
  }

  lemma DefaultHostEntries()
    ensures HostEntry("127.0.0.1") && HostEntry("localhost")
  {
  }

  // ---------------------------------------------------------------------
  // INSTALLED_APPS
  // ---------------------------------------------------------------------

  const CleanupApp := "django_cleanup.apps.CleanupConfig"
  const DebugToolbar := "debug_toolbar"

  /** The admin skin, Django's own applications and the third-party ones. */
  const BaseApps := [
    "simpleui", "django.contrib.admin", "django.contrib.auth", "django.contrib.contenttypes",
    "django.contrib.sessions", "django.contrib.messages", "django.contrib.staticfiles",
    "ckeditor", "ckeditor_uploader", "django_extensions"
  ]

  const LocalApps := ["common", "players", "api"]

  /** `[app for app in apps if app]`: drops None and the empty name. */
  function DropEmpty(apps: seq<Option<string>>): (r: seq<string>)
    ensures forall i :: 0 <= i < |r| ==> r[i] != []
    ensures forall x :: x in r <==> x != [] && Some(x) in apps
    decreases |apps|
  {
    if apps == [] then []
    else
      var rest := DropEmpty(apps[1..]);
      assert forall x :: Some(x) in apps <==> apps[0] == Some(x) || Some(x) in apps[1..];
      match apps[0]
      case Some(a) => if a != [] then [a] + rest else rest
      case None => rest
  }

  lemma {:induction false} DropEmptyAppend(a: seq<Option<string>>, b: seq<Option<string>>)
    ensures DropEmpty(a + b) == DropEmpty(a) + DropEmpty(b)
    decreases |a|
  {
    if a != [] {
      DropEmptyAppend(a[1..], b);
      assert (a + b)[1..] == a[1..] + b;
    } else {
      assert a + b == b;
    }
  }

  /** Each name as a present entry. */
  function Wrap(xs: seq<string>): (r: seq<Option<string>>)
    ensures |r| == |xs| && forall i :: 0 <= i < |xs| ==> r[i] == Some(xs[i])
  {
    seq(|xs|, i requires 0 <= i < |xs| => Some(xs[i]))
  }

  /** Wrapping non-empty names in Some and filtering gives the names back. */
  lemma {:induction false} DropEmptyNames(xs: seq<string>)
    requires forall i :: 0 <= i < |xs| ==> xs[i] != []
    ensures DropEmpty(Wrap(xs)) == xs
    decreases |xs|
  {
    if xs != [] {
      DropEmptyNames(xs[1..]);
      assert Wrap(xs)[1..] == Wrap(xs[1..]);
      assert xs == [xs[0]] + xs[1..];
    }
  }

  /** The first list with the cleanup entry, None when switched off. */
  function Candidates(base: seq<string>, cleanup: bool): seq<Option<string>> {
    Wrap(base) + [if cleanup then Some(CleanupApp) else None]
  }

  /** The filter keeps every non-empty base name and drops exactly the
      switched-off cleanup entry. */
  lemma FilterCandidates(base: seq<string>, cleanup: bool)
    requires forall i :: 0 <= i < |base| ==> base[i] != []
    ensures DropEmpty(Candidates(base, cleanup)) == base + (if cleanup then [CleanupApp] else [])
  {
    var last: seq<Option<string>> := [if cleanup then Some(CleanupApp) else None];
    DropEmptyAppend(Wrap(base), last);
    DropEmptyNames(base);
    assert DropEmpty(last) == (if cleanup then [CleanupApp] else []) by {
      assert last[1..] == [];
    }
  }

  lemma BaseAppsNamed()
    ensures forall i :: 0 <= i < |BaseApps| ==> BaseApps[i] != []
  {
  }

  /** The filtered list, the local applications, then the debug toolbar. */
  function AppsFor(cleanup: bool, development: bool): (r: seq<string>)
    ensures r == BaseApps + (if cleanup then [CleanupApp] else []) + LocalApps
                 + (if development then [DebugToolbar] else [])
  {
    BaseAppsNamed();
    FilterCandidates(BaseApps, cleanup);
    DropEmpty(Candidates(BaseApps, cleanup)) + LocalApps + (if development then [DebugToolbar] else [])
  }

  /** The fixed applications are named and are neither optional one. */
  lemma FixedAppsApart()
    ensures forall x :: x in BaseApps + LocalApps ==> x != [] && x != CleanupApp && x != DebugToolbar
  {
    var fixed := BaseApps + LocalApps;
    assert forall i :: 0 <= i < |fixed| ==> (|fixed[i]| != |DebugToolbar| || fixed[i][0] != DebugToolbar[0]);
    assert forall i :: 0 <= i < |fixed| ==> 0 < |fixed[i]| < |CleanupApp|;
  }

  /** Membership in a list built from fixed names and two switched extras. */
  lemma SwitchedMembers(base: seq<string>, local: seq<string>, cleanup: bool, development: bool)
    requires forall x :: x in base + local ==> x != [] && x != CleanupApp && x != DebugToolbar
    ensures var r := base + (if cleanup then [CleanupApp] else []) + local
                     + (if development then [DebugToolbar] else []);
      && (forall i :: 0 <= i < |r| ==> r[i] != [])
      && (forall x :: x in base + local ==> x in r)
      && (CleanupApp in r <==> cleanup)
      && (DebugToolbar in r <==> development)
  {
    var r := base + (if cleanup then [CleanupApp] else []) + local
             + (if development then [DebugToolbar] else []);
    assert forall x :: x in r <==> x in base + local || (cleanup && x == CleanupApp) || (development && x == DebugToolbar);
    assert forall i :: 0 <= i < |r| ==> r[i] in r;
  }

  /** Every entry is a non-empty name, the fixed applications are always
      there, and the two optional ones exactly when switched on. */
  lemma AppsForMembers(cleanup: bool, development: bool)
    ensures forall i :: 0 <= i < |AppsFor(cleanup, development)| ==> AppsFor(cleanup, development)[i] != []
    ensures forall x :: x in BaseApps + LocalApps ==> x in AppsFor(cleanup, development)
    ensures CleanupApp in AppsFor(cleanup, development) <==> cleanup
    ensures DebugToolbar in AppsFor(cleanup, development) <==> development
  {
    FixedAppsApart();
    SwitchedMembers(BaseApps, LocalApps, cleanup, development);
  }

  /** `INSTALLED_APPS`: every fixed application, the cleanup application
      exactly when its switch is on, the debug toolbar exactly in
      development. */
  function InstalledApps(env: Env): (r: seq<string>)
    ensures forall i :: 0 <= i < |r| ==> r[i] != []
    ensures forall x :: x in BaseApps + LocalApps ==> x in r
    ensures CleanupApp in r <==> ExactFlag(Getenv(env, "ENABLE_DJANGO_CLEANUP", "1"))
    ensures DebugToolbar in r <==> DjangoEnv(env) == Development
  {
    AppsForMembers(ExactFlag(Getenv(env, "ENABLE_DJANGO_CLEANUP", "1")), DjangoEnv(env) == Development);
    AppsFor(ExactFlag(Getenv(env, "ENABLE_DJANGO_CLEANUP", "1")), DjangoEnv(env) == Development)
  }

  /** By default the cleanup application is installed. */
  lemma CleanupOnByDefault(env: Env)
    requires "ENABLE_DJANGO_CLEANUP" !in env
    ensures CleanupApp in InstalledApps(env)
  {
    AppsForMembers(true, DjangoEnv(env) == Development);
  }

  /** `ENABLE_DJANGO_CLEANUP=TRUE` switches the cleanup application off: the
      comparison is case-sensitive. */
  lemma CleanupSwitchIsCaseSensitive(env: Env)
    ensures CleanupApp !in InstalledApps(env["ENABLE_DJANGO_CLEANUP" := "TRUE"])
  {
    var env2 := env["ENABLE_DJANGO_CLEANUP" := "TRUE"];
    assert !ExactFlag(Getenv(env2, "ENABLE_DJANGO_CLEANUP", "1"));
    AppsForMembers(false, DjangoEnv(env2) == Development);
  }

  // ---------------------------------------------------------------------
  // DATABASES
  // ---------------------------------------------------------------------

  datatype Engine = Sqlite | Postgres | Mysql

  /** The `default` database entry; `name` for SQLite is relative to the
      project directory. */
  datatype Database =
    | SqliteDatabase(file: string)
    | ServerDatabase(engine: Engine, name: string, user: string, password: string,
                     host: string, port: string, connMaxAge: int)

  /** The engine each accepted spelling names. */
  function EngineOf(name: string): (r: Option<Engine>)
    ensures r == Some(Sqlite) <==> name == "sqlite" || name == "sqlite3"
    ensures r == Some(Postgres) <==> name == "postgres" || name == "postgresql" || name == "psql"
    ensures r == Some(Mysql) <==> name == "mysql"
  {
    if name in {"sqlite", "sqlite3"} then Some(Sqlite)
    else if name in {"postgres", "postgresql", "psql"} then Some(Postgres)
    else if name == "mysql" then Some(Mysql)
    else None
  }

  function DbEngineName(env: Env): string {
    Text.Lower(Getenv(env, "DB_ENGINE", "sqlite"))
  }

  /** The server settings for PostgreSQL or MySQL, whose defaults differ in
      the user and the port. */
  function ServerDatabaseOf(env: Env, engine: Engine): (r: Result<Database, ConfigError>)
    requires engine != Sqlite
    ensures r.Ok? <==> IntSetting(env, "DB_CONN_MAX_AGE", 60).Ok?
    ensures r.Ok? ==>
              && r.value.ServerDatabase?
              && r.value.engine == engine
              && r.value.connMaxAge == IntSetting(env, "DB_CONN_MAX_AGE", 60).value
    ensures r.Err? ==> r.error == IntSetting(env, "DB_CONN_MAX_AGE", 60).error
  {
    var age :- IntSetting(env, "DB_CONN_MAX_AGE", 60);
    Ok(ServerDatabase(
      engine,
      Getenv(env, "DB_NAME", "mctp"),
      Getenv(env, "DB_USER", if engine == Postgres then "postgres" else "root"),
      Getenv(env, "DB_PASSWORD", ""),
      Getenv(env, "DB_HOST", "127.0.0.1"),
      Getenv(env, "DB_PORT", if engine == Postgres then "5432" else "3306"),
      age))
  }

  /** The `DATABASES` dispatch on the lower-cased `DB_ENGINE`. */
  function DatabaseConfig(env: Env): (r: Result<Database, ConfigError>)
    ensures r == Err(UnsupportedEngine(DbEngineName(env))) <==> EngineOf(DbEngineName(env)).None?
    ensures r.Ok? && r.value.SqliteDatabase? <==> EngineOf(DbEngineName(env)) == Some(Sqlite)
    ensures r.Ok? && r.value.ServerDatabase? ==> Some(r.value.engine) == EngineOf(DbEngineName(env))
    ensures EngineOf(DbEngineName(env)) == Some(Sqlite) ==>
              r == Ok(SqliteDatabase(Getenv(env, "DB_NAME", "db.sqlite3")))
    ensures forall e :: EngineOf(DbEngineName(env)) == Some(e) && e != Sqlite ==> r == ServerDatabaseOf(env, e)
  {
    var name := DbEngineName(env);
    match EngineOf(name)
    case None => Err(UnsupportedEngine(name))
    case Some(Sqlite) => Ok(SqliteDatabase(Getenv(env, "DB_NAME", "db.sqlite3")))
    case Some(engine) => ServerDatabaseOf(env, engine)
  }

  /** With only the engine chosen, PostgreSQL connects as `postgres` on
      port 5432 and MySQL as `root` on port 3306, both to `mctp` on the
      local host with no password and a 60-second connection age. */
  lemma ServerDefaults(env: Env, engine: Engine)
    requires engine != Sqlite
    requires forall k :: k in env ==> k !in ["DB_NAME", "DB_USER", "DB_PASSWORD", "DB_HOST", "DB_PORT", "DB_CONN_MAX_AGE"]
    ensures engine == Postgres ==>
              ServerDatabaseOf(env, engine) == Ok(ServerDatabase(Postgres, "mctp", "postgres", "", "127.0.0.1", "5432", 60))
    ensures engine == Mysql ==>
              ServerDatabaseOf(env, engine) == Ok(ServerDatabase(Mysql, "mctp", "root", "", "127.0.0.1", "3306", 60))
  {
  }

  /** The engine name is matched without regard to case. */
  lemma EngineCaseInsensitive(env: Env, spelling: string)
    requires Text.Lower(spelling) == DbEngineName(env)
    ensures DatabaseConfig(env["DB_ENGINE" := spelling]) == DatabaseConfig(env)
  {
    var env' := env["DB_ENGINE" := spelling];
    assert DbEngineName(env') == DbEngineName(env);
    match EngineOf(DbEngineName(env))
    case None =>
    case Some(Sqlite) =>
      assert Getenv(env', "DB_NAME", "db.sqlite3") == Getenv(env, "DB_NAME", "db.sqlite3");
    case Some(e) =>
      ServerDatabaseIgnoresEngineName(env, spelling, e);
  }

  /** The server settings do not read `DB_ENGINE`. */
  lemma ServerDatabaseIgnoresEngineName(env: Env, spelling: string, engine: Engine)
    requires engine != Sqlite
    ensures ServerDatabaseOf(env["DB_ENGINE" := spelling], engine) == ServerDatabaseOf(env, engine)
  {
    var env' := env["DB_ENGINE" := spelling];
    assert forall k :: k != "DB_ENGINE" ==> (k in env' <==> k in env) && (k in env ==> env'[k] == env[k]);
  }

  /** Unset, the database is the SQLite file `db.sqlite3`. */
  lemma DefaultDatabase(env: Env)
    requires "DB_ENGINE" !in env && "DB_NAME" !in env
    ensures DatabaseConfig(env) == Ok(SqliteDatabase("db.sqlite3"))
  {
    LowerKeeps("sqlite");
  }

  /** Every other engine name is refused, `oracle` among them. */
  lemma UnknownEngineRefused(env: Env)
    ensures DatabaseConfig(env["DB_ENGINE" := "oracle"]) == Err(UnsupportedEngine("oracle"))
  {
    LowerKeeps("oracle");
  }

  // ---------------------------------------------------------------------
  // Login and media limits
  // ---------------------------------------------------------------------

  /** `LOGIN_ATTEMPT_LIMIT` and `LOGIN_LOCKOUT_MINUTES`, as the login view
      reads them. */
  function LoginLimits(env: Env): (r: Result<LoginApi.Limits, ConfigError>)
    ensures r.Ok? <==> IntSetting(env, "LOGIN_ATTEMPT_LIMIT", 5).Ok? && IntSetting(env, "LOGIN_LOCKOUT_MINUTES", 15).Ok?
    ensures r.Ok? ==>
              && r.value.attemptLimit == IntSetting(env, "LOGIN_ATTEMPT_LIMIT", 5).value
              && r.value.lockoutMinutes == IntSetting(env, "LOGIN_LOCKOUT_MINUTES", 15).value
  {
    var limit :- IntSetting(env, "LOGIN_ATTEMPT_LIMIT", 5);
    var minutes :- IntSetting(env, "LOGIN_LOCKOUT_MINUTES", 15);
    Ok(LoginApi.Limits(limit, minutes))
  }

  /** Unset, five attempts and a fifteen-minute lockout. */
  lemma DefaultLoginLimits(env: Env)
    requires "LOGIN_ATTEMPT_LIMIT" !in env && "LOGIN_LOCKOUT_MINUTES" !in env
    ensures LoginLimits(env) == Ok(LoginApi.Limits(5, 15))
  {
  }

  /** `MEDIA_MAX_IMAGE_SIZE_MB` and `ALLOWED_IMAGE_FORMATS`, as the upload
      validator reads them. The formats are split but not stripped; the
      validator normalises them. */
  datatype MediaLimits = MediaLimits(maxImageMb: int, formats: seq<string>)

  const DefaultFormatsText := "JPEG,PNG,WEBP"

  /** `raw.split(",")`: at least one piece, no piece holds a comma, and
      joining the pieces with commas gives the raw text back. Together these
      determine the pieces (`Text.SplitJoin`). */
  function FormatsOf(raw: string): (r: seq<string>)
    ensures |r| >= 1
    ensures forall i :: 0 <= i < |r| ==> ',' !in r[i]
    ensures Text.Join(r, ",") == raw
  {
    Text.JoinSplit(raw, ',');
    assert [','] == ",";
    Text.Split(raw, ',')
  }

  function MediaSettings(env: Env): (r: Result<MediaLimits, ConfigError>)
    ensures r.Ok? <==> IntSetting(env, "MEDIA_MAX_IMAGE_SIZE_MB", 5).Ok?
    ensures r.Ok? ==> r.value.maxImageMb == IntSetting(env, "MEDIA_MAX_IMAGE_SIZE_MB", 5).value
    ensures r.Ok? ==>
              && |r.value.formats| >= 1
              && (forall i :: 0 <= i < |r.value.formats| ==> ',' !in r.value.formats[i])
              && Text.Join(r.value.formats, ",") == Getenv(env, "ALLOWED_IMAGE_FORMATS", DefaultFormatsText)
  {
    var mb :- IntSetting(env, "MEDIA_MAX_IMAGE_SIZE_MB", 5);
    Ok(MediaLimits(mb, FormatsOf(Getenv(env, "ALLOWED_IMAGE_FORMATS", DefaultFormatsText))))
  }

  /** The default text lists the upload validator's default formats. */
  lemma DefaultFormatsParsed()
    ensures FormatsOf(DefaultFormatsText) == Uploads.DefaultFormats
  {
    var formats := Uploads.DefaultFormats;
    assert Text.Join(formats[2..], [',']) == "WEBP";
    assert Text.Join(formats[1..], [',']) == "PNG,WEBP";
    assert Text.Join(formats, [',']) == DefaultFormatsText;
    assert forall i :: 0 <= i < |formats| ==> ',' !in formats[i];
    Text.SplitJoin(formats, ',');
  }

  /** Unset, five megabytes and the upload validator's default formats. */
  lemma DefaultMediaSettings(env: Env)
    requires "MEDIA_MAX_IMAGE_SIZE_MB" !in env && "ALLOWED_IMAGE_FORMATS" !in env
    ensures MediaSettings(env) == Ok(MediaLimits(5, Uploads.DefaultFormats))
  {
    DefaultFormatsParsed();
  }

  // ---------------------------------------------------------------------
  // CACHES
  // ---------------------------------------------------------------------

  datatype Cache =
    | RedisCache(location: string, password: Option<string>, keyPrefix: string, timeout: int)
    | LocalMemoryCache(location: string, timeout: int)

  /** Redis in production when `REDIS_URL` is set and non-empty, the
      process-local cache otherwise. */
  function CacheConfig(env: Env): (r: Result<Cache, ConfigError>)
    ensures (r.Ok? && r.value.RedisCache?) <==>
              && DjangoEnv(env) == Production
              && "REDIS_URL" in env
              && env["REDIS_URL"] != []
              && IntSetting(env, "CACHE_DEFAULT_TIMEOUT", 300).Ok?
    ensures r.Err? ==>
              && DjangoEnv(env) == Production
              && "REDIS_URL" in env
              && env["REDIS_URL"] != []
              && r.error == IntSetting(env, "CACHE_DEFAULT_TIMEOUT", 300).error
    ensures r.Ok? && r.value.RedisCache? ==> r.value.location == env["REDIS_URL"]
    ensures r.Ok? && r.value.LocalMemoryCache? ==> r.value == LocalMemoryCache("mctp-local", 300)
  {
    if DjangoEnv(env) == Production && "REDIS_URL" in env && env["REDIS_URL"] != [] then
      var timeout :- IntSetting(env, "CACHE_DEFAULT_TIMEOUT", 300);
      var password := if "REDIS_PASSWORD" in env then Some(env["REDIS_PASSWORD"]) else None;
      Ok(RedisCache(env["REDIS_URL"], password, Getenv(env, "CACHE_KEY_PREFIX", "mctp"), timeout))
    else Ok(LocalMemoryCache("mctp-local", 300))
  }

  /** Outside production, `REDIS_URL` and the timeout variable are ignored. */
  lemma LocalCacheOutsideProduction(env: Env)
    requires DjangoEnv(env) != Production
    ensures CacheConfig(env) == Ok(LocalMemoryCache("mctp-local", 300))
  {
  }

  // ---------------------------------------------------------------------
  // Security flags
  // ---------------------------------------------------------------------

  datatype Security = Security(hstsSeconds: int, hstsIncludeSubdomains: bool, hstsPreload: bool,
                               sessionCookieSecure: bool, csrfCookieSecure: bool)

  const OneYear := 31536000

  /** An exact flag whose default is on in production. */
  function ProductionFlag(env: Env, name: string): bool {
    ExactFlag(Getenv(env, name, if DjangoEnv(env) == Production then "1" else "0"))
  }

  function SecuritySettings(env: Env): (r: Result<Security, ConfigError>)
    ensures r.Ok? <==> IntSetting(env, "SECURE_HSTS_SECONDS",
                                  if DjangoEnv(env) != Production then 0 else OneYear).Ok?
    ensures r.Ok? ==>
              && r.value.hstsSeconds == IntSetting(env, "SECURE_HSTS_SECONDS",
                                                   if DjangoEnv(env) != Production then 0 else OneYear).value
              && r.value.hstsIncludeSubdomains == ProductionFlag(env, "SECURE_HSTS_INCLUDE_SUBDOMAINS")
              && r.value.hstsPreload == ProductionFlag(env, "SECURE_HSTS_PRELOAD")
              && r.value.sessionCookieSecure == ProductionFlag(env, "SESSION_COOKIE_SECURE")
              && r.value.csrfCookieSecure == ProductionFlag(env, "CSRF_COOKIE_SECURE")
  {
    var seconds :- IntSetting(env, "SECURE_HSTS_SECONDS", if DjangoEnv(env) != Production then 0 else OneYear);
    Ok(Security(seconds,
                ProductionFlag(env, "SECURE_HSTS_INCLUDE_SUBDOMAINS"),
                ProductionFlag(env, "SECURE_HSTS_PRELOAD"),
                ProductionFlag(env, "SESSION_COOKIE_SECURE"),
                ProductionFlag(env, "CSRF_COOKIE_SECURE")))
  }

  /** In production, with none of the variables set, everything is on with
      a one-year HSTS. */
  lemma ProductionSecurity(env: Env)
    requires DjangoEnv(env) == Production
    requires forall k :: k in env ==> k == "DJANGO_ENV"
    ensures SecuritySettings(env) == Ok(Security(OneYear, true, true, true, true))
  {
  }

  /** Outside production, with none of the variables set, everything is off. */
  lemma DevelopmentSecurity(env: Env)
    requires DjangoEnv(env) != Production
    requires forall k :: k in env ==> k == "DJANGO_ENV"
    ensures SecuritySettings(env) == Ok(Security(0, false, false, false, false))
  {
  }

  /** The flags read `1`, `true` and `yes` only: `on` and `TRUE` turn a
      production default off. */
  lemma FlagSpellings(env: Env)
    ensures !ProductionFlag(env["SESSION_COOKIE_SECURE" := "on"], "SESSION_COOKIE_SECURE")
    ensures !ProductionFlag(env["SESSION_COOKIE_SECURE" := "TRUE"], "SESSION_COOKIE_SECURE")
    ensures ProductionFlag(env["SESSION_COOKIE_SECURE" := "yes"], "SESSION_COOKIE_SECURE")
  {
  }

  // ---------------------------------------------------------------------
  // The whole module
  // ---------------------------------------------------------------------

  datatype Config = Config(
    djangoEnv: string, debug: bool, allowedHosts: seq<string>, installedApps: seq<string>,
    database: Database, login: LoginApi.Limits, media: MediaLimits, cache: Cache, security: Security)

  /** Importing the settings module: the statements run top to bottom, so
      the first failing one decides the error. */
  function Load(env: Env): (r: Result<Config, ConfigError>)
    ensures r.Ok? <==> DatabaseConfig(env).Ok? && LoginLimits(env).Ok? && MediaSettings(env).Ok?
                       && CacheConfig(env).Ok? && SecuritySettings(env).Ok?
    ensures DatabaseConfig(env).Err? ==> r == Err(DatabaseConfig(env).error)
    ensures DatabaseConfig(env).Ok? && LoginLimits(env).Err? ==> r == Err(LoginLimits(env).error)
    ensures DatabaseConfig(env).Ok? && LoginLimits(env).Ok? && MediaSettings(env).Err? ==>
              r == Err(MediaSettings(env).error)
    ensures (DatabaseConfig(env).Ok? && LoginLimits(env).Ok? && MediaSettings(env).Ok?
             && CacheConfig(env).Err?) ==> r == Err(CacheConfig(env).error)
    ensures (DatabaseConfig(env).Ok? && LoginLimits(env).Ok? && MediaSettings(env).Ok?
             && CacheConfig(env).Ok? && SecuritySettings(env).Err?) ==> r == Err(SecuritySettings(env).error)
    ensures r.Ok? ==>
              && r.value.djangoEnv == DjangoEnv(env)
              && r.value.debug == Debug(env)
              && r.value.allowedHosts == AllowedHosts(env)
              && r.value.installedApps == InstalledApps(env)
              && r.value.database == DatabaseConfig(env).value
              && r.value.login == LoginLimits(env).value
              && r.value.media == MediaSettings(env).value
              && r.value.cache == CacheConfig(env).value
              && r.value.security == SecuritySettings(env).value
  {
    var database :- DatabaseConfig(env);
    var login :- LoginLimits(env);
    var media :- MediaSettings(env);
    var cache :- CacheConfig(env);
    var security :- SecuritySettings(env);
    Ok(Config(DjangoEnv(env), Debug(env), AllowedHosts(env), InstalledApps(env),
              database, login, media, cache, security))
  }

  /** An empty environment loads: development, debugging on, SQLite, the
      local cache and the default limits. */
  lemma EmptyEnvironmentLoads()
    ensures var r := Load(map[]);
            && r.Ok? && r.value.debug && r.value.database == SqliteDatabase("db.sqlite3")
            && r.value.login == LoginApi.Limits(5, 15)
            && r.value.cache == LocalMemoryCache("mctp-local", 300)
            && r.value.allowedHosts == ["127.0.0.1", "localhost"]
  {
    var env: Env := map[];
    DefaultIsDevelopment(env);
    DebugDefault(env);
    DefaultDatabase(env);
    DefaultLoginLimits(env);
    DefaultMediaSettings(env);
    DefaultAllowedHosts(env);
    assert Development != Production by {
      assert |Development| != |Production|;
    }
    LocalCacheOutsideProduction(env);
    DevelopmentSecurity(env);
  }
}

=== FILE: sorting.dfy ===
/** Python's `sorted` on a set of strings: strings compare by code point,
    lexicographically, a proper prefix before its extensions. */
module Sorting {

  /** `a <= b` for Python strings. */
  predicate AtMost(a: string, b: string)
    decreases |a|
  {
    if a == [] then true
    else if b == [] then false
    else if a[0] != b[0] then a[0] < b[0]
    else AtMost(a[1..], b[1..])
  }

  lemma {:induction false} AtMostTotal(a: string, b: string)
    ensures AtMost(a, b) || AtMost(b, a)
    decreases |a|
  {
    if a != [] && b != [] && a[0] == b[0] {
      AtMostTotal(a[1..], b[1..]);
    }
  }

  lemma {:induction false} AtMostTrans(a: string, b: string, c: string)
    requires AtMost(a, b) && AtMost(b, c)
    ensures AtMost(a, c)
    decreases |a|
  {
    if a != [] && b != [] && c != [] && a[0] == b[0] && b[0] == c[0] {
      AtMostTrans(a[1..], b[1..], c[1..]);
    }
  }

  lemma {:induction false} AtMostAntisym(a: string, b: string)
    requires AtMost(a, b) && AtMost(b, a)
    ensures a == b
    decreases |a|
  {
    if a != [] {
      AtMostAntisym(a[1..], b[1..]);
      assert a == [a[0]] + a[1..];
      assert b == [b[0]] + b[1..];
    }
  }

  /** The elements of a sequence, as a set. */
  function Elems(s: seq<string>): set<string> {
    set x | x in s
  }

  lemma ElemsEmpty(s: seq<string>)
    ensures Elems(s) == {} <==> s == []
  {
    if s != [] {
      assert s[0] in Elems(s);
    }
  }

  /** A non-empty sequence of one repeated value holds just that value. */
  lemma ElemsConstant(s: seq<string>, x: string)
    requires |s| >= 1 && forall i :: 0 <= i < |s| ==> s[i] == x
    ensures Elems(s) == {x}
  {
    assert s[0] in Elems(s);
  }

  /** Non-decreasing, every pair. */
  predicate Sorted(s: seq<string>) {
    forall i, j :: 0 <= i < j < |s| ==> AtMost(s[i], s[j])
  }

  /** Strictly increasing: sorted and free of repeats. */
  predicate StrictlySorted(s: seq<string>) {
    forall i, j :: 0 <= i < j < |s| ==> AtMost(s[i], s[j]) && s[i] != s[j]
  }

  /** Insert `x` before the first element it does not exceed. */
  function Insert(x: string, s: seq<string>): (r: seq<string>)
    requires Sorted(s)
    ensures Sorted(r)
    ensures multiset(r) == multiset(s) + multiset{x}
    decreases |s|
  {
    if s == [] then [x]
    else if AtMost(x, s[0]) then
      InsertFrontSorted(x, s);
      [x] + s
    else
      AtMostTotal(x, s[0]);
      var rest := Insert(x, s[1..]);
      assert s == [s[0]] + s[1..];
      InsertBehindSorted(s[0], rest, x, s[1..]);
      [s[0]] + rest
  }

  lemma InsertFrontSorted(x: string, s: seq<string>)
    requires Sorted(s) && s != [] && AtMost(x, s[0])
    ensures Sorted([x] + s)
  {
    forall i, j | 0 <= i < j < |[x] + s|
      ensures AtMost(([x] + s)[i], ([x] + s)[j])
    {
      if i == 0 && j > 1 {
        AtMostTrans(x, s[0], s[j - 1]);
      }
    }
  }

  lemma InsertBehindSorted(h: string, rest: seq<string>, x: string, tail: seq<string>)
    requires Sorted(rest) && Sorted([h] + tail)
    requires AtMost(h, x)
    requires multiset(rest) == multiset(tail) + multiset{x}
    ensures Sorted([h] + rest)
  {
    forall i, j | 0 <= i < j < |[h] + rest|
      ensures AtMost(([h] + rest)[i], ([h] + rest)[j])
    {
      var y := rest[j - 1];
      assert ([h] + rest)[j] == y;
      if i == 0 {
        assert y in multiset(rest);
        if y != x {
          assert y in multiset(tail);
          var k :| 0 <= k < |tail| && tail[k] == y;
          assert ([h] + tail)[k + 1] == y;
          assert ([h] + tail)[0] == h;
        }
      } else {
        assert ([h] + rest)[i] == rest[i - 1];
      }
    }
  }

  /** `sorted(xs)` by insertion. */
  function Sort(s: seq<string>): (r: seq<string>)
    ensures Sorted(r)
    ensures multiset(r) == multiset(s)
    decreases |s|
  {
    if s == [] then []
    else
      assert s == [s[0]] + s[1..];
      Insert(s[0], Sort(s[1..]))
  }

  /** Drop the repeats of a sorted sequence, keeping one of each. */
  function Dedup(s: seq<string>): (r: seq<string>)
    requires Sorted(s)
    ensures StrictlySorted(r)
    ensures Elems(r) == Elems(s)
    decreases |s|
  {
    if |s| <= 1 then s
    else
      var rest := Dedup(s[1..]);
      assert s == [s[0]] + s[1..];
      if s[0] == s[1] then
        assert Elems(s) == Elems(s[1..]) by {
          assert s[0] == s[1..][0];
        }
        rest
      else
        DedupFrontStrict(s, rest);
        assert Elems(s) == {s[0]} + Elems(s[1..]);
        assert Elems([s[0]] + rest) == {s[0]} + Elems(rest);
        [s[0]] + rest
  }

  lemma DedupFrontStrict(s: seq<string>, rest: seq<string>)
    requires Sorted(s) && |s| >= 2 && s[0] != s[1]
    requires StrictlySorted(rest) && Elems(rest) == Elems(s[1..])
    ensures StrictlySorted([s[0]] + rest)
  {
    forall i, j | 0 <= i < j < |[s[0]] + rest|
      ensures AtMost(([s[0]] + rest)[i], ([s[0]] + rest)[j]) && ([s[0]] + rest)[i] != ([s[0]] + rest)[j]
    {
      if i == 0 {
        var y := rest[j - 1];
        assert y in Elems(rest);
        var k :| 0 <= k < |s[1..]| && s[1..][k] == y;
        assert s[k + 1] == y;
        assert AtMost(s[0], y);
        if y == s[0] {
          AtMostAntisym(s[0], s[1]);
        }
      }
    }
  }

  /** `sorted(xs)` for a set given by the sequence `xs`: strictly increasing,
      with exactly the elements of `xs`. */
  function SortedSet(xs: seq<string>): (r: seq<string>)
    ensures StrictlySorted(r)
    ensures Elems(r) == Elems(xs)
  {
    var sorted := Sort(xs);
    assert forall x :: x in sorted <==> x in multiset(sorted);
    Dedup(sorted)
  }

  /** Two strictly increasing sequences with the same elements are equal: the
      sorted listing of a set is unique. */
  lemma {:induction false} StrictlySortedUnique(a: seq<string>, b: seq<string>)
    requires StrictlySorted(a) && StrictlySorted(b)
    requires Elems(a) == Elems(b)
    ensures a == b
    decreases |a|
  {
    if a != [] {
      assert a[0] in Elems(b);
      assert b != [];
      assert b[0] in Elems(a);
      var i :| 0 <= i < |b| && b[i] == a[0];
      var j :| 0 <= j < |a| && a[j] == b[0];
      if i != 0 {
        assert AtMost(b[0], a[0]);
        if j != 0 {
          AtMostAntisym(a[0], b[0]);
        }
      }
      assert a[0] == b[0];
      assert Elems(a[1..]) == Elems(b[1..]) by {
        forall x | x in a[1..]
          ensures x in b[1..]
        {
          var k :| 1 <= k < |a| && a[k] == x;
          assert x in Elems(b);
          assert x != b[0];
        }
        forall x | x in b[1..]
          ensures x in a[1..]
        {
          var k :| 1 <= k < |b| && b[k] == x;
          assert x in Elems(a);
          assert x != a[0];
        }
      }
      StrictlySortedUnique(a[1..], b[1..]);
      assert a == [a[0]] + a[1..];
      assert b == [b[0]] + b[1..];
    } else {
      ElemsEmpty(b);
    }
  }

  /** The sorted listing of a one-element set is that element alone. */
  lemma SingletonListing(s: seq<string>, x: string)
    requires StrictlySorted(s) && Elems(s) == {x}
    ensures s == [x]
  {
    assert Elems([x]) == {x};
    StrictlySortedUnique(s, [x]);
  }
}

=== FILE: text.dfy ===
/** String helpers with Python's semantics, used by the settings parser, the
    form cleaners and the upload validator.

    - IsSpace is exactly the set of code points Python's `str.isspace`
      accepts, so `Strip` behaves like `str.strip()` with no argument.
    - Case mapping (`str.lower`/`str.upper`) is modelled on ASCII letters only;
      other characters are left unchanged.
    - `Split` is `str.split(sep)` with an explicit one-character separator
      (empty pieces are kept), `Join` is `sep.join(parts)` for any separator.
    - `IntToString` is `str(int)` and `ParseInt` is `int(str)` for base-10
      text without digit-group underscores.
 */
module Text {
  import opened Wrappers

  // ---------------------------------------------------------------------
  // Character classes
  // ---------------------------------------------------------------------

  /** Python's whitespace code points (`str.isspace`). */
  predicate IsSpace(c: char) {
    || ('\t' <= c <= '\r')
    || ('\U{1C}' <= c <= '\U{1F}')
    || c == ' ' || c == '\U{85}' || c == '\U{A0}' || c == '\U{1680}'
    || ('\U{2000}' <= c <= '\U{200A}')
    || c == '\U{2028}' || c == '\U{2029}' || c == '\U{202F}'
    || c == '\U{205F}' || c == '\U{3000}'
  }

  predicate IsUpper(c: char) { 'A' <= c <= 'Z' }
  predicate IsLower(c: char) { 'a' <= c <= 'z' }
  predicate IsDigit(c: char) { '0' <= c <= '9' }

  function ToLowerChar(c: char): char {
    if IsUpper(c) then (c as int + 32) as char else c
  }

  function ToUpperChar(c: char): char {
    if IsLower(c) then (c as int - 32) as char else c
  }

  /** `s.lower()` on ASCII letters. */
  function Lower(s: string): (r: string)
    ensures |r| == |s|
    ensures forall i :: 0 <= i < |s| ==> r[i] == ToLowerChar(s[i])
  {
    seq(|s|, i requires 0 <= i < |s| => ToLowerChar(s[i]))
  }

  /** `s.upper()` on ASCII letters. */
  function Upper(s: string): (r: string)
    ensures |r| == |s|
    ensures forall i :: 0 <= i < |s| ==> r[i] == ToUpperChar(s[i])
  {
    seq(|s|, i requires 0 <= i < |s| => ToUpperChar(s[i]))
  }

  /** Two names that agree up to ASCII case have the same lower-cased form. */
  lemma LowerAgree(a: string, b: string)
    requires |a| == |b|
    requires forall i :: 0 <= i < |a| ==> ToLowerChar(a[i]) == ToLowerChar(b[i])
    ensures Lower(a) == Lower(b)
  {
  }

  predicate StartsWith(s: string, prefix: string) {
    |prefix| <= |s| && s[..|prefix|] == prefix
  }

  // ---------------------------------------------------------------------
  // str.strip()
  // ---------------------------------------------------------------------

  /** The first index at or after `i` that does not hold whitespace, or
      `|s|` when there is none. */
  function SpaceRun(s: string, i: nat): (n: nat)
    requires i <= |s|
    ensures i <= n <= |s|
    ensures forall k :: i <= k < n ==> IsSpace(s[k])
    ensures n == |s| || !IsSpace(s[n])
    decreases |s| - i
  {
    if i < |s| && IsSpace(s[i]) then SpaceRun(s, i + 1) else i
  }

  /** The last index at or before `j` that follows a non-whitespace
      character, or 0 when there is none. */
  function SpaceTail(s: string, j: nat): (n: nat)
    requires j <= |s|
    ensures n <= j
    ensures forall k :: n <= k < j ==> IsSpace(s[k])
    ensures n == 0 || !IsSpace(s[n - 1])
  {
    if j > 0 && IsSpace(s[j - 1]) then SpaceTail(s, j - 1) else j
  }

  /** `s.lstrip()`: drops the leading whitespace and nothing else. */
  function TrimStart(s: string): (r: string)
    ensures |r| <= |s| && r == s[|s| - |r|..]
    ensures forall i :: 0 <= i < |s| - |r| ==> IsSpace(s[i])
    ensures r == [] || !IsSpace(r[0])
  {
    s[SpaceRun(s, 0)..]
  }

  /** `s.rstrip()`: drops the trailing whitespace and nothing else. */
  function TrimEnd(s: string): (r: string)
    ensures |r| <= |s| && r == s[..|r|]
    ensures forall i :: |r| <= i < |s| ==> IsSpace(s[i])
    ensures r == [] || !IsSpace(r[|r| - 1])
  {
    s[..SpaceTail(s, |s|)]
  }

  /** Whitespace followed by a non-whitespace character or the end is
      exactly what `lstrip` drops. */
  lemma TrimStartAt(s: string, n: nat)
    requires n <= |s| && forall k :: 0 <= k < n ==> IsSpace(s[k])
    requires n == |s| || !IsSpace(s[n])
    ensures TrimStart(s) == s[n..]
  {
  }

  predicate AllSpace(s: string) {
    forall k :: 0 <= k < |s| ==> IsSpace(s[k])
  }

  /** `s.strip()`: the infix of `s` left after removing only whitespace from
      both ends, which neither starts nor ends with whitespace. */
  function Strip(s: string): (r: string)
    ensures exists i :: 0 <= i <= |s| && r <= s[i..] && AllSpace(s[..i]) && AllSpace(s[i + |r|..])
    ensures r == [] || (!IsSpace(r[0]) && !IsSpace(r[|r| - 1]))
  {
    var t := TrimStart(s);
    var r := TrimEnd(t);
    var i := |s| - |t|;
    assert r <= s[i..];
    assert AllSpace(s[..i]);
    assert AllSpace(s[i + |r|..]) by {
      assert s[i + |r|..] == t[|r|..];
    }
    r
  }

  /** A string with no whitespace at either end is its own strip. */
  lemma StripNoop(s: string)
    requires s == [] || (!IsSpace(s[0]) && !IsSpace(s[|s| - 1]))
    ensures Strip(s) == s
  {
  }

  /** `(a + b).lstrip()`: the whitespace dropped comes from `a` while `a`
      has anything left, and from `b` only when `a` is all whitespace. */
  lemma TrimStartAppend(a: string, b: string)
    ensures TrimStart(a) != [] ==> TrimStart(a + b) == TrimStart(a) + b
    ensures TrimStart(a) == [] ==> TrimStart(a + b) == TrimStart(b)
  {
    var x := a + b;
    var t := TrimStart(a);
    var n := |a| - |t|;
    if t != [] {
      assert x[n] == t[0];
      assert x[n..] == t + b;
      TrimStartAt(x, n);
    } else {
      var u := TrimStart(b);
      var m := |b| - |u|;
      assert x[|a| + m..] == u;
      assert |a| + m == |x| || x[|a| + m] == u[0];
      TrimStartAt(x, |a| + m);
    }
  }

  /** `(css + tail).strip()` for a tail that does not end in whitespace:
      `css` loses its leading whitespace, or, when `css` is blank, the tail
      loses its own. */
  lemma StripAppend(css: string, tail: string)
    requires tail != [] && !IsSpace(tail[|tail| - 1])
    ensures TrimStart(css) != [] ==> Strip(css + tail) == TrimStart(css) + tail
    ensures TrimStart(css) == [] ==> Strip(css + tail) == TrimStart(tail)
  {
    var x := css + tail;
    TrimStartAppend(css, tail);
    assert x[|x| - 1] == tail[|tail| - 1];
    StripWithoutTrailingSpace(x);
  }

  lemma TrimStartSpaceWord(word: string)
    requires word != [] && !IsSpace(word[0])
    ensures TrimStart(" " + word) == word
  {
    assert (" " + word)[1..] == word;
    TrimStartAt(" " + word, 1);
  }

  /** With nothing to drop at the end, `strip` is `lstrip`. */
  lemma StripWithoutTrailingSpace(x: string)
    requires x != [] && !IsSpace(x[|x| - 1])
    ensures Strip(x) == TrimStart(x)
  {
    var t := TrimStart(x);
    assert t == x[|x| - |t|..];
    TrimEndNoop(t);
  }

  lemma TrimEndNoop(t: string)
    requires t != [] && !IsSpace(t[|t| - 1])
    ensures TrimEnd(t) == t
  {
  }

  /** Stripping twice is stripping once. */
  lemma StripIdempotent(s: string)
    ensures Strip(Strip(s)) == Strip(s)
  {
    StripNoop(Strip(s));
  }

  // ---------------------------------------------------------------------
  // str.split(sep) and sep.join(parts)
  // ---------------------------------------------------------------------

  /** `s.split(sep)` for a one-character separator: the pieces between
      separators, empty pieces included, never an empty list. */
  function Split(s: string, sep: char): (parts: seq<string>)
    ensures |parts| >= 1
    ensures forall k :: 0 <= k < |parts| ==> sep !in parts[k]
    decreases |s|
  {
    if |s| == 0 then [""]
    else
      var rest := Split(s[1..], sep);
      if s[0] == sep then [""] + rest
      else [[s[0]] + rest[0]] + rest[1..]
  }

  /** `sep.join(parts)`. */
  function Join(parts: seq<string>, sep: string): string
    decreases |parts|
  {
    if |parts| == 0 then ""
    else if |parts| == 1 then parts[0]
    else parts[0] + sep + Join(parts[1..], sep)
  }

  /** Splitting and re-joining on the same separator gives back the input. */
  lemma {:induction false} JoinSplit(s: string, sep: char)
    ensures Join(Split(s, sep), [sep]) == s
    decreases |s|
  {
    if |s| > 0 {
      var rest := Split(s[1..], sep);
      JoinSplit(s[1..], sep);
      if s[0] == sep {
        assert ([""] + rest)[1..] == rest;
        assert Join([""] + rest, [sep]) == "" + [sep] + Join(rest, [sep]);
        assert s == [s[0]] + s[1..];
      } else {
        var parts := [[s[0]] + rest[0]] + rest[1..];
        assert parts[1..] == rest[1..];
        if |rest| == 1 {
          assert Join(parts, [sep]) == [s[0]] + rest[0];
        } else {
          assert Join(rest, [sep]) == rest[0] + [sep] + Join(rest[1..], [sep]);
          assert Join(parts, [sep]) == [s[0]] + rest[0] + [sep] + Join(rest[1..], [sep]);
        }
        assert s == [s[0]] + s[1..];
      }
    }
  }

  /** A string without the separator is one piece. */
  lemma {:induction false} SplitNoSep(a: string, sep: char)
    requires sep !in a
    ensures Split(a, sep) == [a]
    decreases |a|
  {
    if |a| > 0 {
      SplitNoSep(a[1..], sep);
      assert a == [a[0]] + a[1..];
    }
  }

  /** Splitting at a separator splits the two sides independently. */
  lemma {:induction false} SplitAppend(a: string, b: string, sep: char)
    ensures Split(a + [sep] + b, sep) == Split(a, sep) + Split(b, sep)
    decreases |a|
  {
    var s := a + [sep] + b;
    if |a| == 0 {
      assert s == [sep] + b;
      assert s[1..] == b;
    } else {
      assert s[0] == a[0];
      assert s[1..] == a[1..] + [sep] + b;
      SplitAppend(a[1..], b, sep);
    }
  }

  /** Joining separator-free pieces and splitting again gives the pieces back. */
  lemma {:induction false} SplitJoin(parts: seq<string>, sep: char)
    requires |parts| >= 1
    requires forall i :: 0 <= i < |parts| ==> sep !in parts[i]
    ensures Split(Join(parts, [sep]), sep) == parts
    decreases |parts|
  {
    if |parts| == 1 {
      SplitNoSep(parts[0], sep);
    } else {
      SplitJoin(parts[1..], sep);
      SplitAppend(parts[0], Join(parts[1..], [sep]), sep);
      SplitNoSep(parts[0], sep);
      assert parts == [parts[0]] + parts[1..];
    }
  }

  // ---------------------------------------------------------------------
  // str(int) and int(str)
  // ---------------------------------------------------------------------

  predicate AllDigits(s: string) {
    forall i :: 0 <= i < |s| ==> IsDigit(s[i])
  }

  function DigitChar(d: nat): char
    requires d < 10
  {
    ('0' as int + d) as char
  }

  function DigitValue(c: char): nat
    requires IsDigit(c)
  {
    c as int - '0' as int
  }

  /** The value of a run of decimal digits (leading zeros allowed). */
  function DigitsValue(s: string): nat
    requires AllDigits(s)
    decreases |s|
  {
    if |s| == 0 then 0 else DigitsValue(s[..|s| - 1]) * 10 + DigitValue(s[|s| - 1])
  }

  /** The decimal text of a natural number: non-empty, digits only, and no
      leading zero unless the number is zero. */
  function NatToString(n: nat): (r: string)
    ensures |r| >= 1 && AllDigits(r)
    ensures r[0] == '0' ==> n == 0
    decreases n
  {
    if n < 10 then [DigitChar(n)] else NatToString(n / 10) + [DigitChar(n % 10)]
  }

  /** `str(n)` for a Python int. */
  function IntToString(n: int): (r: string)
    ensures |r| >= 1
    ensures n < 0 <==> r[0] == '-'
  {
    if n < 0 then "-" + NatToString(-n) else NatToString(n)
  }

  /** The texts `int()` accepts once stripped: an optional sign, then at
      least one decimal digit and nothing else. */
  predicate IntText(t: string) {
    && |t| > 0
    && (IsDigit(t[0]) || ((t[0] == '-' || t[0] == '+') && |t| > 1))
    && forall i :: 1 <= i < |t| ==> IsDigit(t[i])
  }

  predicate AllZeros(z: string) {
    forall i :: 0 <= i < |z| ==> z[i] == '0'
  }

  /** `int(s)`: surrounding whitespace, an optional sign and at least one
      decimal digit; anything else is the ValueError case (None). */
  function ParseInt(s: string): (r: Option<int>)
    ensures r.Some? ==> exists i :: 0 <= i < |s| && IsDigit(s[i])
    ensures r.Some? <==> IntText(Strip(s))
  {
    ParseStripped(Strip(s))
  }

  /** `int()` on text whose whitespace is already stripped. */
  function ParseStripped(t: string): (r: Option<int>)
    ensures r.Some? ==> exists i :: 0 <= i < |t| && IsDigit(t[i])
    ensures r.Some? <==> IntText(t)
  {
    if |t| > 0 && (t[0] == '-' || t[0] == '+') then
      var d := t[1..];
      assert forall i :: 1 <= i < |t| ==> t[i] == d[i - 1];
      if |d| > 0 && AllDigits(d) then
        assert IsDigit(t[1]);
        var v: int := DigitsValue(d);
        Some(if t[0] == '-' then -v else v)
      else None
    else if |t| > 0 && AllDigits(t) then
      assert IsDigit(t[0]);
      Some(DigitsValue(t))
    else None
  }

  /** Leading zeros do not change the value of a digit run. */
  lemma {:induction false} ZerosValue(z: string, x: string)
    requires AllZeros(z) && AllDigits(x)
    ensures AllDigits(z + x) && DigitsValue(z + x) == DigitsValue(x)
    decreases |z| + |x|
  {
    var w := z + x;
    if |x| == 0 {
      assert w == z;
      if |z| > 0 {
        ZerosValue(z[..|z| - 1], []);
        assert z[..|z| - 1] + [] == z[..|z| - 1];
      }
    } else {
      ZerosValue(z, x[..|x| - 1]);
      assert w[..|w| - 1] == z + x[..|x| - 1];
      assert w[|w| - 1] == x[|x| - 1];
    }
  }

  /** A digit run that does not start with `0` has a positive value. */
  lemma {:induction false} PositiveValue(d: string)
    requires AllDigits(d) && |d| > 0 && d[0] != '0'
    ensures DigitsValue(d) >= 1
    decreases |d|
  {
    if |d| > 1 {
      PositiveValue(d[..|d| - 1]);
    }
  }

  /** A digit run without a superfluous leading zero is the decimal text of
      its own value. */
  lemma {:induction false} CanonicalDigits(d: string)
    requires AllDigits(d) && |d| > 0 && (|d| == 1 || d[0] != '0')
    ensures NatToString(DigitsValue(d)) == d
    decreases |d|
  {
    if |d| > 1 {
      var p := d[..|d| - 1];
      CanonicalDigits(p);
      PositiveValue(p);
      var v := DigitsValue(d);
      assert v / 10 == DigitsValue(p) && v % 10 == DigitValue(d[|d| - 1]);
      assert d == p + [d[|d| - 1]];
    }
  }

  /** Every digit run is some leading zeros followed by the decimal text of
      its value. */
  lemma {:induction false} DigitRunSplit(d: string)
    requires AllDigits(d) && |d| > 0
    ensures ZerosThenDecimal(d, DigitsValue(d))
    decreases |d|
  {
    if |d| == 1 || d[0] != '0' {
      CanonicalDigits(d);
      DecimalIsZerosThenDecimal(d, DigitsValue(d));
    } else {
      var e := d[1..];
      DigitRunSplit(e);
      assert [d[0]] + e == d;
      ZerosValue([d[0]], e);
      ZeroThenZerosThenDecimal(d, DigitsValue(e));
    }
  }

  lemma DecimalIsZerosThenDecimal(u: string, m: nat)
    requires u == NatToString(m)
    ensures ZerosThenDecimal(u, m)
  {
    assert AllZeros(u[..0]) && u[0..] == NatToString(m);
  }

  /** One more leading zero keeps the shape. */
  lemma ZeroThenZerosThenDecimal(u: string, m: nat)
    requires |u| > 0 && u[0] == '0' && ZerosThenDecimal(u[1..], m)
    ensures ZerosThenDecimal(u, m)
  {
    var e := u[1..];
    var k :| 0 <= k < |e| && AllZeros(e[..k]) && e[k..] == NatToString(m);
    var zs := u[..k + 1];
    assert AllZeros(zs) by {
      assert forall i :: 1 <= i < |zs| ==> zs[i] == e[..k][i - 1];
    }
    assert u[k + 1..] == e[k..];
  }

  /** The length of the optional sign in front of a number's digits. */
  function SignLength(t: string): (r: nat)
    ensures r <= 1
  {
    if |t| > 0 && (t[0] == '-' || t[0] == '+') then 1 else 0
  }

  /** `u` is some zeros followed by the decimal text of `m`. */
  predicate ZerosThenDecimal(u: string, m: nat) {
    exists k :: 0 <= k < |u| && AllZeros(u[..k]) && u[k..] == NatToString(m)
  }

  /** `t` spells `n` as an optional sign, some leading zeros and the decimal
      text of `n`'s magnitude, with a minus sign on every negative `n` and on
      no positive one. */
  predicate SpellsInt(t: string, n: int) {
    && |t| > SignLength(t)
    && (n < 0 ==> t[0] == '-')
    && (t[0] == '-' ==> n <= 0)
    && ZerosThenDecimal(t[SignLength(t)..], if n < 0 then -n else n)
  }

  /** `int(s)` is `n` exactly when the stripped `s` spells `n`: an optional
      sign, leading zeros and `str(abs(n))`, the sign `-` only when `n` is
      not positive and always when it is negative. */
  lemma ParseIntSpells(s: string, n: int)
    ensures ParseInt(s) == Some(n) <==> SpellsInt(Strip(s), n)
  {
    if ParseInt(s) == Some(n) {
      StrippedShape(Strip(s));
    }
    if SpellsInt(Strip(s), n) {
      StrippedReads(Strip(s), n);
    }
  }

  lemma StrippedShape(t: string)
    requires ParseStripped(t).Some?
    ensures SpellsInt(t, ParseStripped(t).value)
  {
    var p := SignLength(t);
    var d := t[p..];
    assert AllDigits(d) by {
      assert forall i :: 0 <= i < |d| ==> d[i] == t[i + p];
    }
    if p == 0 {
      StrippedUnsigned(d);
    } else {
      assert t == [t[0]] + d;
      StrippedSigned(t[0], d);
    }
    DigitRunSplit(d);
  }

  lemma StrippedReads(t: string, n: int)
    requires SpellsInt(t, n)
    ensures ParseStripped(t) == Some(n)
  {
    var p := SignLength(t);
    var d := t[p..];
    ZerosThenDecimalValue(d, if n < 0 then -n else n);
    if p == 0 {
      assert t == d;
      StrippedUnsigned(d);
    } else {
      assert t == [t[0]] + d;
      StrippedSigned(t[0], d);
    }
  }

  /** Zeros followed by the decimal text of `m` are a digit run worth `m`. */
  lemma ZerosThenDecimalValue(u: string, m: nat)
    requires ZerosThenDecimal(u, m)
    ensures |u| > 0 && AllDigits(u) && DigitsValue(u) == m
  {
    var k :| 0 <= k < |u| && AllZeros(u[..k]) && u[k..] == NatToString(m);
    var z, w := u[..k], NatToString(m);
    assert u == z + w;
    ZerosValue(z, w);
    DigitsOfNat(m);
  }

  lemma StrippedUnsigned(d: string)
    requires AllDigits(d) && |d| > 0
    ensures ParseStripped(d) == Some(DigitsValue(d) as int)
  {
    assert IsDigit(d[0]);
  }

  lemma StrippedSigned(c: char, d: string)
    requires (c == '-' || c == '+') && AllDigits(d) && |d| > 0
    ensures ParseStripped([c] + d) == Some(if c == '-' then -(DigitsValue(d) as int) else DigitsValue(d) as int)
  {
    var t := [c] + d;
    assert |t| > 0 && t[0] == c;
    assert t[1..] == d;
  }

  lemma {:induction false} DigitsOfNat(n: nat)
    ensures DigitsValue(NatToString(n)) == n
    decreases n
  {
    if n >= 10 {
      DigitsOfNat(n / 10);
      var s := NatToString(n);
      assert s[..|s| - 1] == NatToString(n / 10);
    }
  }

  /** `str(n)` has no surrounding whitespace. */
  lemma IntToStringStripped(n: int)
    ensures Strip(IntToString(n)) == IntToString(n)
  {
    var s := IntToString(n);
    var m: nat := if n < 0 then -n else n;
    assert !IsSpace(s[|s| - 1]) by {
      assert s[|s| - 1] == NatToString(m)[|NatToString(m)| - 1];
    }
    StripNoop(s);
  }

  /** `int(str(n)) == n` for every integer. */
  lemma ParseIntToString(n: int)
    ensures ParseInt(IntToString(n)) == Some(n)
  {
    var s := IntToString(n);
    var m: nat := if n < 0 then -n else n;
    IntToStringStripped(n);
    assert s[SignLength(s)..] == NatToString(m) by {
      if n < 0 {
        assert s[0] == '-' && s[1..] == NatToString(m);
      } else {
        assert NatToString(m)[0] != '-' && NatToString(m)[0] != '+' by {
          assert IsDigit(NatToString(m)[0]);
        }
      }
    }
    DecimalIsZerosThenDecimal(NatToString(m), m);
    StrippedReads(s, n);
  }

  /** `str(n)` is written with digits and at most a leading minus sign. */
  lemma IntToStringChars(n: int)
    ensures forall k :: 0 <= k < |IntToString(n)| ==> IsDigit(IntToString(n)[k]) || IntToString(n)[k] == '-'
  {
    if n < 0 {
      var d := NatToString(-n);
      assert forall k :: 1 <= k < |IntToString(n)| ==> IntToString(n)[k] == d[k - 1];
    }
  }

  /** `str(n)` carries a minus sign exactly when `n` is negative. */
  lemma MinusMarksNegative(n: int)
    ensures '-' in IntToString(n) <==> n < 0
  {
    var m: nat := if n < 0 then -n else n;
    var d := NatToString(m);
    assert '-' !in d by {
      assert forall k :: 0 <= k < |d| ==> IsDigit(d[k]);
    }
    if n < 0 {
      assert IntToString(n)[0] == '-';
    } else {
      assert IntToString(n) == d;
    }
  }

  /** Distinct integers have distinct decimal texts. */
  lemma IntToStringInjective(a: int, b: int)
    ensures IntToString(a) == IntToString(b) <==> a == b
  {
    ParseIntToString(a);
    ParseIntToString(b);
  }

  /** A common prefix and suffix cancel. */
  lemma CancelAround(pre: string, x: string, y: string, post: string)
    requires pre + x + post == pre + y + post
    ensures x == y
  {
    var w := pre + x + post;
    assert |x| == |y|;
    assert x == w[|pre|..|pre| + |x|];
    assert y == (pre + y + post)[|pre|..|pre| + |y|];
  }

  /** A marker character absent from both heads splits two equal texts at
      the same place. */
  lemma SplitAtMarker(x: string, y: string, x': string, y': string, m: char)
    requires m !in x && m !in x'
    requires x + [m] + y == x' + [m] + y'
    ensures x == x' && y == y'
  {
    var s := x + [m] + y;
    assert forall k :: 0 <= k < |x| ==> s[k] == x[k] && s[k] != m;
    assert forall k :: 0 <= k < |x'| ==> s[k] == x'[k] && s[k] != m;
    assert s[|x|] == m && s[|x'|] == m;
    assert x == s[..|x|] == x';
    assert y == s[|x| + 1..] == y';
  }
}

=== FILE: uploads.dfy ===
/** The image upload validator (common/upload_validators.py).

    Opening the file with PIL is replaced by what it reports: `detected` is
    the format PIL names for the file, or None when PIL cannot open it or
    names no format (either way the validator ends in the "unrecognised"
    error). The size limit and the allow-list are the settings values
    `MEDIA_MAX_IMAGE_SIZE_MB` and `ALLOWED_IMAGE_FORMATS`, passed in.
 */
module Uploads {
  import opened Wrappers
  import Text
  import Sorting

  const BytesPerMb := 1024 * 1024

  /** An uploaded file: its size in bytes and the format PIL detects. */
  datatype ImageFile = ImageFile(size: int, detected: Option<string>)

  /** The three `ValidationError`s the validator raises. */
  datatype UploadError =
    | TooLarge(limitMb: int)
    | UnsupportedFormat(format: string, allowed: seq<string>)
    | Unrecognized

  function MaxBytes(maxMb: int): int {
    maxMb * BytesPerMb
  }

  /** `f.strip().upper()`. */
  function Normalize(f: string): string {
    Text.Upper(Text.Strip(f))
  }

  /** The normalised allow-list, in settings order. */
  function NormalizedList(allowed: seq<string>): (r: seq<string>)
    ensures |r| == |allowed|
    ensures forall i :: 0 <= i < |allowed| ==> r[i] == Normalize(allowed[i])
  {
    seq(|allowed|, i requires 0 <= i < |allowed| => Normalize(allowed[i]))
  }

  /** `{f.strip().upper() for f in ALLOWED_IMAGE_FORMATS}`. */
  function AllowedSet(allowed: seq<string>): (r: set<string>)
    ensures forall f :: f in r <==> exists i :: 0 <= i < |allowed| && f == Normalize(allowed[i])
  {
    set i | 0 <= i < |allowed| :: Normalize(allowed[i])
  }

  /** `sorted(allowed)`: the set listed in increasing order, as the error
      message shows it. */
  function Listing(allowed: seq<string>): (r: seq<string>)
    ensures Sorting.StrictlySorted(r)
    ensures Sorting.Elems(r) == AllowedSet(allowed)
  {
    var names := NormalizedList(allowed);
    assert Sorting.Elems(names) == AllowedSet(allowed) by {
      forall f | f in AllowedSet(allowed)
        ensures f in Sorting.Elems(names)
      {
        var i :| 0 <= i < |allowed| && f == Normalize(allowed[i]);
        assert names[i] == f;
      }
    }
    Sorting.SortedSet(names)
  }

  const OversizePrefix := "图片大小超过限制："
  const UnsupportedPrefix := "不支持的图片格式："
  const UnsupportedSeparator := "，仅支持："
  const UnrecognizedMessage := "无法识别的图片文件"

  /** The text of each error; its first character tells the three errors
      apart. */
  function Message(e: UploadError): (r: string)
    ensures |r| > 0
    ensures r[0] == OversizePrefix[0] <==> e.TooLarge?
    ensures r[0] == UnsupportedPrefix[0] <==> e.UnsupportedFormat?
    ensures r[0] == UnrecognizedMessage[0] <==> e.Unrecognized?
  {
    match e
    case TooLarge(mb) => OversizePrefix + Text.IntToString(mb) + "MB"
    case UnsupportedFormat(fmt, allowed) => UnsupportedPrefix + fmt + UnsupportedSeparator + Text.Join(allowed, ", ")
    case Unrecognized => UnrecognizedMessage
  }

  /** The oversize message names the limit it was checked against. */
  lemma OversizeMessageNamesLimit(a: int, b: int)
    ensures Message(TooLarge(a)) == Message(TooLarge(b)) <==> a == b
  {
    if Message(TooLarge(a)) == Message(TooLarge(b)) {
      Text.CancelAround(OversizePrefix, Text.IntToString(a), Text.IntToString(b), "MB");
      Text.IntToStringInjective(a, b);
    }
  }

  /** `validate_image(file)`: the size bound first, then the detected format
      upper-cased against the normalised allow-list; a file PIL cannot read
      is "unrecognised". */
  function ValidateImage(file: ImageFile, maxMb: int, allowed: seq<string>): (r: Outcome<UploadError>)
    ensures r == Fail(TooLarge(maxMb)) <==> file.size > MaxBytes(maxMb)
    ensures r == Fail(Unrecognized) <==> file.size <= MaxBytes(maxMb) && file.detected.None?
    ensures r.Pass? <==> file.size <= MaxBytes(maxMb) && file.detected.Some?
                         && Text.Upper(file.detected.value) in AllowedSet(allowed)
    ensures r.Fail? && r.error.UnsupportedFormat? ==>
              && file.detected.Some?
              && r.error.format == Text.Upper(file.detected.value)
              && r.error.format !in Sorting.Elems(r.error.allowed)
              && Sorting.StrictlySorted(r.error.allowed)
              && Sorting.Elems(r.error.allowed) == AllowedSet(allowed)
  {
    if file.size > MaxBytes(maxMb) then Fail(TooLarge(maxMb))
    else
      match file.detected
      case None => Fail(Unrecognized)
      case Some(f) =>
        var fmt := Text.Upper(f);
        if fmt in AllowedSet(allowed) then Pass
        else Fail(UnsupportedFormat(fmt, Listing(allowed)))
  }

  /** A file of exactly the limit passes the size check; one byte more is
      rejected. */
  lemma LimitIsInclusive(maxMb: int, allowed: seq<string>, fmt: string)
    requires Text.Upper(fmt) in AllowedSet(allowed)
    ensures ValidateImage(ImageFile(MaxBytes(maxMb), Some(fmt)), maxMb, allowed) == Pass
    ensures ValidateImage(ImageFile(MaxBytes(maxMb) + 1, Some(fmt)), maxMb, allowed) == Fail(TooLarge(maxMb))
  {
  }

  /** An oversized file gets the size error whatever PIL would say about it
      and whatever the allow-list holds: the format is never looked at. */
  lemma OversizeIgnoresFormat(size: int, d1: Option<string>, d2: Option<string>, maxMb: int,
                              a1: seq<string>, a2: seq<string>)
    requires size > MaxBytes(maxMb)
    ensures ValidateImage(ImageFile(size, d1), maxMb, a1) == ValidateImage(ImageFile(size, d2), maxMb, a2)
  {
  }

  /** The detected format is compared without regard to case. */
  lemma FormatCaseInsensitive(size: int, f: string, g: string, maxMb: int, allowed: seq<string>)
    requires Text.Upper(f) == Text.Upper(g)
    ensures ValidateImage(ImageFile(size, Some(f)), maxMb, allowed) == ValidateImage(ImageFile(size, Some(g)), maxMb, allowed)
  {
  }

  /** Only the normalised allow-list matters: two settings lists that
      normalise to the same set give the same verdict and the same error,
      listing included. */
  lemma AllowListByNormalForm(file: ImageFile, maxMb: int, a1: seq<string>, a2: seq<string>)
    requires AllowedSet(a1) == AllowedSet(a2)
    ensures ValidateImage(file, maxMb, a1) == ValidateImage(file, maxMb, a2)
  {
    Sorting.StrictlySortedUnique(Listing(a1), Listing(a2));
  }

  /** Replacing one entry by another with the same normal form loses no
      allowed format. */
  lemma ReplaceEntryKeeps(allowed: seq<string>, i: nat, entry: string)
    requires i < |allowed| && Normalize(entry) == Normalize(allowed[i])
    ensures AllowedSet(allowed) <= AllowedSet(allowed[i := entry])
  {
    var b := allowed[i := entry];
    forall f | f in AllowedSet(allowed)
      ensures f in AllowedSet(b)
    {
      var k :| 0 <= k < |allowed| && f == Normalize(allowed[k]);
      assert f == Normalize(b[k]);
    }
  }

  /** Surrounding whitespace and letter case in the allow-list entries do
      not matter. */
  lemma AllowListEntryNormalised(allowed: seq<string>, i: nat, entry: string)
    requires i < |allowed| && Normalize(entry) == Normalize(allowed[i])
    ensures AllowedSet(allowed[i := entry]) == AllowedSet(allowed)
  {
    var b := allowed[i := entry];
    ReplaceEntryKeeps(allowed, i, entry);
    assert b[i := allowed[i]] == allowed;
    ReplaceEntryKeeps(b, i, allowed[i]);
  }

  const Jpeg := "JPEG"
  const Png := "PNG"
  const Webp := "WEBP"

  /** The default `ALLOWED_IMAGE_FORMATS`. */
  const DefaultFormats := [Jpeg, Png, Webp]

  /** A name without surrounding whitespace or lower-case letters is its
      own normal form, and upper-casing leaves it alone. */
  lemma NormalizeKeeps(f: string)
    requires f == [] || (!Text.IsSpace(f[0]) && !Text.IsSpace(f[|f| - 1]))
    requires forall i :: 0 <= i < |f| ==> !Text.IsLower(f[i])
    ensures Normalize(f) == f && Text.Upper(f) == f
  {
    Text.StripNoop(f);
  }

  /** A file within the limit whose format matches an allow-list entry up to
      normalisation is accepted. */
  lemma AcceptedWhenListed(file: ImageFile, maxMb: int, allowed: seq<string>, i: nat)
    requires file.size <= MaxBytes(maxMb) && file.detected.Some?
    requires i < |allowed| && Text.Upper(file.detected.value) == Normalize(allowed[i])
    ensures ValidateImage(file, maxMb, allowed) == Pass
  {
  }

  /** The upload check in the test suite that passes: with a 1 MB limit, a
      PNG of at most 1 MB is accepted by any allow-list naming PNG. */
  lemma SmallPngAccepted(size: int, allowed: seq<string>)
    requires size <= BytesPerMb && Png in allowed
    ensures ValidateImage(ImageFile(size, Some(Png)), 1, allowed) == Pass
  {
    NormalizeKeeps(Png);
    var i :| 0 <= i < |allowed| && allowed[i] == Png;
    AcceptedWhenListed(ImageFile(size, Some(Png)), 1, allowed, i);
  }

  /** An allow-list whose entries are already normal is its own set. */
  lemma AllowedSetOfNormal(allowed: seq<string>)
    requires forall i :: 0 <= i < |allowed| ==> Normalize(allowed[i]) == allowed[i]
    ensures AllowedSet(allowed) == Sorting.Elems(allowed)
  {
    assert forall f :: f in AllowedSet(allowed) <==> f in allowed;
  }

  /** Entries that are all one normal name allow that name only. */
  lemma AllowedSetOfRepeated(allowed: seq<string>, f: string)
    requires Normalize(f) == f
    requires |allowed| >= 1 && forall i :: 0 <= i < |allowed| ==> allowed[i] == f
    ensures AllowedSet(allowed) == {f}
  {
    AllowedSetOfNormal(allowed);
    Sorting.ElemsConstant(allowed, f);
  }

  /** A file within the limit whose upper-cased format no entry normalises
      to is refused, with that format and the sorted normal forms. */
  lemma RefusedWhenUnlisted(file: ImageFile, maxMb: int, allowed: seq<string>)
    requires file.size <= MaxBytes(maxMb) && file.detected.Some?
    requires Text.Upper(file.detected.value) !in AllowedSet(allowed)
    ensures ValidateImage(file, maxMb, allowed) == Fail(UnsupportedFormat(Text.Upper(file.detected.value), Listing(allowed)))
  {
  }

  /** With an allow-list naming one normal format only, any other
      upper-case format within the size limit is refused, and the message
      lists that one format. */
  lemma RefusedWhenOnlyOther(size: int, maxMb: int, allowed: seq<string>, f: string, g: string)
    requires size <= MaxBytes(maxMb)
    requires Normalize(f) == f && Text.Upper(g) == g && g != f
    requires |allowed| >= 1 && forall i :: 0 <= i < |allowed| ==> allowed[i] == f
    ensures ValidateImage(ImageFile(size, Some(g)), maxMb, allowed) == Fail(UnsupportedFormat(g, [f]))
  {
    AllowedSetOfRepeated(allowed, f);
    Sorting.SingletonListing(Listing(allowed), f);
    RefusedWhenUnlisted(ImageFile(size, Some(g)), maxMb, allowed);
  }

  /** The upload check in the test suite that fails: with only JPEG allowed
      a PNG is refused with JPEG as the one allowed format. */
  lemma PngRefusedWhenOnlyJpeg(size: int, maxMb: int, allowed: seq<string>)
    requires size <= MaxBytes(maxMb)
    requires |allowed| >= 1 && forall i :: 0 <= i < |allowed| ==> allowed[i] == Jpeg
    ensures ValidateImage(ImageFile(size, Some(Png)), maxMb, allowed) == Fail(UnsupportedFormat(Png, [Jpeg]))
  {
    NormalizeKeeps(Jpeg);
    NormalizeKeeps(Png);
    assert Png != Jpeg by {
      assert |Png| != |Jpeg|;
    }
    RefusedWhenOnlyOther(size, maxMb, allowed, Jpeg, Png);
  }

  /** The message for that refusal. */
  lemma PngRefusalMessage()
    ensures Message(UnsupportedFormat(Png, [Jpeg])) == "不支持的图片格式：PNG，仅支持：JPEG"
  {
    assert Text.Join([Jpeg], ", ") == Jpeg;
  }
}

=== FILE: wrappers.dfy ===
/** Failure-carrying datatypes shared by every module of the model.
    - Option<T>: a value that may be absent (Python's None).
    - Outcome<E>: a check that either passes or fails with an error value
      (a Python function that returns None or raises).
    - Result<T, E>: a computation that yields a value or fails with an error.
 */
module Wrappers {

  datatype Option<+T> = None | Some(value: T) {

    /** The wrapped value, or `default` when absent (`dict.get(k, default)`). */
    function GetOr(default: T): T {
      match this
      case Some(v) => v
      case None => default
    }
  }

  datatype Outcome<+E> = Pass | Fail(error: E)

  datatype Result<+T, +E> = Ok(value: T) | Err(error: E) {

    predicate IsFailure() {
      Err?
    }

    function PropagateFailure<U>(): Result<U, E>
      requires Err?
    {
      Err(error)
    }

    function Extract(): T
      requires Ok?
    {
      value
    }
  }
}
